=== FILE: README.md ===
# orderbyvoice — a Dafny model of the order pipeline

OrderByVoice takes orders by voice. It transcribes an utterance, pulls the customer's name, phone and address out of the text, and matches the text against a product catalog to get line items. A conversation is kept as a row of the `pedido_estado` table. The row moves along the statuses iniciado → aguardando_endereco → em_progresso → aguardando_confirmacao → finalizado.

This project models that logic as pure functions over `seq<char>`, sequences and maps, and proves properties of it:

- **Three order parsers**, kept apart because they disagree:
  - `InventoryProcessor`, for services/process.inventory.py;
  - `OrderProcessor`, for services/order_processor.py;
  - `FallbackProcessor`, for the rule-based paths of src/services/order_processor.py. Its patterns are compiled in `FallbackPhone`, `FallbackCues` and `FallbackQuantity`. Their readings as written, and the proofs that scanner and reading agree, are in `FallbackCueMatch` and `FallbackQuantityMatch`. `Groups` holds the span of a captured group.
- **Two customer-info extractors.** `OrderProcessor.ExtractInfo` splits the text at the leftmost phone number. `FallbackProcessor.ExtractInfo` uses cue phrases.
- **Regular expressions** are hand-compiled scanners. Each tries the choices of its pattern in the order Python's backtracking `re` engine does. Each comes with a reference definition written as the pattern reads, without the engine's order of trying, and lemmas tying the two together: the scanner matches exactly where the pattern does, and it reports the way through the pattern that the engine reaches first. Every repetition in these patterns is greedy, so for the cue and quantity patterns that way is the one whose groups come last. For the quantity pattern the order is: the most digits, then the latest start of the item group, then its latest end.
- **The conversation routes** of controllers/pedidos.py and src/api/controllers/pedidos.py (`Pedidos`). Each is a function from the session table before a turn to the table after it plus the reply. The table is a map from row id to `Sessions.Session`.
- **Everything a route gets from outside is a parameter**: the transcription, the extracted info, the parse result, the row `fetchone()` returns, the id SQLite assigns, and the `uuid4` chat id.
  - The "wired" versions plug in `OrderProcessor.ExtractInfo` and `OrderProcessor.ProcessOrder`, which is what both controllers import.
- **`atualizar_estado_pedido`** (`Sessions`).
- **The validators and `format_currency`** of src/utils (`Validators`, `Formatters`).
- **The record classes and their dictionary encodings** (`Records`).
- **The synonym store and the table logic of database.py** (`Synonyms`, `Database`).
- **Client creation and listing** (`Clientes`).

Other conventions:

- **Prices and totals** are integer cents.
- **Timestamps.** A `datetime` is an integer, and the text `isoformat()` or SQLite writes for it is the value `VStampText`. Each call of `datetime.now()` is a parameter of its own.
- **The JSON text in the `itens` column** is represented by the list it encodes.
- **Character classes** follow Python on U+0000..U+00FF. There, `\d` and `int()` accept only the ASCII digits, and `str.isdigit()` also accepts ¹ ² ³.

Where the code differs from what its tests, docstrings and comments lead one to expect, the model follows the code:

- **Synonym rewriting** runs in dictionary order, not longest alias first.
- **Quantities** come only from digits. No number words are read, and "meia" is not read as 6.
- **Ingredient removal** is triggered only by "sem". It keeps the ingredient list's order and its duplicates.
- **The em_progresso turn** replaces the stored items rather than merging them.
- **There is no cancel transition.** "cancelado" appears only in the lookups.
- **The phone lookup** returns any active session for the phone, not the most recently updated one.
- **A finished session is not rejected.** It is simply not found, and a new "iniciado" row is opened.
- **`fetch_products`** reads an `ingredients` table that `create_tables` never creates. The model takes that table as a parameter.

## Model

| member | source | states |
|---|---|---|
| Text.LowerCharCases | services/process.inventory.py:11 | `lower()` sends each upper-case Latin-1 letter to a lower-case letter, fixes every other character, and never yields an upper-case letter |
| Text.LowerIdempotent | services/process.inventory.py:11 | lower-casing twice is lower-casing once |
| Text.Find | services/process.inventory.py:11 | the search returns the leftmost occurrence at or after the start, and fails only when none exists |
| Text.FindContains | services/process.inventory.py:11 | the search succeeds exactly when the pattern is a substring (Python's `in`) |
| Text.Strip | services/order_processor.py:32 | `strip()` is a slice of the input with no whitespace at either end, and only whitespace was cut off |
| Text.StripEmpty | services/order_processor.py:33 | `strip()` is empty exactly when the input is all whitespace |
| Text.StripUnchanged | services/order_processor.py:38 | a string with no whitespace at either end is its own `strip()` |
| Text.Split | services/process.inventory.py:14 | every word of `split()` is a non-empty run of non-whitespace characters of the input |
| Text.SplitAppend | services/process.inventory.py:14 | splitting distributes over a concatenation whose left part ends in whitespace |
| Text.SplitSingleWord | services/process.inventory.py:14 | a non-empty string without whitespace splits into itself alone |
| Text.SplitOn | services/synonyms.py:108 | `split("\n")` yields at least one piece and no piece holds the separator |
| Text.SplitOnJoin | services/synonyms.py:108 | joining the pieces of `split("\n")` with "\n" gives the input back |
| Text.NatToString | controllers/pedidos.py:269 | `str(n)` is a non-empty run of digits |
| Text.NatToStringRoundTrip | controllers/pedidos.py:269 | reading back the digits of `str(n)` gives `n` |
| Text.DigitsOfDigits | src/utils/validators.py:19 | removing the non-digits leaves digits only, never more characters than before, and a digit string unchanged |
| Text.ReplaceAbsent | services/order_processor.py:61 | `replace` leaves a string without the pattern unchanged |
| Text.ReplaceIntroduces | services/order_processor.py:61 | once the pattern occurs, the replacement occurs in the result |
| Text.ReplaceOneChar | src/utils/formatters.py:18 | replacing one character by another is the character-wise swap |
| Records.GetItens | models/pedido.py:38-40 | `itens` decodes a JSON text, passes a list through, and is [] when missing |
| Records.NewPedidoEstado | models/pedido.py:13-33 | missing `itens` becomes [], and each missing timestamp becomes its own reading of the clock |
| Records.PedidoEstadoToDict | models/pedido.py:54-66 | exactly the nine keys; `itens` is written as its JSON text, and as None exactly when empty; each timestamp as its `isoformat()` text; fails exactly when a timestamp is not a `datetime` |
| Records.PedidoEstadoFromDict | models/pedido.py:36-52 | each missing key takes the constructor default: "" for the client fields, "iniciado", [] and None. A timestamp key keeps its value as it is unless missing or falsy, which reads the clock |
| Records.PedidoEstadoFromEmpty | models/pedido.py:17-21 | an empty dictionary decodes to the default state |
| Records.PedidoEstadoRoundTrip | models/pedido.py:36-66 | `from_dict(to_dict(e))` gives back every field of `e` except the timestamps, which come back as the ISO text; `to_dict` of that result fails |
| Records.PedidoFromDict | models/pedido.py:89-100 | a missing total is 0, a missing status is "pendente", and missing ids are None |
| Records.PedidoFromEmpty | models/pedido.py:76-77 | an empty dictionary decodes to the default order |
| Records.PedidoToDict | models/pedido.py:102-112 | fails exactly when a timestamp is not a `datetime` |
| Records.PedidoRoundTrip | models/pedido.py:89-112 | `Pedido.from_dict(to_dict(p))` gives back every field of `p` except the timestamps, which come back as text; `to_dict` of that result fails |
| Records.ClienteToDict | models/cliente.py:40-49 | exactly the six keys, with nome, telefone and endereco unchanged; fails exactly when a timestamp is not a `datetime` |
| Records.ClienteFromDict | models/cliente.py:28-38 | missing nome, telefone and endereco are "" and a missing id is None; a None endereco, as a NULL column gives, is kept as None |
| Records.ClienteFromEmpty | models/cliente.py:12-26 | an empty dictionary decodes to the default client |
| Records.ClienteRoundTrip | models/cliente.py:28-49 | `Cliente.from_dict(to_dict(c))` gives back every field of `c` except the timestamps, which come back as text; `to_dict` of that result fails |
| Validators.ValidatePhone | src/utils/validators.py:8-27 | valid iff 10 or 11 digits remain. With no digit the message is "obrigatório", otherwise "inválido". A valid result has "" |
| Validators.ValidatePhoneIgnoresNonDigits | src/utils/validators.py:19 | inserting text without digits anywhere does not change the verdict |
| Validators.ValidateName | src/utils/validators.py:29-48 | valid iff at least two characters, all letters or whitespace. Each message is tied to the first check that fails |
| Validators.ValidateAddress | src/utils/validators.py:50-66 | valid iff at least ten characters. Empty and short inputs get their own messages |
| Formatters.GroupedShape | src/utils/formatters.py:18 | the thousands separators sit every four characters from the right, so groups have three digits and the first has one to three |
| Formatters.UngroupGrouped | src/utils/formatters.py:18 | removing the separators gives the digits back |
| Formatters.ReplaceChainSwaps | src/utils/formatters.py:18 | on a text without "X" the replace chain swaps "," and "." and changes nothing else |
| Formatters.FormatCurrencyIsBrazilian | src/utils/formatters.py:18 | the result is "R$ ", the sign, the whole part grouped by ".", then "," and two decimals |
| Formatters.FormatCurrencyEnds | src/utils/formatters.py:18 | the result starts with "R$ " and ends with "," and the two decimals of the amount |
| Formatters.FormatCurrencyRoundTrip | src/utils/formatters.py:18 | the formatted text reads back as the same number of cents |
| Formatters.FixedTwoReadsBack | controllers/pedidos.py:270-272 | `:.2f` writes "-" exactly for a negative amount, then digits, ".", two digits, whose value is the amount's size in cents |
| OrderProcessor.PhoneAtIsPattern | services/order_processor.py:26 | the scanner matches at an index exactly when the pattern matches a span starting there, and it ends where that span ends |
| OrderProcessor.SearchPhone | services/order_processor.py:26 | a found match is the scanner's match at its own start |
| OrderProcessor.SearchPhoneIsLeftmost | services/order_processor.py:26 | the search returns the leftmost match, and fails only when no index matches |
| OrderProcessor.ExtractInfo | services/order_processor.py:9-42 | the phone is "" or 11 digits, and without a phone the name and address are "" too |
| OrderProcessor.ExtractInfoSplitsAtPhone | services/order_processor.py:19-40 | with no phone span every field is "". Otherwise the phone is the digits of the leftmost span, the name the stripped text before it and the address the stripped text after it |
| OrderProcessor.ExtractComposed | services/order_processor.py:26-40 | a digit-free name, a phone in any accepted form and an address read back as the stripped name, the 11 digits and the stripped address |
| OrderProcessor.RewriteSequential | services/order_processor.py:60-61 | later synonyms act on the output of earlier ones |
| OrderProcessor.RewriteOneAbsent | services/order_processor.py:61 | a synonym absent from the text leaves it unchanged |
| OrderProcessor.RewriteOnePresent | services/order_processor.py:61 | a synonym present in the text brings its product name into it |
| OrderProcessor.DigitsTryLongest | services/order_processor.py:69 | the quantity scan takes the longest digit run that admits a match, as the greedy `\d+` does |
| OrderProcessor.SearchQuantity | services/order_processor.py:69 | with the name read literally, `re.search(rf'(\d+)\s*{produto}')` finds the leftmost start and fails only when no start matches |
| OrderProcessor.QuantityForIsLeftmostLongest | services/order_processor.py:68-71 | with the name read literally, the quantity is 1 with no "digits, whitespace, name" occurrence, else the value of the longest digit run at the leftmost occurrence |
| OrderProcessor.QuantityWithoutDigitsIsOne | services/order_processor.py:68 | with the name read literally, a text without digits orders one unit |
| OrderProcessor.Matched | services/order_processor.py:64-66 | the matched products are exactly the catalog entries whose lower-cased name occurs, as a subsequence of the catalog |
| OrderProcessor.ItemsFromMatched | services/order_processor.py:64-77 | the loop emits one item per matched entry, in catalog order |
| OrderProcessor.ProcessOrder | services/order_processor.py:44-79 | None iff no product name occurs in the rewritten text. Otherwise one item per matched product, in catalog order, with the lower-cased name, its quantity (name read literally) and the catalog price |
| InventoryProcessor.Mentioned | services/process.inventory.py:10-11 | exactly the products whose lower-cased name occurs in the lower-cased text, in inventory order |
| InventoryProcessor.QuantityScanFails | services/process.inventory.py:14-16 | the word loop fails (`int()` raises) exactly when some word passes `isdigit()` but holds ¹ ² or ³ |
| InventoryProcessor.QuantityScanIsLast | services/process.inventory.py:14-16 | the loop fails iff a word holds a superscript digit; otherwise it returns the value of the last `isdigit()` word, or its start value when there is none |
| InventoryProcessor.QuantityIsLastDigitWord | services/process.inventory.py:13-16 | the quantity fails iff a word of the text holds a superscript digit; otherwise it is the value of the last `isdigit()` word, and 1 without one |
| InventoryProcessor.SuperscriptWordFails | services/process.inventory.py:15-16 | a word "²" anywhere in the text makes the quantity fail |
| InventoryProcessor.NoDigitsQuantityOne | services/process.inventory.py:13-16 | a text without a character `isdigit()` accepts orders one of each product |
| InventoryProcessor.PresentIngredients | services/process.inventory.py:21-23 | exactly the ingredients whose lower-cased name occurs, in list order |
| InventoryProcessor.Removed | services/process.inventory.py:19-23 | empty without "sem". With it, exactly the product's ingredients named in the text. Always a subsequence of the ingredient list |
| InventoryProcessor.ProcessFromAppends | services/process.inventory.py:10-30 | the loop appends the item of every mentioned product, in inventory order, and fails exactly when a product is mentioned and the quantity fails |
| InventoryProcessor.ProcessOrder | services/process.inventory.py:1-32 | a failure (the `ValueError` of `int()`) iff some product is mentioned and the quantity fails. Otherwise one item per mentioned product in inventory order, with the catalog name, the text's single quantity and the removal list; [] iff nothing is mentioned |
| InventoryProcessor.RemovedAreIngredients | services/process.inventory.py:19-30 | each item's removal list is a subsequence of the ingredients of a mentioned product with that name |
| InventoryScenarios.Scenario1 | test/test_order_processor.py:30-38 | "Quero um Big Mac sem cebola." orders one Big Mac without Cebola |
| InventoryScenarios.Scenario5 | test/test_order_processor.py:74-88 | the two-product sentence orders one Big Mac without Cebola and one Coca-Cola 350ml |
| InventoryScenarios.BigMacWithoutCebola | test/test_order_processor.py:30-38 | any text without an `isdigit()` character, naming the Big Mac with "sem" and "cebola", and no other product or ingredient, gives that one item |
| InventoryScenarios.BigMacAndCoca | test/test_order_processor.py:74-88 | any text naming the Big Mac and the Coca-Cola with "sem" and "cebola" gives those two items, Cebola removed from the first only |
| InventoryScenarios.BigMacRemovesCebola | test/test_order_processor.py:30-38 | a text with "sem" and "cebola", and no other Big Mac ingredient, removes exactly Cebola |
| FallbackPhone.FirstWayIsFirst | src/services/order_processor.py:42 | the phone scanner takes, at an index, the first way through the pattern in backtracking order |
| FallbackPhone.SearchPhoneHit | src/services/order_processor.py:42-45 | a found phone sits at the leftmost matching index, on the first matching way there, and is the span with its separators dropped |
| FallbackPhone.SearchPhoneMiss | src/services/order_processor.py:42-44 | the phone search fails exactly when no index matches |
| FallbackPhone.SearchPhoneDigits | src/services/order_processor.py:42-45 | a found phone is 8 to 11 digits |
| FallbackCues.CaptureAtSound | src/services/order_processor.py:48-57 | every capture the cue scanners return is a group the pattern admits |
| FallbackCueMatch.CaptureAtIsPattern | src/services/order_processor.py:48-55 | the name and address scanners match at an index exactly when the pattern, read as written (`\b`, one of the three cues with `\s+` between their words, then `\s+` and the group with its lookahead), matches there |
| FallbackCueMatch.CaptureAtIsFirst | src/services/order_processor.py:48-55 | at each index the name and address scanners return exactly the match the engine reports there: among all ways the pattern as written matches, the one whose group starts last, and ends last at that start |
| FallbackProcessor.ExtractInfo | src/services/order_processor.py:35-59 | a found phone holds only digits, between 8 and 11 |
| FallbackProcessor.ExtractMissing | src/services/order_processor.py:35-57 | each field is None exactly when its own pattern matches nowhere, independently of the others; for name and address this holds both for the scanners and for the patterns as written |
| FallbackProcessor.ExtractPhoneFound | src/services/order_processor.py:42-45 | the phone is the leftmost match with whitespace and hyphens removed |
| FallbackProcessor.ExtractNameFound | src/services/order_processor.py:48-51 | the name is the title-cased, stripped group of the match the engine reports at the leftmost index where the pattern as written matches: a letters-and-whitespace run ending at whitespace or the end of the text |
| FallbackProcessor.ExtractAddressFound | src/services/order_processor.py:54-57 | the address is the capitalized, stripped group of the match the engine reports at the leftmost index where the pattern as written matches, and none of its characters is `,` `.` `!` or `?` |
| FallbackProcessor.MeChamoName | src/services/order_processor.py:48-51 | "me chamo " followed by a clean name gives that name title-cased |
| FallbackProcessor.MoroEmAddress | src/services/order_processor.py:54-57 | "moro em " followed by a clean address gives that address capitalized |
| FallbackQuantityMatch.ItemAtWhen | src/services/order_processor.py:99-100 | the quantity pattern matches at an index exactly when a run of digits starts there and an item-class character follows the whole run |
| FallbackQuantityMatch.ItemAtIsFirst | src/services/order_processor.py:99-100 | the scanner's match at an index is exactly the engine's: among all ways the pattern as written matches (digits, `\s*`, an optional unit, `\s*`, an optional "de" and whitespace, the item group), the one with the most digits, then the latest item-group start, then the latest end |
| FallbackQuantityMatch.QuantityTailToAt | src/services/order_processor.py:99 | `\s*(?:x\|unidades?\|un\.?)?\s*(?:de\s+)?` read as written leads from the end of the digits to a group start exactly when that start lies in the whitespace run after the digits, or is reached from the end of that run through one unit or none, whitespace, and "de" with whitespace or nothing |
| FallbackQuantityMatch.ItemAtShape | src/services/order_processor.py:99-104 | a match's quantity is the value of its whole digit run, and its words are a maximal run of the item class |
| FallbackQuantity.MatchesIsFindIter | src/services/order_processor.py:99-100 | the match list is `re.finditer`: each match is the leftmost one after the previous match ends, and none follows the last |
| FallbackQuantity.FindIterUnique | src/services/order_processor.py:99-100 | only one match list has that property |
| FallbackProcessor.FindProductIsFirst | src/services/order_processor.py:106-117 | the product loop stops at the first product the words name, and fails only when none does |
| FallbackProcessor.ItemForIsFirstProduct | src/services/order_processor.py:106-125 | an item carries the id, name and price of the first product named by the words or its synonyms, with the match's quantity |
| FallbackProcessor.ItemsOfFromMatches | src/services/order_processor.py:102-125 | items come only from matches that name a product, every such match gives one, and the list is empty iff none does |
| FallbackProcessor.ProcessOrder | src/services/order_processor.py:93-127 | a result is never an empty list |
| FallbackProcessor.ProcessOrderNone | src/services/order_processor.py:127 | the result is None exactly when no match names a product |
| FallbackProcessor.ProcessOrderFromCatalog | src/services/order_processor.py:119-125 | each item's id, name and unit price come from one catalog product |
| FallbackProcessor.NumberThenName | src/services/order_processor.py:93-127 | "digits, space, product name" orders that product with the quantity of the digits |
| FallbackProcessor.OneLine | src/services/order_processor.py:100-125 | a text with a single match yields that match's item, or nothing |
| Database.ValuesForMembers | database.py:104-108 | a product's collected synonyms are exactly the texts of its rows |
| Database.FetchSynonyms | database.py:92-110 | the keys are exactly the product ids present. Each list is the product's texts in row order and is never empty |
| Database.GroupingKeepsCount | database.py:104-108 | over the distinct ids, the lists hold as many texts as there are rows |
| Database.InsertData | database.py:43-57 | one fresh id per inventory entry, and the tables stay well-formed |
| Database.InsertDataRows | database.py:43-57 | one product row per entry, appended in order with consecutive fresh ids. Each entry's synonyms are linked to its id. Earlier products keep theirs |
| Database.FetchProducts | database.py:63-88 | one entry per product row, with its fields copied and exactly the ingredient rows carrying its id |
| Synonyms.GetSynonymsForProduct | services/synonyms.py:3-10 | the product's synonyms in row order, and [] when it has none |
| Synonyms.UpdateSynonymsSets | services/synonyms.py:21-40 | afterwards the product's synonyms are exactly the new list, duplicates included, and every other product's are unchanged |
| Synonyms.NotIn | services/synonyms.py:52 | the kept entries are exactly the additional ones not already present |
| Synonyms.AddSynonyms | services/synonyms.py:43-62 | existing synonyms stay and the absent additional ones follow in order. Other products are untouched, and nothing changes when all are present |
| Synonyms.RemoveSynonymEffect | services/synonyms.py:65-77 | every occurrence of that synonym goes from that product only, and its other synonyms keep their order |
| Synonyms.ParseSynonymLinesMembers | services/synonyms.py:107-108 | the kept synonyms are exactly the non-empty stripped lines of the reply |
| Synonyms.ParseSynonymLinesClean | services/synonyms.py:107-108 | no kept synonym is empty or has whitespace at either end |
| Clientes.CriarCliente | src/api/controllers/clientes.py:19-49 | a blank name or phone, or a stored phone, answers 400 and leaves the table. Otherwise exactly one row is appended, carrying the two clock readings of the new `Cliente`, and 201 answered. Phones stay unique |
| Clientes.CriarClientesKeepsPhonesUnique | src/api/controllers/clientes.py:32-47 | across any sequence of calls no phone is stored twice |
| Clientes.CriarClienteSimples | controllers/clientes.py:14-40 | the same answers and table effect, with the row inserted without timestamps |
| Clientes.CriarClientesSimplesKeepsPhonesUnique | controllers/clientes.py:27-37 | across any sequence of calls no phone is stored twice |
| Clientes.ListarClientes | src/api/controllers/clientes.py:67-80 | one dictionary per row, in row order, mapping columns 0-5 to their names |
| Clientes.ListedClienteReadsBack | src/api/controllers/clientes.py:72-79 | every listed row, including one with a NULL address, reads back through `Cliente.from_dict` as the row it came from, its timestamps as the stored text (a NULL one reads the clock) |
| Sessions.NextIsOneStep | controllers/pedidos.py:206-301 | the status chain moves one place forward, never reaches "cancelado", and ends at "finalizado" |
| Sessions.AdvancedStepsOnce | controllers/pedidos.py:215-219 | each advancing update moves its session exactly one status forward |
| Sessions.AtualizarEstadoPedido | controllers/pedidos.py:20-31 | the parameters are the values of `dados` in order, followed by `estado_id` |
| Sessions.PlaceholdersMatchParameters | controllers/pedidos.py:29-31 | with keys free of "?", the statement has one placeholder per parameter |
| Sessions.AssignmentsPlaceholders | src/api/controllers/pedidos.py:26 | the SET clause has one placeholder per key |
| Pedidos.ItemTexts | controllers/pedidos.py:269 | one text per item, quantity then product name |
| Pedidos.Step | controllers/pedidos.py:202-301 | at most one step forward. Chat id and phone are kept, and so is Consistent. Inactive sessions are untouched. Each status advances exactly when its field, items or "confirmar" is present, with exactly that update |
| Pedidos.ConversaInterativa | controllers/pedidos.py:162-301 | in the streaming variant an empty transcription re-prompts. A missing phone re-prompts. Neither writes. No active session: one "iniciado" row with the phone. Otherwise the step on the session found |
| Pedidos.ConversaInterativaEffect | src/api/controllers/pedidos.py:86-183 | at most one new row. Every session stays or moves one status. Only the session found changes, never an inactive one. Consistent rows stay consistent |
| Pedidos.ContinuarConversa | controllers/pedidos.py:330-452 | an unknown chat id is an error, an empty transcription a re-prompt, and an "iniciado" session is left as it is |
| Pedidos.ContinuarConversaEffect | controllers/pedidos.py:332-452 | no row added. Only the session with that chat id changes, by one status and never out of "iniciado" |
| Pedidos.Heard | controllers/pedidos.py:72-80 | the transcription used is empty only when both recordings are |
| Pedidos.IdentifyChat | controllers/pedidos.py:94-98 | exactly the rows with that chat id get the phone, the name and "aguardando_endereco" |
| Pedidos.IniciarConversa | controllers/pedidos.py:47-116 | the inserted row stays "iniciado" when the audio or the phone is missing. Otherwise the reply carries the chat id, name and phone |
| Pedidos.IniciarConversaEffect | controllers/pedidos.py:53-98 | exactly one row is added. With a fresh chat id no other row changes, and the new row is identified exactly when the route succeeds |
| Pedidos.IniciarConversaApi | src/api/controllers/pedidos.py:41-55 | one "iniciado" row carrying only the chat id is added, nothing else changes, and the welcome is returned |
| Pedidos.ConversaInterativaWiredReplies | controllers/pedidos.py:170-266 | a text without a phone leaves the table. In em_progresso the table changes iff the parser finds items, and then holds exactly them |
| Pedidos.IniciarConversaWired | controllers/pedidos.py:72-116 | no audio fails, no phone fails, and a successful start carries an 11-digit phone |

## Left out

- **Audio and speech.** Recording, saving, deleting, transcribing, `tts.speak` and `time.sleep` are not modelled; the transcription is an input string, and a `None` transcription is not modelled (only "").
- **OpenAI paths.** The OpenAI branches of src/services/order_processor.py, and the network call and `print` of `regenerate_synonyms_using_ai`, are left out. Only the parsing of the reply is modelled.
- **Flask and SQLite plumbing.** Connections, commits, `create_tables`, HTTP status codes of the pedidos routes, the streaming framing and JSON serialisation are left out. Each table is a map or a sequence of rows.
- **The row `fetchone()` returns** is the parameter `pick`. It is constrained only to be some active matching row, because the query has no ORDER BY.
- **Exception handlers** and the 500 replies they produce are not modelled.
- **Dynamic typing.** `from_dict` in the source keeps whatever value it finds; the model reads each field at its declared type, so a value of another type is a `Failure` where the source keeps the value as is. The exception is `Cliente.endereco`, which the `clientes` table may hold as NULL: a None there is kept.
- **The key of the "Cliente já existe" reply** is not modelled: the source answers `{"message": ...}`, not `{"error": ...}`. `Clientes.Response` carries only the code and the text.
- **The pedido_estado schema** is not part of this model. All three routes read the status as `estado[3]` (controllers/pedidos.py:204 and :376, src/api/controllers/pedidos.py:111); the model assumes that column is `status`, as their comments say, and reads the `status` field.
- **Floating point.** Prices, totals and `Pedido.total` are integer cents, so float rounding in `format_currency` and in `:.2f` is not modelled.
- **`format_date`** (datetime parsing and strftime) is left out. `datetime.now()` and `uuid4()` are parameters. A `datetime` is an integer, and the ISO text written for it is the opaque value `VStampText`, not its characters.
- **The clientes schema** is not part of this model. It assumes untyped timestamp columns with no defaults: a timestamp the code writes reads back as the text stored for it (`VStampText`), and one it does not write (controllers/clientes.py:34) is NULL. A column declared TIMESTAMP would, under the `PARSE_DECLTYPES` connection of core/database.py, read back as a `datetime`, and a column default would fill the row.
- **JSON text of `itens`.** It is represented by the list it encodes, so `json.loads(json.dumps(x)) == x` is taken as given.
- **Character classes above U+00FF.** They are treated as non-digits and uncased. Python's `\d`, `isdigit()` and `int()` also accept the decimal digits of other scripts, and its case mapping covers them.
- **`get_all_synonyms`** only returns `fetch_synonyms()`, which `Database.FetchSynonyms` models.
- **Test scenarios 2, 3, 4 and 6** of test/test_order_processor.py are not asserted. They expect number words and the triggers "não quero", "pode tirar" and "tire", which no parser in the repository implements.
- OrderProcessor.SearchQuantity: reads the product name literally. services/order_processor.py:69 puts the name into the pattern unescaped, so a name holding one of `.^$*+?{}[]\|()` is matched as a pattern: with "pizza (grande)" the parenthesised part is a group, the text must say "pizza grande", and the quantity of "2 pizza (grande)" is 1, not 2.
- OrderProcessor.QuantityForIsLeftmostLongest: holds for the literal reading of the name only, for the reason given for SearchQuantity. A name with an unbalanced "(" or "[" makes `re.search` raise `re.error`, and the model gives a quantity instead.
- OrderProcessor.QuantityWithoutDigitsIsOne: holds for the literal reading of the name only. A name with an unbalanced "(" or "[" raises `re.error` even when the text has no digit.
- OrderProcessor.ProcessOrder: the quantities assume names without pattern characters. With such a name the source may find another quantity or raise `re.error`. The routes catch that error, so the em_progresso turn then writes nothing, while the model parses the text and updates the session. Python's pattern semantics for arbitrary names is not modelled.
- Pedidos.ConversaInterativaWiredReplies: inherits the literal reading of product names from OrderProcessor.ProcessOrder. A name that makes `re.search` raise leaves the em_progresso session unwritten in the source.
- FallbackProcessor.ProcessOrder: its own contract states only that a result is non-empty. The item content is stated by ItemsOfFromMatches, ItemForIsFirstProduct and ProcessOrderNone.
- FallbackProcessor.ExtractInfo: its own contract states only the phone's shape. The fields are stated by ExtractMissing, ExtractPhoneFound, ExtractNameFound and ExtractAddressFound.
- Pedidos.IniciarConversaWired: the phone's digits are not related to the spoken text beyond their shape. That relation is stated once, by OrderProcessor.ExtractInfoSplitsAtPhone.

=== FILE: clientes.dfy ===
/** `criar_cliente` of controllers/clientes.py and of src/api/controllers/clientes.py, and
    `listar_clientes` of the latter, over the `clientes` table held as a sequence of rows.

    The id SQLite assigns to a new row is the parameter `newId`. The `Cliente` constructor
    reads the clock once per timestamp: those two readings are the parameters `nowCreated`
    and `nowUpdated`. */
module Clientes {
  import opened Wrappers
  import opened Records

  /** A row of `clientes (id, nome, telefone, endereco, created_at, updated_at)`. */
  datatype ClienteRow = ClienteRow(id: int, nome: string, telefone: string, endereco: Option<string>,
                                   createdAt: Option<int>, updatedAt: Option<int>)

  /** The JSON body of the request: each field is a string, or absent / null. */
  datatype Request = Request(nome: Option<string>, telefone: Option<string>, endereco: Option<string>)

  /** An HTTP status code and the text of the response body. */
  datatype Response = Response(code: int, body: string)

  const Required := Response(400, "Nome e telefone são obrigatórios")
  const Exists := Response(400, "Cliente já existe")
  const Created := Response(201, "Cliente criado com sucesso")

  /** Python's `not value` for a string field. */
  predicate Blank(o: Option<string>) {
    o == None || o == Some("")
  }

  /** Some row has this phone (`SELECT * FROM clientes WHERE telefone = ?` finds a row). */
  predicate HasPhone(store: seq<ClienteRow>, telefone: string) {
    exists k :: 0 <= k < |store| && store[k].telefone == telefone
  }

  /** No two rows share a phone. */
  predicate UniquePhones(store: seq<ClienteRow>) {
    forall i, j :: 0 <= i < j < |store| ==> store[i].telefone != store[j].telefone
  }

  /** `criar_cliente` of src/api/controllers/clientes.py: the row carries the two clock
      readings of the new `Cliente`. */
  function CriarCliente(store: seq<ClienteRow>, req: Request, newId: int, nowCreated: int, nowUpdated: int): (r: (seq<ClienteRow>, Response))
    ensures Blank(req.nome) || Blank(req.telefone) ==> r == (store, Required)
    ensures !Blank(req.nome) && !Blank(req.telefone) && HasPhone(store, req.telefone.value) ==> r == (store, Exists)
    ensures !Blank(req.nome) && !Blank(req.telefone) && !HasPhone(store, req.telefone.value) ==>
              r.1 == Created &&
              r.0 == store + [ClienteRow(newId, req.nome.value, req.telefone.value, req.endereco, Some(nowCreated), Some(nowUpdated))]
    ensures UniquePhones(store) ==> UniquePhones(r.0)
  {
    if Blank(req.nome) || Blank(req.telefone) then (store, Required)
    else if HasPhone(store, req.telefone.value) then (store, Exists)
    else
      var row := ClienteRow(newId, req.nome.value, req.telefone.value, req.endereco, Some(nowCreated), Some(nowUpdated));
      AppendNewPhone(store, row);
      (store + [row], Created)
  }

  /** `criar_cliente` of controllers/clientes.py: the row is inserted without timestamps. */
  function CriarClienteSimples(store: seq<ClienteRow>, req: Request, newId: int): (r: (seq<ClienteRow>, Response))
    ensures Blank(req.nome) || Blank(req.telefone) ==> r == (store, Required)
    ensures !Blank(req.nome) && !Blank(req.telefone) && HasPhone(store, req.telefone.value) ==> r == (store, Exists)
    ensures !Blank(req.nome) && !Blank(req.telefone) && !HasPhone(store, req.telefone.value) ==>
              r.1 == Created &&
              r.0 == store + [ClienteRow(newId, req.nome.value, req.telefone.value, req.endereco, None, None)]
    ensures UniquePhones(store) ==> UniquePhones(r.0)
  {
    if Blank(req.nome) || Blank(req.telefone) then (store, Required)
    else if HasPhone(store, req.telefone.value) then (store, Exists)
    else
      var row := ClienteRow(newId, req.nome.value, req.telefone.value, req.endereco, None, None);
      AppendNewPhone(store, row);
      (store + [row], Created)
  }

  lemma AppendNewPhone(store: seq<ClienteRow>, row: ClienteRow)
    requires UniquePhones(store) ==> !HasPhone(store, row.telefone)
    ensures UniquePhones(store) ==> UniquePhones(store + [row])
  {
    if UniquePhones(store) {
      var s := store + [row];
      forall i, j | 0 <= i < j < |s|
        ensures s[i].telefone != s[j].telefone
      {
        if j == |store| {
          assert s[i] == store[i];
        }
      }
    }
  }

  /** A sequence of `criar_cliente` calls of src/api/controllers/clientes.py, the k-th given
      the id `ids[k]` and the clock readings `clock[k]`. */
  function CriarClientes(store: seq<ClienteRow>, reqs: seq<Request>, ids: seq<int>, clock: seq<(int, int)>): seq<ClienteRow>
    requires |ids| == |reqs| == |clock|
    decreases |reqs|
  {
    if reqs == [] then store
    else CriarClientes(CriarCliente(store, reqs[0], ids[0], clock[0].0, clock[0].1).0, reqs[1..], ids[1..], clock[1..])
  }

  /** Across any sequence of calls, no phone is ever stored twice. */
  lemma {:induction false} CriarClientesKeepsPhonesUnique(store: seq<ClienteRow>, reqs: seq<Request>, ids: seq<int>, clock: seq<(int, int)>)
    requires |ids| == |reqs| == |clock| && UniquePhones(store)
    ensures UniquePhones(CriarClientes(store, reqs, ids, clock))
    decreases |reqs|
  {
    if reqs != [] {
      CriarClientesKeepsPhonesUnique(CriarCliente(store, reqs[0], ids[0], clock[0].0, clock[0].1).0, reqs[1..], ids[1..], clock[1..]);
    }
  }

  /** The same for controllers/clientes.py. */
  function CriarClientesSimples(store: seq<ClienteRow>, reqs: seq<Request>, ids: seq<int>): seq<ClienteRow>
    requires |ids| == |reqs|
    decreases |reqs|
  {
    if reqs == [] then store
    else CriarClientesSimples(CriarClienteSimples(store, reqs[0], ids[0]).0, reqs[1..], ids[1..])
  }

  lemma {:induction false} CriarClientesSimplesKeepsPhonesUnique(store: seq<ClienteRow>, reqs: seq<Request>, ids: seq<int>)
    requires |ids| == |reqs| && UniquePhones(store)
    ensures UniquePhones(CriarClientesSimples(store, reqs, ids))
    decreases |reqs|
  {
    if reqs != [] {
      CriarClientesSimplesKeepsPhonesUnique(CriarClienteSimples(store, reqs[0], ids[0]).0, reqs[1..], ids[1..]);
    }
  }

  // ---------------------------------------------------------------------------
  // listar_clientes

  /** A timestamp column: the text SQLite stored for the `datetime`, or NULL. */
  function OptStamp(o: Option<int>): Value {
    match o
    case Some(t) => VStampText(t)
    case None => VNone
  }

  /** The dictionary `listar_clientes` builds from one row: columns 0 to 5 by name. */
  function RowDict(row: ClienteRow): Dict {
    map["id" := VInt(row.id),
        "nome" := VStr(row.nome),
        "telefone" := VStr(row.telefone),
        "endereco" := OptStrValue(row.endereco),
        "created_at" := OptStamp(row.createdAt),
        "updated_at" := OptStamp(row.updatedAt)]
  }

  /** `listar_clientes`: one dictionary per row, in row order. */
  function ListarClientes(rows: seq<ClienteRow>): (r: seq<Dict>)
    ensures |r| == |rows|
    ensures forall i :: 0 <= i < |r| ==> r[i] == RowDict(rows[i])
  {
    seq(|rows|, i requires 0 <= i < |rows| => RowDict(rows[i]))
  }

  /** The timestamp `Cliente.from_dict` makes of a listed column: the stored text, or a
      fresh reading of the clock for NULL. */
  function ListedStamp(o: Option<int>, now: int): Stamp {
    match o
    case Some(t) => Kept(VStampText(t))
    case None => DateTime(now)
  }

  /** Every listed client, a NULL address included, reads back through `Cliente.from_dict`
      as the row it came from, its timestamps as the stored text. */
  lemma ListedClienteReadsBack(rows: seq<ClienteRow>, i: nat, nowCreated: int, nowUpdated: int)
    requires i < |rows|
    ensures var row := rows[i];
            ClienteFromDict(ListarClientes(rows)[i], nowCreated, nowUpdated) ==
              Success(Cliente(Some(row.id), row.nome, row.telefone, row.endereco,
                              ListedStamp(row.createdAt, nowCreated), ListedStamp(row.updatedAt, nowUpdated)))
  {
  }
}

=== FILE: database.dfy ===
/** The table logic of database.py over in-memory tables.

    A table is a sequence of rows in insertion order, which is the order SQLite returns them
    in for the `SELECT`s without `ORDER BY` used here. The `synonyms` and `ingredients`
    tables have the same shape, a product id and a text, and share `LinkRow`. */
module Database {

  /** A row of `synonyms (produto_id, sinonimo)` or of `ingredients (produto_id, ingrediente)`. */
  datatype LinkRow = LinkRow(produtoId: int, value: string)

  /** A row of `products (id, nome, categoria, descricao)`. */
  datatype ProductRow = ProductRow(id: int, nome: string, categoria: string, descricao: string)

  /** Reference definition: the texts linked to product `pid`, in row order. */
  function ValuesFor(rows: seq<LinkRow>, pid: int): seq<string> {
    if rows == [] then []
    else ValuesFor(rows[..|rows| - 1], pid)
         + (if rows[|rows| - 1].produtoId == pid then [rows[|rows| - 1].value] else [])
  }

  lemma ValuesForOne(r: LinkRow, pid: int)
    ensures ValuesFor([r], pid) == if r.produtoId == pid then [r.value] else []
  {
    assert [r][..0] == [];
  }

  /** The product ids the rows mention. */
  function ProductIds(rows: seq<LinkRow>): set<int> {
    set r | r in rows :: r.produtoId
  }

  lemma {:induction false} ValuesForMembers(rows: seq<LinkRow>)
    ensures forall pid, v :: v in ValuesFor(rows, pid) <==> LinkRow(pid, v) in rows
  {
    if rows != [] {
      var init := rows[..|rows| - 1];
      ValuesForMembers(init);
      assert rows == init + [rows[|rows| - 1]];
    }
  }

  lemma {:induction false} ValuesForAppend(a: seq<LinkRow>, b: seq<LinkRow>, pid: int)
    ensures ValuesFor(a + b, pid) == ValuesFor(a, pid) + ValuesFor(b, pid)
    decreases |b|
  {
    if b == [] {
      assert a + b == a;
    } else {
      var init := b[..|b| - 1];
      var last := b[|b| - 1];
      var tail := if last.produtoId == pid then [last.value] else [];
      calc {
        ValuesFor(a + b, pid);
        { assert (a + b)[..|a + b| - 1] == a + init; }
        ValuesFor(a + init, pid) + tail;
        { ValuesForAppend(a, init, pid); }
        ValuesFor(a, pid) + ValuesFor(init, pid) + tail;
      }
    }
  }

  /** The rows that link `values` to product `pid`, in order. */
  function LinkRows(pid: int, values: seq<string>): (r: seq<LinkRow>)
    ensures |r| == |values| && forall k :: 0 <= k < |r| ==> r[k] == LinkRow(pid, values[k])
  {
    seq(|values|, k requires 0 <= k < |values| => LinkRow(pid, values[k]))
  }

  lemma {:induction false} ValuesForLinkRows(pid: int, values: seq<string>, q: int)
    ensures ValuesFor(LinkRows(pid, values), q) == if q == pid then values else []
    decreases |values|
  {
    if values != [] {
      var init := values[..|values| - 1];
      assert LinkRows(pid, values)[..|values| - 1] == LinkRows(pid, init);
      ValuesForLinkRows(pid, init, q);
    }
  }

  // ---------------------------------------------------------------------------
  // fetch_synonyms

  /** `fetch_synonyms`: the rows grouped into a dictionary from product id to synonyms. */
  method FetchSynonyms(rows: seq<LinkRow>) returns (m: map<int, seq<string>>)
    ensures m.Keys == ProductIds(rows)
    ensures forall pid | pid in m :: m[pid] == ValuesFor(rows, pid) && m[pid] != []
  {
    m := map[];
    var i := 0;
    while i < |rows|
      invariant 0 <= i <= |rows|
      invariant m.Keys == ProductIds(rows[..i])
      invariant forall pid | pid in m :: m[pid] == ValuesFor(rows[..i], pid) && m[pid] != []
    {
      var r := rows[i];
      assert rows[..i + 1][..i] == rows[..i];
      if r.produtoId !in m {
        ValuesForAbsent(rows[..i], r.produtoId);
        m := m[r.produtoId := []];
      }
      m := m[r.produtoId := m[r.produtoId] + [r.value]];
      i := i + 1;
    }
    assert rows[..|rows|] == rows;
  }

  lemma {:induction false} ValuesForAbsent(rows: seq<LinkRow>, pid: int)
    requires pid !in ProductIds(rows)
    ensures ValuesFor(rows, pid) == []
  {
    if rows != [] {
      var init := rows[..|rows| - 1];
      assert rows[|rows| - 1] in rows;
      assert ProductIds(init) <= ProductIds(rows) by {
        assert forall r | r in init :: r in rows;
      }
      ValuesForAbsent(init, pid);
    }
  }

  /** The number of texts linked to the ids of `ks`. */
  function Total(rows: seq<LinkRow>, ks: seq<int>): nat {
    if ks == [] then 0 else |ValuesFor(rows, ks[0])| + Total(rows, ks[1..])
  }

  predicate NoDuplicates(ks: seq<int>) {
    forall i, j :: 0 <= i < j < |ks| ==> ks[i] != ks[j]
  }

  /** Grouping loses and invents nothing: over the distinct product ids, the lists hold as
      many texts as there are rows. */
  lemma {:induction false} GroupingKeepsCount(rows: seq<LinkRow>, ks: seq<int>)
    requires NoDuplicates(ks) && forall r | r in rows :: r.produtoId in ks
    ensures Total(rows, ks) == |rows|
    decreases |rows|
  {
    if rows != [] {
      var init := rows[..|rows| - 1];
      var last := rows[|rows| - 1];
      assert forall r | r in init :: r in rows;
      assert last in rows;
      calc {
        Total(rows, ks);
        { assert init + [last] == rows; }
        Total(init + [last], ks);
        { TotalStep(init, last, ks); }
        Total(init, ks) + 1;
        { GroupingKeepsCount(init, ks); }
        |init| + 1;
      }
    } else {
      TotalOfNoRows(ks);
    }
  }

  lemma {:induction false} TotalOfNoRows(ks: seq<int>)
    ensures Total([], ks) == 0
  {
    if ks != [] {
      TotalOfNoRows(ks[1..]);
    }
  }

  lemma {:induction false} TotalStep(init: seq<LinkRow>, last: LinkRow, ks: seq<int>)
    requires NoDuplicates(ks)
    ensures Total(init + [last], ks) == Total(init, ks) + (if last.produtoId in ks then 1 else 0)
  {
    if ks != [] {
      assert NoDuplicates(ks[1..]) by {
        assert forall i :: 0 <= i < |ks[1..]| ==> ks[1..][i] == ks[i + 1];
      }
      TotalStep(init, last, ks[1..]);
      assert (init + [last])[..|init + [last]| - 1] == init;
      if ks[0] == last.produtoId {
        assert last.produtoId !in ks[1..] by {
          forall i | 0 <= i < |ks[1..]|
            ensures ks[1..][i] != ks[0]
          {
            assert ks[1..][i] == ks[i + 1];
          }
        }
      }
      assert last.produtoId in ks <==> last.produtoId == ks[0] || last.produtoId in ks[1..];
    }
  }

  // ---------------------------------------------------------------------------
  // insert_data

  /** One entry of the inventory passed to `insert_data`. */
  datatype InventoryEntry = InventoryEntry(nome: string, categoria: string, descricao: string,
                                           sinonimos: seq<string>)

  /** The two tables and the next id AUTOINCREMENT hands out. */
  datatype Db = Db(products: seq<ProductRow>, synonyms: seq<LinkRow>, nextId: int)

  /** Every product id is below the next id, and every synonym refers to one of them (the
      foreign key). */
  predicate Valid(db: Db) {
    (forall p | p in db.products :: p.id < db.nextId) &&
    (forall s | s in db.synonyms :: s.produtoId < db.nextId)
  }

  /** One pass of the `insert_data` loop: the product row with the fresh id, then one
      synonym row per synonym, carrying that id. */
  function InsertEntry(db: Db, e: InventoryEntry): (r: Db)
    ensures Valid(db) ==> Valid(r)
  {
    var id := db.nextId;
    Db(db.products + [ProductRow(id, e.nome, e.categoria, e.descricao)],
       db.synonyms + LinkRows(id, e.sinonimos),
       id + 1)
  }

  /** `insert_data(inventory)`. */
  function InsertData(db: Db, inventory: seq<InventoryEntry>): (r: Db)
    ensures r.nextId == db.nextId + |inventory|
    ensures Valid(db) ==> Valid(r)
    decreases |inventory|
  {
    if inventory == [] then db else InsertData(InsertEntry(db, inventory[0]), inventory[1..])
  }

  /** One product row per inventory entry, in order and after the existing rows, each with the
      next fresh id; each entry's synonyms are exactly the ones linked to its id; the
      synonyms of the products already stored do not change. */
  lemma InsertDataRows(db: Db, inventory: seq<InventoryEntry>)
    requires Valid(db)
    ensures var r := InsertData(db, inventory);
            r.products == db.products + NewProducts(db.nextId, inventory) &&
            (forall i :: 0 <= i < |inventory| ==> ValuesFor(r.synonyms, db.nextId + i) == inventory[i].sinonimos) &&
            (forall pid :: pid < db.nextId ==> ValuesFor(r.synonyms, pid) == ValuesFor(db.synonyms, pid))
  {
    InsertDataProducts(db, inventory);
    InsertDataSynonyms(db, inventory);
  }

  /** The product rows `insert_data` writes for `inventory`, ids counting up from `first`. */
  function NewProducts(first: int, inventory: seq<InventoryEntry>): (r: seq<ProductRow>)
    ensures |r| == |inventory|
    ensures forall i :: 0 <= i < |r| ==>
              r[i] == ProductRow(first + i, inventory[i].nome, inventory[i].categoria, inventory[i].descricao)
  {
    seq(|inventory|, i requires 0 <= i < |inventory| =>
      ProductRow(first + i, inventory[i].nome, inventory[i].categoria, inventory[i].descricao))
  }

  lemma {:induction false} InsertDataProducts(db: Db, inventory: seq<InventoryEntry>)
    ensures InsertData(db, inventory).products == db.products + NewProducts(db.nextId, inventory)
    decreases |inventory|
  {
    if inventory != [] {
      var e := inventory[0];
      var db1 := InsertEntry(db, e);
      InsertDataProducts(db1, inventory[1..]);
      var row := ProductRow(db.nextId, e.nome, e.categoria, e.descricao);
      assert NewProducts(db.nextId, inventory) == [row] + NewProducts(db1.nextId, inventory[1..]);
    }
  }

  /** One entry's synonyms go to the fresh id and to no stored product. */
  lemma InsertEntrySynonyms(db: Db, e: InventoryEntry, pid: int)
    requires Valid(db)
    ensures ValuesFor(InsertEntry(db, e).synonyms, pid) ==
            if pid == db.nextId then e.sinonimos else ValuesFor(db.synonyms, pid)
  {
    ValuesForAppend(db.synonyms, LinkRows(db.nextId, e.sinonimos), pid);
    ValuesForLinkRows(db.nextId, e.sinonimos, pid);
    if pid == db.nextId {
      assert db.nextId !in ProductIds(db.synonyms);
      ValuesForAbsent(db.synonyms, db.nextId);
    }
  }

  lemma {:induction false} InsertDataSynonyms(db: Db, inventory: seq<InventoryEntry>)
    requires Valid(db)
    ensures var r := InsertData(db, inventory);
            (forall i :: 0 <= i < |inventory| ==> ValuesFor(r.synonyms, db.nextId + i) == inventory[i].sinonimos) &&
            (forall pid :: pid < db.nextId ==> ValuesFor(r.synonyms, pid) == ValuesFor(db.synonyms, pid))
    decreases |inventory|
  {
    if inventory != [] {
      var e := inventory[0];
      var db1 := InsertEntry(db, e);
      InsertDataSynonyms(db1, inventory[1..]);
      var r := InsertData(db, inventory);
      assert r == InsertData(db1, inventory[1..]);
      forall pid | pid <= db.nextId
        ensures ValuesFor(r.synonyms, pid) == if pid == db.nextId then e.sinonimos else ValuesFor(db.synonyms, pid)
      {
        InsertEntrySynonyms(db, e, pid);
      }
      forall i | 0 < i < |inventory|
        ensures ValuesFor(r.synonyms, db.nextId + i) == inventory[i].sinonimos
      {
        assert inventory[1..][i - 1] == inventory[i];
      }
    }
  }

  // ---------------------------------------------------------------------------
  // fetch_products

  /** One entry of the list `fetch_products` returns. */
  datatype ProductEntry = ProductEntry(id: int, nome: string, categoria: string, descricao: string,
                                       ingredientes: seq<string>)

  /** `fetch_products`: one entry per product row, with the ingredients linked to its id. */
  function FetchProducts(products: seq<ProductRow>, ingredients: seq<LinkRow>): (r: seq<ProductEntry>)
    ensures |r| == |products|
    ensures forall i :: 0 <= i < |r| ==>
              r[i].id == products[i].id && r[i].nome == products[i].nome &&
              r[i].categoria == products[i].categoria && r[i].descricao == products[i].descricao
    ensures forall i, v :: 0 <= i < |r| ==>
              (v in r[i].ingredientes <==> LinkRow(products[i].id, v) in ingredients)
  {
    ValuesForMembers(ingredients);
    seq(|products|, i requires 0 <= i < |products| =>
      var p := products[i];
      ProductEntry(p.id, p.nome, p.categoria, p.descricao, ValuesFor(ingredients, p.id)))
  }
}

=== FILE: fallback_cue_match.dfy ===
/** The cue patterns as they read, with existentials over where each piece ends and no
    order of trying, and the match the engine reports among the ways they match; with the
    proof that the scanners of `FallbackCues` match exactly where the patterns do and return
    that match. */
module FallbackCueMatch {
  import opened Wrappers
  import opened Text
  import opened Seqs
  import opened Groups
  import opened FallbackCues

  /** The name group `([A-Za-zÀ-ÿ\s]+)` can span `t[g..e]`, with `(?=\s|$)` holding after it. */
  predicate NameSpan(t: string, g: nat, e: nat) {
    g < e <= |t| && (forall k :: g <= k < e ==> InClass(t[k], NameClass)) && SpaceOrEnd(t, e)
  }

  /** The address group `([^,.!?]+)` can span `t[g..e]`. */
  predicate AddressSpan(t: string, g: nat, e: nat) {
    g < e <= |t| && forall k :: g <= k < e ==> InClass(t[k], AddressClass)
  }

  /** The group of field `f` can span `t[g..e]`. */
  predicate GroupSpan(t: string, g: nat, e: nat, f: Field) {
    if f.NameField? then NameSpan(t, g, e) else AddressSpan(t, g, e)
  }

  /** `me\s+chamo\s+` spans `t[i..g]`. */
  ghost predicate MeChamoTo(t: string, i: nat, g: nat) {
    && WordAt(t, i, "me")
    && exists j :: i + 2 < j && Spaces(t, i + 2, j) && WordAt(t, j, "chamo") && j + 5 < g && Spaces(t, j + 5, g)
  }

  /** `\s+[ée]\s+` spans `t[p..g]`. */
  ghost predicate AccentedETo(t: string, p: nat, g: nat) {
    exists k {:trigger Spaces(t, p, k)} ::
      p < k < |t| && Spaces(t, p, k) && (t[k] == '\U{E9}' || t[k] == 'e') && k + 1 < g && Spaces(t, k + 1, g)
  }

  /** `meu\s+nome\s+[ée]\s+` spans `t[i..g]`. */
  ghost predicate MeuNomeTo(t: string, i: nat, g: nat) {
    && WordAt(t, i, "meu")
    && exists j :: i + 3 < j && Spaces(t, i + 3, j) && WordAt(t, j, "nome") && AccentedETo(t, j + 4, g)
  }

  /** `(?:o|a)?\s*` spans `t[q..r]`. */
  predicate ArticleSpaces(t: string, q: nat, r: nat) {
    || Spaces(t, q, r)
    || (q < |t| && (t[q] == 'o' || t[q] == 'a') && Spaces(t, q + 1, r))
  }

  /** `sou\s+(?:o|a)?\s*`, then the `\s+` that follows the cues, spans `t[i..g]`. */
  ghost predicate SouTo(t: string, i: nat, g: nat) {
    && WordAt(t, i, "sou")
    && exists q: nat, r: nat :: i + 3 < q && Spaces(t, i + 3, q) && ArticleSpaces(t, q, r) && r < g && Spaces(t, r, g)
  }

  /** `meu\s+endere[çc]o\s+[ée]\s+` spans `t[i..g]`. */
  ghost predicate MeuEnderecoTo(t: string, i: nat, g: nat) {
    && WordAt(t, i, "meu")
    && exists j :: i + 3 < j && Spaces(t, i + 3, j) && EnderecoAt(t, j) && AccentedETo(t, j + 8, g)
  }

  /** `moro\s+em\s+` or `fico\s+em\s+` (as `verb`) spans `t[i..g]`. */
  ghost predicate VerbEmTo(t: string, i: nat, verb: string, g: nat) {
    && WordAt(t, i, verb)
    && exists j :: i + |verb| < j && Spaces(t, i + |verb|, j) && WordAt(t, j, "em") && j + 2 < g && Spaces(t, j + 2, g)
  }

  /** One of the three cues of field `f`, and the whitespace before the group, span `t[i..g]`. */
  ghost predicate CueTo(t: string, i: nat, g: nat, f: Field) {
    match f
    case NameField => MeChamoTo(t, i, g) || MeuNomeTo(t, i, g) || SouTo(t, i, g)
    case AddressField => MeuEnderecoTo(t, i, g) || VerbEmTo(t, i, "moro", g) || VerbEmTo(t, i, "fico", g)
  }

  /** The pattern of field `f` matches at `i` with its group spanning `t[g..e]`: `\b`, one of
      the cues, whitespace, and the group. */
  ghost predicate CueMatch(t: string, i: nat, f: Field, g: nat, e: nat) {
    i <= |t| && WordBoundary(t, i) && CueTo(t, i, g, f) && GroupSpan(t, g, e, f)
  }

  /** The pattern of field `f` matches at `i`. */
  ghost predicate CuePattern(t: string, i: nat, f: Field) {
    exists g, e :: CueMatch(t, i, f, g, e)
  }

  /** The match the engine reports at `i`. Every repetition in these patterns is greedy and at
      most one cue can start at an index, so the engine tries later group starts first, and at
      one start later group ends first: of all the ways the pattern matches at `i`, it reports
      the one whose group comes last. */
  ghost predicate FirstCueMatch(t: string, i: nat, f: Field, c: Capture) {
    CueMatch(t, i, f, c.start, c.end) && forall g, e :: CueMatch(t, i, f, g, e) ==> UpTo(g, e, c)
  }

  /** `\s+[ée]\s+` from `p` to `g`, its first whitespace being the whole run from `p`. */
  predicate AccentedEAt(t: string, p: nat, g: nat)
    requires p <= |t|
  {
    var k := SpaceEnd(t, p);
    k != p && k < |t| && (t[k] == '\U{E9}' || t[k] == 'e') && k + 1 < g && Spaces(t, k + 1, g)
  }

  /** `\s+[ée]\s+` read as written: the first whitespace can only be the whole run from `p`,
      since neither "é" nor "e" is whitespace. */
  lemma AccentedEToAt(t: string, p: nat, g: nat)
    requires p <= |t|
    ensures AccentedETo(t, p, g) <==> AccentedEAt(t, p, g)
  {
    var k := SpaceEnd(t, p);
    if AccentedETo(t, p, g) {
      var k' :| p < k' < |t| && Spaces(t, p, k') && (t[k'] == '\U{E9}' || t[k'] == 'e') && k' + 1 < g && Spaces(t, k' + 1, g);
      SpacesBefore(t, p, k');
    }
    if AccentedEAt(t, p, g) {
      SpaceEndRun(t, p);
      assert Spaces(t, p, k);
    }
  }

  /** `me\s+chamo\s+` read as written: its first whitespace can only be the whole run after the
      cue's first word, since "chamo" does not start with whitespace. */
  lemma MeChamoToAt(t: string, i: nat, g: nat)
    requires MeChamoTo(t, i, g)
    ensures var j := SpaceEnd(t, i + 2); j != i + 2 && WordAt(t, j, "chamo") && j + 5 < g && Spaces(t, j + 5, g)
  {
    var j' :| i + 2 < j' && Spaces(t, i + 2, j') && WordAt(t, j', "chamo") && j' + 5 < g && Spaces(t, j' + 5, g);
    WordAfterSpaces(t, i + 2, j', "chamo");
  }

  /** The way `me\s+chamo\s+` reads with its first whitespace the whole run. */
  lemma MeChamoAtTo(t: string, i: nat, g: nat)
    requires WordAt(t, i, "me") && i + 2 <= |t|
    requires var j := SpaceEnd(t, i + 2); j != i + 2 && WordAt(t, j, "chamo") && j + 5 < g && Spaces(t, j + 5, g)
    ensures MeChamoTo(t, i, g)
  {
    var j := SpaceEnd(t, i + 2);
    SpaceEndRun(t, i + 2);
    assert Spaces(t, i + 2, j);
  }

  /** `meu\s+nome\s+[ée]\s+` read as written: its first whitespace can only be the whole run after the
      cue's first word, since "nome" does not start with whitespace. */
  lemma MeuNomeToAt(t: string, i: nat, g: nat)
    requires MeuNomeTo(t, i, g)
    ensures var j := SpaceEnd(t, i + 3); j != i + 3 && WordAt(t, j, "nome") && AccentedEAt(t, j + 4, g)
  {
    var j' :| i + 3 < j' && Spaces(t, i + 3, j') && WordAt(t, j', "nome") && AccentedETo(t, j' + 4, g);
    WordAfterSpaces(t, i + 3, j', "nome");
    AccentedEToAt(t, j' + 4, g);
  }

  /** The way `meu\s+nome\s+[ée]\s+` reads with its first whitespace the whole run. */
  lemma MeuNomeAtTo(t: string, i: nat, j: nat, g: nat)
    requires WordAt(t, i, "meu") && i + 3 <= |t|
    requires j == SpaceEnd(t, i + 3) && j != i + 3 && WordAt(t, j, "nome") && AccentedEAt(t, j + 4, g)
    ensures MeuNomeTo(t, i, g)
  {
    SpaceEndRun(t, i + 3);
    assert Spaces(t, i + 3, j);
    AccentedEToAt(t, j + 4, g);
  }

  /** `meu\s+endere[çc]o\s+[ée]\s+` read as written: its first whitespace can only be the whole run after the
      cue's first word, since "endereço" does not start with whitespace. */
  lemma MeuEnderecoToAt(t: string, i: nat, g: nat)
    requires MeuEnderecoTo(t, i, g)
    ensures var j := SpaceEnd(t, i + 3); j != i + 3 && EnderecoAt(t, j) && AccentedEAt(t, j + 8, g)
  {
    var j' :| i + 3 < j' && Spaces(t, i + 3, j') && EnderecoAt(t, j') && AccentedETo(t, j' + 8, g);
    WordAfterSpaces(t, i + 3, j', "endere");
    AccentedEToAt(t, j' + 8, g);
  }

  /** The way `meu\s+endere[çc]o\s+[ée]\s+` reads with its first whitespace the whole run. */
  lemma MeuEnderecoAtTo(t: string, i: nat, j: nat, g: nat)
    requires WordAt(t, i, "meu") && i + 3 <= |t|
    requires j == SpaceEnd(t, i + 3) && j != i + 3 && EnderecoAt(t, j) && AccentedEAt(t, j + 8, g)
    ensures MeuEnderecoTo(t, i, g)
  {
    SpaceEndRun(t, i + 3);
    assert Spaces(t, i + 3, j);
    AccentedEToAt(t, j + 8, g);
  }

  /** `moro\s+em\s+` or `fico\s+em\s+` (as `verb`) read as written: its first whitespace can only be the whole run after the
      cue's first word, since "em" does not start with whitespace. */
  lemma VerbEmToAt(t: string, i: nat, verb: string, g: nat)
    requires VerbEmTo(t, i, verb, g) && |verb| == 4
    ensures var j := SpaceEnd(t, i + 4); j != i + 4 && WordAt(t, j, "em") && j + 2 < g && Spaces(t, j + 2, g)
  {
    var j' :| i + 4 < j' && Spaces(t, i + 4, j') && WordAt(t, j', "em") && j' + 2 < g && Spaces(t, j' + 2, g);
    WordAfterSpaces(t, i + 4, j', "em");
  }

  /** The way `moro\s+em\s+` or `fico\s+em\s+` (as `verb`) reads with its first whitespace the whole run. */
  lemma VerbEmAtTo(t: string, i: nat, verb: string, g: nat)
    requires WordAt(t, i, verb) && i + 4 <= |t| && |verb| == 4
    requires var j := SpaceEnd(t, i + 4); j != i + 4 && WordAt(t, j, "em") && j + 2 < g && Spaces(t, j + 2, g)
    ensures VerbEmTo(t, i, verb, g)
  {
    var j := SpaceEnd(t, i + 4);
    SpaceEndRun(t, i + 4);
    assert Spaces(t, i + 4, j);
  }

  /** The group end the scanner picks at `g` is the last one the name group allows there. */
  lemma NameGroupEndLast(t: string, g: nat)
    requires g <= |t|
    ensures var r := NameGroupEnd(t, g, RunEnd(t, g, NameClass));
            && (r.Some? ==> NameSpan(t, g, r.value))
            && forall e: nat :: NameSpan(t, g, e) ==> r.Some? && e <= r.value
  {
    var run := RunEnd(t, g, NameClass);
    RunEndRun(t, g, NameClass);
    NameGroupEndIsLast(t, g, run);
    forall e: nat | NameSpan(t, g, e)
      ensures e <= run
    {
      RunEndCovers(t, g, e, NameClass);
    }
  }

  /** `\s+` taking `k` characters after `p`, then fewer, before the name group: the scanner
      reports the group that comes last. */
  lemma {:induction false} NameTailLast(t: string, p: nat, k: nat)
    requires p + k <= |t|
    decreases k
    ensures var r := NameTail(t, p, k);
            && (r.Some? ==> NameSpan(t, r.value.start, r.value.end))
            && forall g, e :: p < g <= p + k && NameSpan(t, g, e) ==> r.Some? && UpTo(g, e, r.value)
  {
    if k > 0 {
      NameGroupEndLast(t, p + k);
      NameTailLast(t, p, k - 1);
    }
  }

  /** `\s+` and the name group from `p`: the scanner reports the group that comes last. */
  lemma NameAfterLast(t: string, p: nat)
    requires p <= |t|
    ensures var r := NameAfter(t, p);
            && (r.Some? ==> p < r.value.start && Spaces(t, p, r.value.start) && NameSpan(t, r.value.start, r.value.end))
            && forall g, e :: p < g && Spaces(t, p, g) && NameSpan(t, g, e) ==> r.Some? && UpTo(g, e, r.value)
  {
    NameTailLast(t, p, SpaceEnd(t, p) - p);
    forall g: nat | p < g && Spaces(t, p, g)
      ensures g <= SpaceEnd(t, p)
    {
      SpacesUpTo(t, p, g);
    }
    if NameAfter(t, p).Some? {
      SpacesUpTo(t, p, NameAfter(t, p).value.start);
    }
  }

  /** `\s+` taking `k` characters after `p`, then fewer, before the address group: the scanner
      reports the group that comes last. */
  lemma {:induction false} AddressTailLast(t: string, p: nat, k: nat)
    requires p + k <= |t|
    decreases k
    ensures var r := AddressTail(t, p, k);
            && (r.Some? ==> AddressSpan(t, r.value.start, r.value.end))
            && forall g, e :: p < g <= p + k && AddressSpan(t, g, e) ==> r.Some? && UpTo(g, e, r.value)
  {
    if k > 0 {
      var g := p + k;
      RunEndRun(t, g, AddressClass);
      forall e: nat | AddressSpan(t, g, e)
        ensures e <= RunEnd(t, g, AddressClass)
      {
        RunEndCovers(t, g, e, AddressClass);
      }
      AddressTailLast(t, p, k - 1);
    }
  }

  /** `\s+` and the address group from `p`: the scanner reports the group that comes last. */
  lemma AddressAfterLast(t: string, p: nat)
    requires p <= |t|
    ensures var r := AddressAfter(t, p);
            && (r.Some? ==> p < r.value.start && Spaces(t, p, r.value.start) && AddressSpan(t, r.value.start, r.value.end))
            && forall g, e :: p < g && Spaces(t, p, g) && AddressSpan(t, g, e) ==> r.Some? && UpTo(g, e, r.value)
  {
    AddressTailLast(t, p, SpaceEnd(t, p) - p);
    forall g: nat | p < g && Spaces(t, p, g)
      ensures g <= SpaceEnd(t, p)
    {
      SpacesUpTo(t, p, g);
    }
    if AddressAfter(t, p).Some? {
      SpacesUpTo(t, p, AddressAfter(t, p).value.start);
    }
  }

  /** `\s+` and the group of field `f` from `p`. */
  lemma FieldAfterLast(t: string, p: nat, f: Field)
    requires p <= |t|
    ensures var r := FieldAfter(t, p, f);
            && (r.Some? ==> p < r.value.start && Spaces(t, p, r.value.start) && GroupSpan(t, r.value.start, r.value.end, f))
            && forall g, e :: p < g && Spaces(t, p, g) && GroupSpan(t, g, e, f) ==> r.Some? && UpTo(g, e, r.value)
  {
    if f.NameField? {
      NameAfterLast(t, p);
    } else {
      AddressAfterLast(t, p);
    }
  }

  /** `\s+[ée]` from `p`, then `\s+` and the group of field `f`. */
  lemma AccentedEAfterLast(t: string, p: nat, f: Field)
    requires p <= |t|
    ensures var r := AccentedEAfter(t, p, f);
            && (r.Some? ==> AccentedEAt(t, p, r.value.start) && GroupSpan(t, r.value.start, r.value.end, f))
            && forall g, e :: AccentedEAt(t, p, g) && GroupSpan(t, g, e, f) ==> r.Some? && UpTo(g, e, r.value)
  {
    var k := SpaceEnd(t, p);
    if k != p && k < |t| && (t[k] == '\U{E9}' || t[k] == 'e') {
      FieldAfterLast(t, k + 1, f);
    }
  }

  /** What `\s+[ée]` and the rest of field `f`'s pattern find from `p` is a way through them. */
  lemma AccentedEAfterHit(t: string, p: nat, f: Field)
    requires p <= |t| && AccentedEAfter(t, p, f).Some?
    ensures var c := AccentedEAfter(t, p, f).value;
            AccentedEAt(t, p, c.start) && GroupSpan(t, c.start, c.end, f)
  {
    AccentedEAfterLast(t, p, f);
  }

  /** One way through `\s+[ée]` and the rest of field `f`'s pattern, from `p`. */
  lemma AccentedEAfterWay(t: string, p: nat, f: Field, g: nat, e: nat)
    requires p <= |t| && AccentedEAt(t, p, g) && GroupSpan(t, g, e, f)
    ensures AccentedEAfter(t, p, f).Some? && UpTo(g, e, AccentedEAfter(t, p, f).value)
  {
    AccentedEAfterLast(t, p, f);
  }

  /** The "me chamo" scanner past the cue's first word. */
  lemma MeChamoIs(t: string, i: nat)
    requires i <= |t|
    ensures MeChamo(t, i).Some? ==> WordAt(t, i, "me")
    ensures WordAt(t, i, "me") ==>
              var j := SpaceEnd(t, i + 2);
              MeChamo(t, i) == if j != i + 2 && WordAt(t, j, "chamo") then NameAfter(t, j + 5) else None
  {
  }

  /** A group the "me chamo" scanner finds is a way its pattern reads. */
  lemma MeChamoHit(t: string, i: nat)
    requires i <= |t| && MeChamo(t, i).Some?
    ensures MeChamoTo(t, i, MeChamo(t, i).value.start)
    ensures NameSpan(t, MeChamo(t, i).value.start, MeChamo(t, i).value.end)
  {
    var j := SpaceEnd(t, i + 2);
    MeChamoIs(t, i);
    NameAfterLast(t, j + 5);
    MeChamoAtTo(t, i, MeChamo(t, i).value.start);
  }

  /** Every way the "me chamo" pattern reads is found by its scanner, or a later group is. */
  lemma MeChamoWay(t: string, i: nat, g: nat, e: nat)
    requires i <= |t| && MeChamoTo(t, i, g) && NameSpan(t, g, e)
    ensures MeChamo(t, i).Some? && UpTo(g, e, MeChamo(t, i).value)
  {
    var j := SpaceEnd(t, i + 2);
    MeChamoToAt(t, i, g);
    MeChamoIs(t, i);
    NameAfterLast(t, j + 5);
  }

  lemma MeChamoLast(t: string, i: nat)
    requires i <= |t|
    ensures var r := MeChamo(t, i);
            && (r.Some? ==> MeChamoTo(t, i, r.value.start) && NameSpan(t, r.value.start, r.value.end))
            && forall g, e :: MeChamoTo(t, i, g) && NameSpan(t, g, e) ==> r.Some? && UpTo(g, e, r.value)
  {
    if MeChamo(t, i).Some? {
      MeChamoHit(t, i);
    }
    forall g, e | MeChamoTo(t, i, g) && NameSpan(t, g, e)
      ensures MeChamo(t, i).Some? && UpTo(g, e, MeChamo(t, i).value)
    {
      MeChamoWay(t, i, g, e);
    }
  }

  /** The "meu nome é" scanner past the cue's first word. */
  lemma MeuNomeIs(t: string, i: nat)
    requires i <= |t|
    ensures MeuNome(t, i).Some? ==> WordAt(t, i, "meu")
    ensures WordAt(t, i, "meu") ==>
              var j := SpaceEnd(t, i + 3);
              MeuNome(t, i) == if j != i + 3 && WordAt(t, j, "nome") then AccentedEAfter(t, j + 4, NameField) else None
  {
  }

  /** A group the "meu nome é" scanner finds is a way its pattern reads. */
  lemma MeuNomeHit(t: string, i: nat)
    requires i <= |t| && MeuNome(t, i).Some?
    ensures MeuNomeTo(t, i, MeuNome(t, i).value.start)
    ensures NameSpan(t, MeuNome(t, i).value.start, MeuNome(t, i).value.end)
  {
    MeuNomeIs(t, i);
    var j := SpaceEnd(t, i + 3);
    assert j != i + 3 && WordAt(t, j, "nome") && MeuNome(t, i) == AccentedEAfter(t, j + 4, NameField);
    var c := AccentedEAfter(t, j + 4, NameField).value;
    AccentedEAfterHit(t, j + 4, NameField);
    assert NameSpan(t, c.start, c.end);
    MeuNomeAtTo(t, i, j, c.start);
  }

  /** Every way the "meu nome é" pattern reads is found by its scanner, or a later group is. */
  lemma MeuNomeWay(t: string, i: nat, g: nat, e: nat)
    requires i <= |t| && MeuNomeTo(t, i, g) && NameSpan(t, g, e)
    ensures MeuNome(t, i).Some? && UpTo(g, e, MeuNome(t, i).value)
  {
    MeuNomeToAt(t, i, g);
    MeuNomeIs(t, i);
    var j := SpaceEnd(t, i + 3);
    AccentedEAfterWay(t, j + 4, NameField, g, e);
  }

  lemma MeuNomeLast(t: string, i: nat)
    requires i <= |t|
    ensures var r := MeuNome(t, i);
            && (r.Some? ==> MeuNomeTo(t, i, r.value.start) && NameSpan(t, r.value.start, r.value.end))
            && forall g, e :: MeuNomeTo(t, i, g) && NameSpan(t, g, e) ==> r.Some? && UpTo(g, e, r.value)
  {
    if MeuNome(t, i).Some? {
      MeuNomeHit(t, i);
    }
    forall g, e | MeuNomeTo(t, i, g) && NameSpan(t, g, e)
      ensures MeuNome(t, i).Some? && UpTo(g, e, MeuNome(t, i).value)
    {
      MeuNomeWay(t, i, g, e);
    }
  }

  /** The "meu endereço é" scanner past the cue's first word. */
  lemma MeuEnderecoIs(t: string, i: nat)
    requires i <= |t|
    ensures MeuEndereco(t, i).Some? ==> WordAt(t, i, "meu")
    ensures WordAt(t, i, "meu") ==>
              var j := SpaceEnd(t, i + 3);
              MeuEndereco(t, i) == if j != i + 3 && EnderecoAt(t, j) then AccentedEAfter(t, j + 8, AddressField) else None
  {
  }

  /** A group the "meu endereço é" scanner finds is a way its pattern reads. */
  lemma MeuEnderecoHit(t: string, i: nat)
    requires i <= |t| && MeuEndereco(t, i).Some?
    ensures MeuEnderecoTo(t, i, MeuEndereco(t, i).value.start)
    ensures AddressSpan(t, MeuEndereco(t, i).value.start, MeuEndereco(t, i).value.end)
  {
    MeuEnderecoIs(t, i);
    var j := SpaceEnd(t, i + 3);
    assert j != i + 3 && EnderecoAt(t, j) && MeuEndereco(t, i) == AccentedEAfter(t, j + 8, AddressField);
    var c := AccentedEAfter(t, j + 8, AddressField).value;
    AccentedEAfterHit(t, j + 8, AddressField);
    assert AddressSpan(t, c.start, c.end);
    MeuEnderecoAtTo(t, i, j, c.start);
  }

  /** Every way the "meu endereço é" pattern reads is found by its scanner, or a later group is. */
  lemma MeuEnderecoWay(t: string, i: nat, g: nat, e: nat)
    requires i <= |t| && MeuEnderecoTo(t, i, g) && AddressSpan(t, g, e)
    ensures MeuEndereco(t, i).Some? && UpTo(g, e, MeuEndereco(t, i).value)
  {
    MeuEnderecoToAt(t, i, g);
    MeuEnderecoIs(t, i);
    var j := SpaceEnd(t, i + 3);
    AccentedEAfterWay(t, j + 8, AddressField, g, e);
  }

  lemma MeuEnderecoLast(t: string, i: nat)
    requires i <= |t|
    ensures var r := MeuEndereco(t, i);
            && (r.Some? ==> MeuEnderecoTo(t, i, r.value.start) && AddressSpan(t, r.value.start, r.value.end))
            && forall g, e :: MeuEnderecoTo(t, i, g) && AddressSpan(t, g, e) ==> r.Some? && UpTo(g, e, r.value)
  {
    if MeuEndereco(t, i).Some? {
      MeuEnderecoHit(t, i);
    }
    forall g, e | MeuEnderecoTo(t, i, g) && AddressSpan(t, g, e)
      ensures MeuEndereco(t, i).Some? && UpTo(g, e, MeuEndereco(t, i).value)
    {
      MeuEnderecoWay(t, i, g, e);
    }
  }

  /** The "moro em" or "fico em" scanner past the cue's first word. */
  lemma VerbEmIs(t: string, i: nat, verb: string)
    requires i <= |t| && |verb| == 4
    ensures VerbEm(t, i, verb).Some? ==> WordAt(t, i, verb)
    ensures WordAt(t, i, verb) ==>
              var j := SpaceEnd(t, i + 4);
              VerbEm(t, i, verb) == if j != i + 4 && WordAt(t, j, "em") then AddressAfter(t, j + 2) else None
  {
  }

  /** A group the "moro em" or "fico em" scanner finds is a way its pattern reads. */
  lemma VerbEmHit(t: string, i: nat, verb: string)
    requires i <= |t| && |verb| == 4 && VerbEm(t, i, verb).Some?
    ensures VerbEmTo(t, i, verb, VerbEm(t, i, verb).value.start)
    ensures AddressSpan(t, VerbEm(t, i, verb).value.start, VerbEm(t, i, verb).value.end)
  {
    var j := SpaceEnd(t, i + 4);
    VerbEmIs(t, i, verb);
    AddressAfterLast(t, j + 2);
    VerbEmAtTo(t, i, verb, VerbEm(t, i, verb).value.start);
  }

  /** Every way the "moro em" or "fico em" pattern reads is found by its scanner, or a later group is. */
  lemma VerbEmWay(t: string, i: nat, verb: string, g: nat, e: nat)
    requires i <= |t| && |verb| == 4 && VerbEmTo(t, i, verb, g) && AddressSpan(t, g, e)
    ensures VerbEm(t, i, verb).Some? && UpTo(g, e, VerbEm(t, i, verb).value)
  {
    var j := SpaceEnd(t, i + 4);
    VerbEmToAt(t, i, verb, g);
    VerbEmIs(t, i, verb);
    AddressAfterLast(t, j + 2);
  }

  lemma VerbEmLast(t: string, i: nat, verb: string)
    requires i <= |t| && |verb| == 4
    ensures var r := VerbEm(t, i, verb);
            && (r.Some? ==> VerbEmTo(t, i, verb, r.value.start) && AddressSpan(t, r.value.start, r.value.end))
            && forall g, e :: VerbEmTo(t, i, verb, g) && AddressSpan(t, g, e) ==> r.Some? && UpTo(g, e, r.value)
  {
    if VerbEm(t, i, verb).Some? {
      VerbEmHit(t, i, verb);
    }
    forall g, e | VerbEmTo(t, i, verb, g) && AddressSpan(t, g, e)
      ensures VerbEm(t, i, verb).Some? && UpTo(g, e, VerbEm(t, i, verb).value)
    {
      VerbEmWay(t, i, verb, g, e);
    }
  }


  /** The `\s*` after the article, taking `k` characters or fewer, adds nothing to the `\s+`
      that follows it: the scanner reports the last group after whitespace from `q`. */
  lemma {:induction false} SouSpacesLast(t: string, q: nat, k: nat)
    requires q <= |t| && q + k <= SpaceEnd(t, q)
    decreases k
    ensures var r := SouSpaces(t, q, k);
            && (r.Some? ==> q < r.value.start && Spaces(t, q, r.value.start) && NameSpan(t, r.value.start, r.value.end))
            && forall g, e :: q < g && Spaces(t, q, g) && NameSpan(t, g, e) ==> r.Some? && UpTo(g, e, r.value)
  {
    var a := NameAfter(t, q + k);
    NameAfterLast(t, q + k);
    if a.Some? {
      assert SouSpaces(t, q, k) == a;
      assert Spaces(t, q, a.value.start) by {
        SpaceEndRun(t, q);
        assert Spaces(t, q, q + k) && Spaces(t, q + k, a.value.start);
      }
      forall g, e | q < g && Spaces(t, q, g) && NameSpan(t, g, e)
        ensures UpTo(g, e, a.value)
      {
        if q + k < g {
          assert Spaces(t, q + k, g);
        }
      }
    } else if k > 0 {
      assert SouSpaces(t, q, k) == SouSpaces(t, q, k - 1);
      SouSpacesLast(t, q, k - 1);
    }
  }

  /** The `\s+` after "sou" cut short at `p + k`, inside the run: no article can follow, and
      the scanner reports the last group that starts after at least two whitespace
      characters of the run. */
  lemma {:induction false} SouAfterInRun(t: string, p: nat, k: nat)
    requires p <= |t| && 0 < k && p + k < SpaceEnd(t, p)
    decreases k
    ensures var r := SouAfter(t, p, k);
            && (r.Some? ==> p + 1 < r.value.start <= SpaceEnd(t, p) && NameSpan(t, r.value.start, r.value.end))
            && forall g, e :: p + 1 < g <= SpaceEnd(t, p) && NameSpan(t, g, e) ==> r.Some? && UpTo(g, e, r.value)
  {
    var q, s := p + k, SpaceEnd(t, p);
    SpaceEndRun(t, p);
    SpaceEndWithin(t, p, q);
    var a := SouArticle(t, q);
    assert a == SouSpaces(t, q, s - q);
    SouSpacesLast(t, q, s - q);
    if a.Some? {
      assert SouAfter(t, p, k) == a;
      SpacesUpTo(t, q, a.value.start);
    } else {
      assert SouAfter(t, p, k) == SouAfter(t, p, k - 1);
      forall g: nat | q < g <= s
        ensures Spaces(t, q, g)
      {
        SpacesUpTo(t, q, g);
      }
      if k > 1 {
        SouAfterInRun(t, p, k - 1);
      }
    }
  }

  /** Where the run after "sou" ends, the optional article is tried first; without it no
      whitespace is left before the group. */
  lemma SouArticleAtRunEnd(t: string, s: nat)
    requires s <= |t| && SpaceEnd(t, s) == s
    ensures var r := SouArticle(t, s);
            var article := s < |t| && (t[s] == 'o' || t[s] == 'a');
            && (r.Some? ==> article && s + 1 < r.value.start && Spaces(t, s + 1, r.value.start)
                            && NameSpan(t, r.value.start, r.value.end))
            && forall g, e :: article && s + 1 < g && Spaces(t, s + 1, g) && NameSpan(t, g, e) ==>
                 r.Some? && UpTo(g, e, r.value)
  {
    assert SouSpaces(t, s, 0) == NameAfter(t, s) == None;
    if s < |t| && (t[s] == 'o' || t[s] == 'a') {
      SouSpacesLast(t, s + 1, SpaceEnd(t, s + 1) - (s + 1));
    }
  }

  /** Where the name group may start after "sou" whose `\s+` begins at `p`: inside that run,
      after two of its characters at least, or after an article that ends the run and more
      whitespace. */
  predicate SouStart(t: string, p: nat, g: nat)
    requires p <= |t|
  {
    var s := SpaceEnd(t, p);
    || p + 1 < g <= s
    || (p < s < |t| && (t[s] == 'o' || t[s] == 'a') && s + 1 < g && Spaces(t, s + 1, g))
  }

  /** `sou\s+(?:o|a)?\s*\s+` read as written: without the article all the whitespace is one
      run; with it, the article ends the run after "sou". */
  lemma SouToAt(t: string, i: nat, g: nat)
    requires WordAt(t, i, "sou")
    ensures SouTo(t, i, g) ==> SouStart(t, i + 3, g)
  {
    if SouTo(t, i, g) {
      SpaceEndRun(t, i + 3);
      var q: nat, r: nat :| i + 3 < q && Spaces(t, i + 3, q) && ArticleSpaces(t, q, r) && r < g && Spaces(t, r, g);
      if Spaces(t, q, r) {
        assert Spaces(t, i + 3, g);
        SpacesUpTo(t, i + 3, g);
      } else {
        SpacesBefore(t, i + 3, q);
      }
    }
  }

  /** Every start `SouStart` allows is a way `sou\s+(?:o|a)?\s*\s+` can read. */
  lemma SouStartTo(t: string, i: nat, g: nat)
    requires WordAt(t, i, "sou") && SouStart(t, i + 3, g)
    ensures SouTo(t, i, g)
  {
    var s := SpaceEnd(t, i + 3);
    SpaceEndRun(t, i + 3);
    if g <= s {
      assert Spaces(t, i + 3, i + 4) && ArticleSpaces(t, i + 4, g - 1) && Spaces(t, g - 1, g);
    } else {
      assert Spaces(t, i + 3, s) && ArticleSpaces(t, s, g - 1) && Spaces(t, g - 1, g);
    }
  }

  /** The `\s+` after "sou" from `p`, then `(?:o|a)?\s*` and the `\s+` before the group: the
      scanner reports the group that comes last. */
  lemma SouRunLast(t: string, p: nat)
    requires p <= |t|
    ensures var r := SouAfter(t, p, SpaceEnd(t, p) - p);
            && (r.Some? ==> SouStart(t, p, r.value.start) && NameSpan(t, r.value.start, r.value.end))
            && forall g, e :: SouStart(t, p, g) && NameSpan(t, g, e) ==> r.Some? && UpTo(g, e, r.value)
  {
    var s := SpaceEnd(t, p);
    if p < s {
      SpaceEndWithin(t, p, s);
      SouArticleAtRunEnd(t, s);
      if s - p > 1 {
        SouAfterInRun(t, p, s - p - 1);
      }
    }
  }

  lemma SouLast(t: string, i: nat)
    requires i <= |t|
    ensures var r := Sou(t, i);
            && (r.Some? ==> SouTo(t, i, r.value.start) && NameSpan(t, r.value.start, r.value.end))
            && forall g, e :: SouTo(t, i, g) && NameSpan(t, g, e) ==> r.Some? && UpTo(g, e, r.value)
  {
    if WordAt(t, i, "sou") {
      var r := Sou(t, i);
      SouRunLast(t, i + 3);
      assert r == SouAfter(t, i + 3, SpaceEnd(t, i + 3) - (i + 3));
      if r.Some? {
        SouStartTo(t, i, r.value.start);
      }
      forall g, e | SouTo(t, i, g) && NameSpan(t, g, e)
        ensures r.Some? && UpTo(g, e, r.value)
      {
        SouToAt(t, i, g);
      }
    }
  }

  /** At most one name cue can start at an index: "me" then whitespace, "meu" and "sou"
      disagree on their first three characters. */
  lemma NameCuesExclusive(t: string, i: nat)
    requires i <= |t|
    ensures MeChamo(t, i).Some? ==> !WordAt(t, i, "meu") && !WordAt(t, i, "sou")
    ensures WordAt(t, i, "meu") ==> !WordAt(t, i, "sou")
  {
    if WordAt(t, i, "me") && WordAt(t, i, "meu") {
      WordAtChar(t, i, "meu", 2);
      SpaceEndRun(t, i + 2);
    }
  }

  /** At most one address cue can start at an index. */
  lemma AddressCuesExclusive(t: string, i: nat)
    requires i <= |t|
    ensures WordAt(t, i, "meu") ==> !WordAt(t, i, "moro") && !WordAt(t, i, "fico")
    ensures WordAt(t, i, "moro") ==> !WordAt(t, i, "fico")
  {
  }

  /** The name scanner at `i` reports the group that comes last among the ways the name
      pattern matches there. */
  lemma NameAtLast(t: string, i: nat)
    requires i <= |t|
    ensures var r := NameAt(t, i);
            && (r.Some? ==> WordBoundary(t, i) && CueTo(t, i, r.value.start, NameField) && NameSpan(t, r.value.start, r.value.end))
            && forall g, e :: WordBoundary(t, i) && CueTo(t, i, g, NameField) && NameSpan(t, g, e) ==>
                 r.Some? && UpTo(g, e, r.value)
  {
    MeChamoLast(t, i);
    MeuNomeLast(t, i);
    SouLast(t, i);
    NameCuesExclusive(t, i);
  }

  /** The address scanner at `i` reports the group that comes last among the ways the
      address pattern matches there. */
  lemma AddressAtLast(t: string, i: nat)
    requires i <= |t|
    ensures var r := AddressAt(t, i);
            && (r.Some? ==> WordBoundary(t, i) && CueTo(t, i, r.value.start, AddressField) && AddressSpan(t, r.value.start, r.value.end))
            && forall g, e :: WordBoundary(t, i) && CueTo(t, i, g, AddressField) && AddressSpan(t, g, e) ==>
                 r.Some? && UpTo(g, e, r.value)
  {
    MeuEnderecoLast(t, i);
    VerbEmLast(t, i, "moro");
    VerbEmLast(t, i, "fico");
    AddressCuesExclusive(t, i);
  }

  /** The cue scanners report, at `i`, the group that comes last among the ways the pattern
      matches there, and they fail only when it matches in no way. */
  lemma CaptureAtLast(t: string, i: nat, f: Field)
    ensures var r := CaptureAt(t, i, f);
            && (r.Some? ==> CueMatch(t, i, f, r.value.start, r.value.end))
            && forall g, e :: CueMatch(t, i, f, g, e) ==> r.Some? && UpTo(g, e, r.value)
  {
    if i <= |t| {
      if f.NameField? {
        NameAtLast(t, i);
      } else {
        AddressAtLast(t, i);
      }
    }
  }

  /** The cue scanners return at `i` exactly the match the engine reports there. */
  lemma CaptureAtIsFirst(t: string, i: nat, f: Field)
    ensures forall c :: CaptureAt(t, i, f) == Some(c) <==> FirstCueMatch(t, i, f, c)
  {
    forall c
      ensures CaptureAt(t, i, f) == Some(c) <==> FirstCueMatch(t, i, f, c)
    {
      CaptureAtLast(t, i, f);
      var r := CaptureAt(t, i, f);
      if FirstCueMatch(t, i, f, c) {
        assert CueMatch(t, i, f, c.start, c.end);
        assert r.Some? && CueMatch(t, i, f, r.value.start, r.value.end);
        assert UpTo(c.start, c.end, r.value) && UpTo(r.value.start, r.value.end, c);
      }
    }
  }

  /** The cue scanners find a match at `i` exactly when the pattern, read as written, matches
      there. */
  lemma CaptureAtIsPattern(t: string, i: nat, f: Field)
    ensures CaptureAt(t, i, f).Some? <==> CuePattern(t, i, f)
  {
    CaptureAtLast(t, i, f);
    if CaptureAt(t, i, f).Some? {
      var c := CaptureAt(t, i, f).value;
      assert CueMatch(t, i, f, c.start, c.end);
    }
  }

  /** A found group is the one the engine reports at the leftmost index where the pattern,
      read as written, matches. */
  lemma SearchCaptureIsPattern(t: string, f: Field)
    requires SearchCapture(t, f).Some?
    ensures FirstCueMatch(t, SearchCapture(t, f).value.0, f, SearchCapture(t, f).value.1)
    ensures forall j :: 0 <= j < SearchCapture(t, f).value.0 ==> !CuePattern(t, j, f)
  {
    SearchCaptureHit(t, f);
    CaptureAtIsFirst(t, SearchCapture(t, f).value.0, f);
    forall j: nat | j < SearchCapture(t, f).value.0
      ensures !CuePattern(t, j, f)
    {
      CaptureAtIsPattern(t, j, f);
    }
  }
}

=== FILE: fallback_cues.dfy ===
/** The name and address cue patterns that the rule-based `extrair_informacoes` of
    src/services/order_processor.py searches in the lower-cased text, compiled by hand: each
    function is one element of a pattern, and it tries that element's choices in the order
    the backtracking `re` engine does (greedy repetitions longest first, alternatives left to
    right), handing each choice on to the rest of the pattern. */
module FallbackCues {
  import opened Wrappers
  import opened Text
  import opened Seqs
  import opened Groups

  // ---------------------------------------------------------------------------
  // The name pattern, over the lower-cased text
  //   \b(?:me\s+chamo|meu\s+nome\s+[ée]|sou\s+(?:o|a)?\s*)\s+([A-Za-zÀ-ÿ\s]+)(?=\s|$)

  /** `(?=\s|$)` at `e`. */
  predicate SpaceOrEnd(t: string, e: nat)
    requires e <= |t|
  {
    e == |t| || IsSpace(t[e])
  }

  /** The greedy group `([A-Za-zÀ-ÿ\s]+)` from `g`, followed by `(?=\s|$)`: the group's end is
      tried from `e` down to `g + 1`. */
  function NameGroupEnd(t: string, g: nat, e: nat): (r: Option<nat>)
    requires g <= e <= |t|
    decreases e
    ensures r.Some? ==> g < r.value <= e
  {
    if e <= g then None
    else if SpaceOrEnd(t, e) then Some(e)
    else NameGroupEnd(t, g, e - 1)
  }

  /** The group ends at the last position up to `e` where whitespace or the end follows. */
  lemma {:induction false} NameGroupEndIsLast(t: string, g: nat, e: nat)
    requires g <= e <= |t|
    decreases e
    ensures NameGroupEnd(t, g, e).Some? ==>
              SpaceOrEnd(t, NameGroupEnd(t, g, e).value)
              && forall x :: NameGroupEnd(t, g, e).value < x <= e ==> !SpaceOrEnd(t, x)
    ensures NameGroupEnd(t, g, e).None? ==> forall x :: g < x <= e ==> !SpaceOrEnd(t, x)
  {
    if g < e && !SpaceOrEnd(t, e) {
      NameGroupEndIsLast(t, g, e - 1);
    }
  }

  /** `\s+` taking `k` whitespace characters after `p`, then fewer, each followed by the
      group. */
  function NameTail(t: string, p: nat, k: nat): (r: Option<Capture>)
    requires p + k <= |t|
    decreases k
    ensures r.Some? ==> p < r.value.start <= p + k && r.value.start < r.value.end <= |t|
  {
    if k == 0 then None
    else
      var e := NameGroupEnd(t, p + k, RunEnd(t, p + k, NameClass));
      if e.Some? then Some(Capture(p + k, e.value)) else NameTail(t, p, k - 1)
  }

  /** `\s+([A-Za-zÀ-ÿ\s]+)(?=\s|$)` from `p`. */
  function NameAfter(t: string, p: nat): (r: Option<Capture>)
    requires p <= |t|
    ensures r.Some? ==> p < r.value.start < r.value.end <= |t|
  {
    NameTail(t, p, SpaceEnd(t, p) - p)
  }

  /** `me\s+chamo`, then the rest. Fewer whitespace characters than the whole run would leave
      a space where "chamo" must begin, so only the whole run can succeed. */
  function MeChamo(t: string, i: nat): Option<Capture>
    requires i <= |t|
  {
    if !WordAt(t, i, "me") then None
    else
      var j := SpaceEnd(t, i + 2);
      if j == i + 2 || !WordAt(t, j, "chamo") then None else NameAfter(t, j + 5)
  }

  /** `\s+[ée]` from `p`, then the rest of the pattern of field `f`. Fewer whitespace
      characters than the whole run would leave a space where the letter must be. */
  function AccentedEAfter(t: string, p: nat, f: Field): Option<Capture>
    requires p <= |t|
  {
    var k := SpaceEnd(t, p);
    if k == p || k == |t| || !(t[k] == '\U{E9}' || t[k] == 'e') then None else FieldAfter(t, k + 1, f)
  }

  /** The rest of the pattern of field `f` from `p`: `\s+` and the group. */
  function FieldAfter(t: string, p: nat, f: Field): Option<Capture>
    requires p <= |t|
  {
    if f.NameField? then NameAfter(t, p) else AddressAfter(t, p)
  }

  /** `meu\s+nome\s+[ée]`, then the rest. */
  function MeuNome(t: string, i: nat): Option<Capture>
    requires i <= |t|
  {
    if !WordAt(t, i, "meu") then None
    else
      var j := SpaceEnd(t, i + 3);
      if j == i + 3 || !WordAt(t, j, "nome") then None else AccentedEAfter(t, j + 4, NameField)
  }

  /** `\s*` taking `k` whitespace characters after `q`, then fewer, each followed by the
      rest. */
  function SouSpaces(t: string, q: nat, k: nat): Option<Capture>
    requires q + k <= |t|
    decreases k
  {
    var r := NameAfter(t, q + k);
    if r.Some? || k == 0 then r else SouSpaces(t, q, k - 1)
  }

  /** `(?:o|a)?\s*` at `q`: with the article first, then without. */
  function SouArticle(t: string, q: nat): Option<Capture>
    requires q <= |t|
  {
    var withArticle :=
      if q < |t| && (t[q] == 'o' || t[q] == 'a') then SouSpaces(t, q + 1, SpaceEnd(t, q + 1) - (q + 1))
      else None;
    if withArticle.Some? then withArticle else SouSpaces(t, q, SpaceEnd(t, q) - q)
  }

  /** The `\s+` after "sou", taking `k` whitespace characters after `p`, then fewer. */
  function SouAfter(t: string, p: nat, k: nat): Option<Capture>
    requires p + k <= |t|
    decreases k
  {
    if k == 0 then None
    else
      var r := SouArticle(t, p + k);
      if r.Some? then r else SouAfter(t, p, k - 1)
  }

  /** `sou\s+(?:o|a)?\s*`, then the rest. */
  function Sou(t: string, i: nat): Option<Capture>
    requires i <= |t|
  {
    if !WordAt(t, i, "sou") then None else SouAfter(t, i + 3, SpaceEnd(t, i + 3) - (i + 3))
  }

  /** The name pattern anchored at `i`: the three cues in order. */
  function NameAt(t: string, i: nat): Option<Capture>
    requires i <= |t|
  {
    if !WordBoundary(t, i) then None
    else
      var a := MeChamo(t, i);
      if a.Some? then a
      else
        var b := MeuNome(t, i);
        if b.Some? then b else Sou(t, i)
  }

  // ---------------------------------------------------------------------------
  // The address pattern, over the lower-cased text
  //   \b(?:meu\s+endere[çc]o\s+[ée]|moro\s+em|fico\s+em)\s+([^,.!?]+)

  /** `\s+([^,.!?]+)`: `\s+` taking `k` whitespace characters after `p`, then fewer. The greedy
      group takes the whole run of non-punctuation that follows and needs one character. */
  function AddressTail(t: string, p: nat, k: nat): (r: Option<Capture>)
    requires p + k <= |t|
    decreases k
    ensures r.Some? ==> p < r.value.start <= p + k && r.value.start < r.value.end <= |t|
  {
    if k == 0 then None
    else
      var e := RunEnd(t, p + k, AddressClass);
      if e > p + k then Some(Capture(p + k, e)) else AddressTail(t, p, k - 1)
  }

  function AddressAfter(t: string, p: nat): (r: Option<Capture>)
    requires p <= |t|
    ensures r.Some? ==> p < r.value.start < r.value.end <= |t|
  {
    AddressTail(t, p, SpaceEnd(t, p) - p)
  }

  /** `endere[çc]o` at `j`. */
  predicate EnderecoAt(t: string, j: nat) {
    WordAt(t, j, "endere") && j + 8 <= |t| && (t[j + 6] == '\U{E7}' || t[j + 6] == 'c') && t[j + 7] == 'o'
  }

  /** `meu\s+endere[çc]o\s+[ée]`, then the rest. */
  function MeuEndereco(t: string, i: nat): Option<Capture>
    requires i <= |t|
  {
    if !WordAt(t, i, "meu") then None
    else
      var j := SpaceEnd(t, i + 3);
      if j == i + 3 || !EnderecoAt(t, j) then None else AccentedEAfter(t, j + 8, AddressField)
  }

  /** `moro\s+em` or `fico\s+em` (as `verb`), then the rest. */
  function VerbEm(t: string, i: nat, verb: string): Option<Capture>
    requires i <= |t| && |verb| == 4
  {
    if !WordAt(t, i, verb) then None
    else
      var j := SpaceEnd(t, i + 4);
      if j == i + 4 || !WordAt(t, j, "em") then None else AddressAfter(t, j + 2)
  }

  /** The address pattern anchored at `i`: the three cues in order. */
  function AddressAt(t: string, i: nat): Option<Capture>
    requires i <= |t|
  {
    if !WordBoundary(t, i) then None
    else
      var a := MeuEndereco(t, i);
      if a.Some? then a
      else
        var b := VerbEm(t, i, "moro");
        if b.Some? then b else VerbEm(t, i, "fico")
  }

  // ---------------------------------------------------------------------------
  // Searching, and what a found group is

  /** The two cue patterns. */
  datatype Field = NameField | AddressField

  /** The pattern of field `f` anchored at `i`; no match past the end of the text. */
  function CaptureAt(t: string, i: nat, f: Field): Option<Capture> {
    if i > |t| then None
    else
      match f
      case NameField => NameAt(t, i)
      case AddressField => AddressAt(t, i)
  }

  /** A position-indexed matcher: what a pattern yields when anchored at each index. */
  function Matcher(t: string, f: Field): nat -> Option<Capture> {
    (i: nat) => CaptureAt(t, i, f)
  }

  /** `re.search` with the pattern of field `f` over `t`: where the match starts, and the
      group. */
  function SearchCapture(t: string, f: Field): Option<(nat, Capture)> {
    FirstHit(Matcher(t, f), 0, |t|)
  }

  /** A found group is the one of the leftmost index where the pattern matches. */
  lemma SearchCaptureHit(t: string, f: Field)
    requires SearchCapture(t, f).Some?
    ensures SearchCapture(t, f).value.0 <= |t|
    ensures CaptureAt(t, SearchCapture(t, f).value.0, f) == Some(SearchCapture(t, f).value.1)
    ensures forall j :: 0 <= j < SearchCapture(t, f).value.0 ==> CaptureAt(t, j, f).None?
  {
    var m := Matcher(t, f);
    FirstHitIsLeftmost(m, 0, |t|);
    assert forall j :: 0 <= j <= |t| ==> CaptureAt(t, j, f) == m(j);
  }

  /** No group is found only when the pattern matches nowhere. */
  lemma SearchCaptureMiss(t: string, f: Field)
    ensures SearchCapture(t, f).None? <==> forall j :: 0 <= j <= |t| ==> CaptureAt(t, j, f).None?
  {
    var m := Matcher(t, f);
    FirstHitMiss(m, 0, |t|);
    assert forall j :: 0 <= j <= |t| ==> CaptureAt(t, j, f) == m(j);
  }

  /** The name group as the pattern describes it: it follows a whitespace character, holds
      only letters and whitespace, is followed by whitespace or the end of the text, and
      reaches as far as that allows within the run of letters and whitespace. */
  predicate NameGroup(t: string, c: Capture) {
    && 0 < c.start < c.end <= |t| && IsSpace(t[c.start - 1])
    && (forall k :: c.start <= k < c.end ==> InClass(t[k], NameClass))
    && SpaceOrEnd(t, c.end)
    && forall x :: c.end < x <= RunEnd(t, c.start, NameClass) ==> !SpaceOrEnd(t, x)
  }

  /** The address group: it follows a whitespace character and is the whole run of
      characters other than `, . ! ?` from there. */
  predicate AddressGroup(t: string, c: Capture) {
    && 0 < c.start < c.end <= |t| && IsSpace(t[c.start - 1])
    && (forall k :: c.start <= k < c.end ==> InClass(t[k], AddressClass))
    && (c.end == |t| || !InClass(t[c.end], AddressClass))
  }

  predicate IsGroup(t: string, c: Capture, f: Field) {
    match f
    case NameField => NameGroup(t, c)
    case AddressField => AddressGroup(t, c)
  }

  predicate Sound(t: string, r: Option<Capture>, f: Field) {
    r.Some? ==> IsGroup(t, r.value, f)
  }

  lemma {:induction false} NameTailSound(t: string, p: nat, k: nat)
    requires p + k <= |t|
    requires forall j :: p <= j < p + k ==> IsSpace(t[j])
    decreases k
    ensures Sound(t, NameTail(t, p, k), NameField)
  {
    if k > 0 {
      var g := p + k;
      var e := RunEnd(t, g, NameClass);
      RunEndRun(t, g, NameClass);
      NameGroupEndIsLast(t, g, e);
      if NameGroupEnd(t, g, e).None? {
        NameTailSound(t, p, k - 1);
      }
    }
  }

  lemma NameAfterSound(t: string, p: nat)
    requires p <= |t|
    ensures Sound(t, NameAfter(t, p), NameField)
  {
    SpaceEndRun(t, p);
    NameTailSound(t, p, SpaceEnd(t, p) - p);
  }

  lemma {:induction false} SouSpacesSound(t: string, q: nat, k: nat)
    requires q + k <= |t|
    decreases k
    ensures Sound(t, SouSpaces(t, q, k), NameField)
  {
    if NameAfter(t, q + k).Some? || k == 0 {
      NameAfterSound(t, q + k);
    } else {
      SouSpacesSound(t, q, k - 1);
    }
  }

  lemma SouArticleSound(t: string, q: nat)
    requires q <= |t|
    ensures Sound(t, SouArticle(t, q), NameField)
  {
    if q < |t| && (t[q] == 'o' || t[q] == 'a') && SouSpaces(t, q + 1, SpaceEnd(t, q + 1) - (q + 1)).Some? {
      SouSpacesSound(t, q + 1, SpaceEnd(t, q + 1) - (q + 1));
    } else {
      SouSpacesSound(t, q, SpaceEnd(t, q) - q);
    }
  }

  lemma {:induction false} SouAfterSound(t: string, p: nat, k: nat)
    requires p + k <= |t|
    decreases k
    ensures Sound(t, SouAfter(t, p, k), NameField)
  {
    if k > 0 {
      if SouArticle(t, p + k).Some? {
        SouArticleSound(t, p + k);
      } else {
        SouAfterSound(t, p, k - 1);
      }
    }
  }

  lemma {:induction false} AddressTailSound(t: string, p: nat, k: nat)
    requires p + k <= |t|
    requires forall j :: p <= j < p + k ==> IsSpace(t[j])
    decreases k
    ensures Sound(t, AddressTail(t, p, k), AddressField)
  {
    if k > 0 {
      RunEndRun(t, p + k, AddressClass);
      if RunEnd(t, p + k, AddressClass) == p + k {
        AddressTailSound(t, p, k - 1);
      }
    }
  }

  lemma AddressAfterSound(t: string, p: nat)
    requires p <= |t|
    ensures Sound(t, AddressAfter(t, p), AddressField)
  {
    SpaceEndRun(t, p);
    AddressTailSound(t, p, SpaceEnd(t, p) - p);
  }

  lemma MeChamoSound(t: string, i: nat)
    requires i <= |t|
    ensures Sound(t, MeChamo(t, i), NameField)
  {
    if WordAt(t, i, "me") && SpaceEnd(t, i + 2) > i + 2 && WordAt(t, SpaceEnd(t, i + 2), "chamo") {
      NameAfterSound(t, SpaceEnd(t, i + 2) + 5);
    }
  }

  lemma MeuNomeSound(t: string, i: nat)
    requires i <= |t|
    ensures Sound(t, MeuNome(t, i), NameField)
  {
    if WordAt(t, i, "meu") && SpaceEnd(t, i + 3) > i + 3 && WordAt(t, SpaceEnd(t, i + 3), "nome") {
      var k := SpaceEnd(t, SpaceEnd(t, i + 3) + 4);
      if k < |t| {
        NameAfterSound(t, k + 1);
      }
    }
  }

  lemma SouSound(t: string, i: nat)
    requires i <= |t|
    ensures Sound(t, Sou(t, i), NameField)
  {
    if WordAt(t, i, "sou") {
      SouAfterSound(t, i + 3, SpaceEnd(t, i + 3) - (i + 3));
    }
  }

  lemma MeuEnderecoSound(t: string, i: nat)
    requires i <= |t|
    ensures Sound(t, MeuEndereco(t, i), AddressField)
  {
    if WordAt(t, i, "meu") && SpaceEnd(t, i + 3) > i + 3 && SpaceEnd(t, i + 3) + 8 <= |t| {
      var k := SpaceEnd(t, SpaceEnd(t, i + 3) + 8);
      if k < |t| {
        AddressAfterSound(t, k + 1);
      }
    }
  }

  lemma VerbEmSound(t: string, i: nat, verb: string)
    requires i <= |t| && |verb| == 4
    ensures Sound(t, VerbEm(t, i, verb), AddressField)
  {
    if WordAt(t, i, verb) && SpaceEnd(t, i + 4) > i + 4 && WordAt(t, SpaceEnd(t, i + 4), "em") {
      AddressAfterSound(t, SpaceEnd(t, i + 4) + 2);
    }
  }

  /** Whichever cue matches, and wherever, the group it yields has the pattern's shape. */
  lemma CaptureAtSound(t: string, i: nat, f: Field)
    ensures Sound(t, CaptureAt(t, i, f), f)
  {
    if i <= |t| {
      match f
      case NameField =>
        MeChamoSound(t, i);
        MeuNomeSound(t, i);
        SouSound(t, i);
      case AddressField =>
        MeuEnderecoSound(t, i);
        VerbEmSound(t, i, "moro");
        VerbEmSound(t, i, "fico");
    }
  }
}

=== FILE: fallback_phone.dfy ===
/** The phone pattern `\b(\d{2}[\s-]?)?\d{4,5}[\s-]?\d{4}\b` that the rule-based
    `extrair_informacoes` of src/services/order_processor.py searches in the text as spoken:
    its twelve paths in the order the backtracking `re` engine tries them, the leftmost
    search, and the digits left once the separators are removed. */
module FallbackPhone {
  import opened Wrappers
  import opened Text
  import opened Seqs

  /** One path through the pattern's choices: whether the area group is taken, whether it
      ends in a separator, how many digits the middle block has, and whether a separator
      follows the middle block. */
  datatype PhoneWay = PhoneWay(area: bool, sep1: bool, middle: nat, sep2: bool)

  /** The `n`-th path in the order the engine tries them: the optional group first taken
      (with its separator, then without) and then skipped; within that, five middle digits
      before four; within that, the second separator before none. */
  function WayOf(n: nat): (w: PhoneWay)
    requires n < WayCount
  {
    PhoneWay(n < 8, n < 4, if n % 4 < 2 then 5 else 4, n % 2 == 0)
  }

  const WayCount: nat := 12

  function AreaLength(w: PhoneWay): nat {
    if w.area then 2 else 0
  }

  /** Where the middle block starts, relative to the match. */
  function MiddleStart(w: PhoneWay): nat {
    AreaLength(w) + (if w.sep1 then 1 else 0)
  }

  /** Where the last four digits start, relative to the match. */
  function LastStart(w: PhoneWay): nat {
    MiddleStart(w) + w.middle + (if w.sep2 then 1 else 0)
  }

  /** The path `w` matches at `i`. */
  predicate PhoneWayAt(s: string, i: nat, w: PhoneWay)
    requires i <= |s|
  {
    var a, j, k := i + AreaLength(w), i + MiddleStart(w), i + LastStart(w);
    && k + 4 <= |s|
    && WordBoundary(s, i)
    && DigitsAt(s, i, AreaLength(w)) && (w.sep1 ==> IsSeparator(s[a]))
    && DigitsAt(s, j, w.middle) && (w.sep2 ==> IsSeparator(s[j + w.middle]))
    && DigitsAt(s, k, 4)
    && WordBoundary(s, k + 4)
  }

  /** Whether the `n`-th path matches at `i`. */
  function WayMatches(s: string, i: nat): nat -> bool
    requires i <= |s|
  {
    (n: nat) => n < WayCount && PhoneWayAt(s, i, WayOf(n))
  }

  /** The first path, from the `n`-th on, that matches at `i`. */
  function FirstWay(s: string, i: nat, n: nat): (r: Option<nat>)
    requires i <= |s| && n <= WayCount
    ensures r.Some? ==> n <= r.value < WayCount
  {
    FirstTrue(WayMatches(s, i), n, WayCount)
  }

  /** `FirstWay` finds the earliest path, in the engine's order, that matches. */
  lemma FirstWayIsFirst(s: string, i: nat, n: nat)
    requires i <= |s| && n <= WayCount
    ensures FirstWay(s, i, n).Some? ==> PhoneWayAt(s, i, WayOf(FirstWay(s, i, n).value))
    ensures FirstWay(s, i, n).Some? ==> forall m :: n <= m < FirstWay(s, i, n).value ==> !PhoneWayAt(s, i, WayOf(m))
    ensures FirstWay(s, i, n).None? ==> forall m :: n <= m < WayCount ==> !PhoneWayAt(s, i, WayOf(m))
  {
    var ok := WayMatches(s, i);
    FirstTrueIsFirst(ok, n, WayCount);
    var r := FirstTrue(ok, n, WayCount);
    if r.Some? {
      assert ok(r.value);
      forall m | n <= m < r.value
        ensures !PhoneWayAt(s, i, WayOf(m))
      {
        assert !ok(m);
      }
    } else {
      forall m | n <= m < WayCount
        ensures !PhoneWayAt(s, i, WayOf(m))
      {
        assert !ok(m);
      }
    }
  }

  /** No path of the phone pattern matches at `j`. */
  predicate NoPhoneAt(s: string, j: nat)
    requires j <= |s|
  {
    forall m :: 0 <= m < WayCount ==> !PhoneWayAt(s, j, WayOf(m))
  }

  /** A phone match: the first path that matches, and the match with its separators
      removed. */
  datatype PhoneHit = PhoneHit(way: nat, digits: string)

  /** The phone pattern anchored at `i`. */
  function PhoneAt(s: string, i: nat): (r: Option<PhoneHit>)
    ensures r.Some? ==> i <= |s| && r.value.way < WayCount
  {
    if i > |s| then None
    else
      var n := FirstWay(s, i, 0);
      if n.None? then None
      else
        FirstWayIsFirst(s, i, 0);
        Some(PhoneHit(n.value, PhoneText(s, i, WayOf(n.value))))
  }

  function PhoneMatcher(s: string): nat -> Option<PhoneHit> {
    (i: nat) => PhoneAt(s, i)
  }

  /** `re.search` with the phone pattern: where the match starts, and the match. */
  function SearchPhone(s: string): Option<(nat, PhoneHit)> {
    FirstHit(PhoneMatcher(s), 0, |s|)
  }

  /** A found phone is matched, by the first path that matches there, at the leftmost index
      where some path matches. */
  lemma SearchPhoneHit(s: string) returns (i: nat, n: nat)
    requires SearchPhone(s).Some?
    ensures i <= |s| && n < WayCount && PhoneWayAt(s, i, WayOf(n))
    ensures SearchPhone(s) == Some((i, PhoneHit(n, PhoneText(s, i, WayOf(n)))))
    ensures forall m :: 0 <= m < n ==> !PhoneWayAt(s, i, WayOf(m))
    ensures forall j :: 0 <= j < i ==> NoPhoneAt(s, j)
  {
    i, n := SearchPhone(s).value.0, SearchPhone(s).value.1.way;
    assert PhoneAt(s, i) == Some(SearchPhone(s).value.1);
    FirstHitIsLeftmost(PhoneMatcher(s), 0, |s|);
    FirstWayIsFirst(s, i, 0);
    forall j | 0 <= j < i
      ensures NoPhoneAt(s, j)
    {
      assert PhoneMatcher(s)(j).None?;
      FirstWayIsFirst(s, j, 0);
    }
  }

  /** A found phone holds only digits, 8 to 11 of them. */
  lemma SearchPhoneDigits(s: string)
    ensures SearchPhone(s).Some? ==> AllDigits(SearchPhone(s).value.1.digits) && 8 <= |SearchPhone(s).value.1.digits| <= 11
  {
    if SearchPhone(s).Some? {
      var i, n := SearchPhoneHit(s);
      PhoneTextIsDigits(s, i, WayOf(n));
    }
  }

  /** No phone is found only when no path matches anywhere. */
  lemma SearchPhoneMiss(s: string)
    ensures SearchPhone(s).None? <==>
              forall j :: 0 <= j <= |s| ==> NoPhoneAt(s, j)
  {
    FirstHitMiss(PhoneMatcher(s), 0, |s|);
    forall j | 0 <= j <= |s|
      ensures PhoneAt(s, j).None? <==> NoPhoneAt(s, j)
    {
      FirstWayIsFirst(s, j, 0);
    }
    assert forall j :: 0 <= j <= |s| ==> PhoneMatcher(s)(j) == PhoneAt(s, j);
  }

  /** `re.sub(r'[\s-]', '', telefone.group())` for the match of path `w` at `i`. */
  function PhoneText(s: string, i: nat, w: PhoneWay): string
    requires i <= |s| && PhoneWayAt(s, i, w)
  {
    DropSeparators(s[i..i + LastStart(w) + 4])
  }

  /** The phone found is the digit blocks of the match joined: only digits, 8 to 11 of
      them. */
  lemma PhoneTextIsDigits(s: string, i: nat, w: PhoneWay)
    requires i <= |s| && (w.middle == 4 || w.middle == 5) && PhoneWayAt(s, i, w)
    ensures PhoneText(s, i, w)
              == s[i..i + AreaLength(w)] + s[i + MiddleStart(w)..i + MiddleStart(w) + w.middle]
                 + s[i + LastStart(w)..i + LastStart(w) + 4]
    ensures AllDigits(PhoneText(s, i, w)) && 8 <= |PhoneText(s, i, w)| <= 11
  {
    var a, j, k := i + AreaLength(w), i + MiddleStart(w), i + LastStart(w);
    PhoneBlocks(s, i, a, j, w.middle, k);
  }

  /** The three digit blocks of a match, with the optional separators between them. */
  lemma PhoneBlocks(s: string, i: nat, a: nat, j: nat, m: nat, k: nat)
    requires i <= a <= j && j + m <= k && k + 4 <= |s| && (a == i || a == i + 2) && (m == 4 || m == 5)
    requires j == a || (j == a + 1 && IsSeparator(s[a]))
    requires k == j + m || (k == j + m + 1 && IsSeparator(s[j + m]))
    requires DigitsAt(s, i, a - i) && DigitsAt(s, j, m) && DigitsAt(s, k, 4)
    ensures DropSeparators(s[i..k + 4]) == s[i..a] + s[j..j + m] + s[k..k + 4]
    ensures AllDigits(DropSeparators(s[i..k + 4])) && 8 <= |DropSeparators(s[i..k + 4])| <= 11
  {
    DropOptionalSeparator(s, a, j);
    DropOptionalSeparator(s, j + m, k);
    DigitsBlock(s, i, a - i);
    DigitsBlock(s, j, m);
    DigitsBlock(s, k, 4);
    DropSpan(s, i, a, j, j + m, k, k + 4);
  }

  /** A match split into its five pieces: digits, optional separator, digits, optional
      separator, digits. */
  lemma DropSpan(s: string, i: nat, a: nat, j: nat, jm: nat, k: nat, e: nat)
    requires i <= a <= j <= jm <= k <= e <= |s|
    requires AllDigits(s[i..a]) && AllDigits(s[j..jm]) && AllDigits(s[k..e])
    requires DropSeparators(s[a..j]) == [] && DropSeparators(s[jm..k]) == []
    ensures DropSeparators(s[i..e]) == s[i..a] + s[j..jm] + s[k..e]
    ensures AllDigits(s[i..a] + s[j..jm] + s[k..e])
  {
    calc {
      s[i..e];
      { SliceConcat(s, i, a, e); }
      s[i..a] + s[a..e];
      { SliceConcat(s, a, jm, e); }
      s[i..a] + (s[a..jm] + s[jm..e]);
      { SliceConcat(s, a, j, jm); SliceConcat(s, jm, k, e); }
      s[i..a] + ((s[a..j] + s[j..jm]) + (s[jm..k] + s[k..e]));
    }
    DropPieces(s[i..a], s[a..j], s[j..jm], s[jm..k], s[k..e]);
    AllDigitsAppend3(s[i..a], s[j..jm], s[k..e]);
  }

  /** Dropping the separators from a digit block, an optional separator, a digit block, an
      optional separator and a digit block leaves the three blocks. */
  lemma DropPieces(g1: string, s1: string, g2: string, s2: string, g3: string)
    requires AllDigits(g1) && AllDigits(g2) && AllDigits(g3)
    requires DropSeparators(s1) == [] && DropSeparators(s2) == []
    ensures DropSeparators(g1 + ((s1 + g2) + (s2 + g3))) == g1 + g2 + g3
  {
    calc {
      DropSeparators(g1 + ((s1 + g2) + (s2 + g3)));
      { DropSeparatorsAppend(g1, (s1 + g2) + (s2 + g3)); }
      DropSeparators(g1) + DropSeparators((s1 + g2) + (s2 + g3));
      { DropSeparatorsAppend(s1 + g2, s2 + g3); }
      DropSeparators(g1) + (DropSeparators(s1 + g2) + DropSeparators(s2 + g3));
      { DropRun(s1, g2); DropRun(s2, g3); }
      DropSeparators(g1) + (g2 + g3);
      { DropSeparatorsOfDigits(g1); }
      g1 + (g2 + g3);
      g1 + g2 + g3;
    }
  }

  lemma DropRun(a: string, b: string)
    requires DropSeparators(a) == [] && AllDigits(b)
    ensures DropSeparators(a + b) == b
  {
    DropSeparatorsAppend(a, b);
    DropSeparatorsOfDigits(b);
  }

  /** An optional `[\s-]` leaves nothing behind. */
  lemma DropOptionalSeparator(s: string, a: nat, j: nat)
    requires a <= j <= |s| && (j == a || (j == a + 1 && IsSeparator(s[a])))
    ensures DropSeparators(s[a..j]) == []
  {
    if j == a + 1 {
      assert s[a..j] == [s[a]];
    }
  }
}

=== FILE: fallback_processor.dfy ===
/** The rule-based paths of src/services/order_processor.py, taken when no OpenAI key is
    configured.

    `extrair_informacoes` searches three patterns independently: a phone number
    `\b(\d{2}[\s-]?)?\d{4,5}[\s-]?\d{4}\b` in the text as spoken, and the name and address
    cues in the lower-cased text. `process_order` walks the lower-cased text with
    `re.finditer` over `(\d+)\s*(?:x|unidades?|un\.?)?\s*(?:de\s+)?([a-zà-ÿ\s]+)` and keeps the
    matches whose stripped words name a product or one of its synonyms.

    Each pattern is compiled by hand in a module of its own (`FallbackPhone`, `FallbackCues`,
    `FallbackQuantity`), beside a reading of it as written and the proof that the two agree
    (`FallbackCueMatch`, `FallbackQuantityMatch`). */
module FallbackProcessor {
  import opened Wrappers
  import opened Text
  import opened Seqs
  import opened Groups
  import opened FallbackPhone
  import opened FallbackCues
  import opened FallbackCueMatch
  import opened FallbackQuantity
  import opened FallbackQuantityMatch

  // ---------------------------------------------------------------------------
  // extrair_informacoes, fallback path

  /** What the fallback returns; a field the text does not give is `None`. */
  datatype Info = Info(nome: Option<string>, telefone: Option<string>, endereco: Option<string>)

  /** The three searches, each independent of the others: the phone in the text as given,
      with its separators removed; the name, stripped and title-cased, and the address,
      stripped and capitalized, in the lower-cased text. */
  function ExtractInfo(texto: string): (r: Info)
    ensures r.telefone.Some? ==> AllDigits(r.telefone.value) && 8 <= |r.telefone.value| <= 11
  {
    var t := Lower(texto);
    var nome := SearchCapture(t, NameField);
    var phone := SearchPhone(texto);
    var endereco := SearchCapture(t, AddressField);
    SearchPhoneDigits(texto);
    Info(if nome.Some? then Some(Title(Strip(Group(t, nome.value.1)))) else None,
         if phone.Some? then Some(phone.value.1.digits) else None,
         if endereco.Some? then Some(Capitalize(Strip(Group(t, endereco.value.1)))) else None)
  }

  /** A field is missing exactly when its pattern matches nowhere, both as the scanners
      find it and as the pattern reads. */
  lemma ExtractMissing(texto: string)
    ensures ExtractInfo(texto).nome.None? <==>
              forall j :: 0 <= j <= |texto| ==> CaptureAt(Lower(texto), j, NameField).None?
    ensures ExtractInfo(texto).telefone.None? <==> forall j :: 0 <= j <= |texto| ==> NoPhoneAt(texto, j)
    ensures ExtractInfo(texto).endereco.None? <==>
              forall j :: 0 <= j <= |texto| ==> CaptureAt(Lower(texto), j, AddressField).None?
    ensures ExtractInfo(texto).nome.None? <==>
              forall j :: 0 <= j <= |texto| ==> !CuePattern(Lower(texto), j, NameField)
    ensures ExtractInfo(texto).endereco.None? <==>
              forall j :: 0 <= j <= |texto| ==> !CuePattern(Lower(texto), j, AddressField)
  {
    SearchCaptureMiss(Lower(texto), NameField);
    SearchCaptureMiss(Lower(texto), AddressField);
    SearchPhoneMiss(texto);
    forall j: nat, f: Field
      ensures CaptureAt(Lower(texto), j, f).Some? <==> CuePattern(Lower(texto), j, f)
    {
      CaptureAtIsPattern(Lower(texto), j, f);
    }
  }

  /** A found phone is the leftmost match, by the first path that matches there, with its
      separators removed. */
  lemma ExtractPhoneFound(texto: string) returns (i: nat, n: nat)
    requires ExtractInfo(texto).telefone.Some?
    ensures i <= |texto| && n < WayCount && PhoneWayAt(texto, i, WayOf(n))
    ensures ExtractInfo(texto).telefone == Some(PhoneText(texto, i, WayOf(n)))
    ensures forall m :: 0 <= m < n ==> !PhoneWayAt(texto, i, WayOf(m))
    ensures forall j :: 0 <= j < i ==> NoPhoneAt(texto, j)
  {
    i, n := SearchPhoneHit(texto);
  }

  /** A found name is the group the engine reports at the leftmost index where a cue matches,
      stripped and title-cased. */
  lemma ExtractNameFound(texto: string) returns (i: nat, c: Capture)
    requires ExtractInfo(texto).nome.Some?
    ensures i <= |texto| && CaptureAt(Lower(texto), i, NameField) == Some(c)
    ensures forall j :: 0 <= j < i ==> CaptureAt(Lower(texto), j, NameField).None?
    ensures FirstCueMatch(Lower(texto), i, NameField, c) && forall j :: 0 <= j < i ==> !CuePattern(Lower(texto), j, NameField)
    ensures NameGroup(Lower(texto), c)
    ensures ExtractInfo(texto).nome == Some(Title(Strip(Lower(texto)[c.start..c.end])))
  {
    var t := Lower(texto);
    SearchCaptureHit(t, NameField);
    i, c := SearchCapture(t, NameField).value.0, SearchCapture(t, NameField).value.1;
    CaptureAtSound(t, i, NameField);
    SearchCaptureIsPattern(t, NameField);
  }

  /** A found address is the group the engine reports at the leftmost index where a cue
      matches, stripped and capitalized; it holds none of `, . ! ?`. */
  lemma ExtractAddressFound(texto: string) returns (i: nat, c: Capture)
    requires ExtractInfo(texto).endereco.Some?
    ensures i <= |texto| && CaptureAt(Lower(texto), i, AddressField) == Some(c)
    ensures forall j :: 0 <= j < i ==> CaptureAt(Lower(texto), j, AddressField).None?
    ensures FirstCueMatch(Lower(texto), i, AddressField, c) && forall j :: 0 <= j < i ==> !CuePattern(Lower(texto), j, AddressField)
    ensures AddressGroup(Lower(texto), c)
    ensures ExtractInfo(texto).endereco == Some(Capitalize(Strip(Lower(texto)[c.start..c.end])))
    ensures forall k :: 0 <= k < |ExtractInfo(texto).endereco.value| ==>
              InClass(ExtractInfo(texto).endereco.value[k], AddressClass)
  {
    var t := Lower(texto);
    SearchCaptureHit(t, AddressField);
    i, c := SearchCapture(t, AddressField).value.0, SearchCapture(t, AddressField).value.1;
    CaptureAtSound(t, i, AddressField);
    SearchCaptureIsPattern(t, AddressField);
    AddressTextKeepsClass(t, c);
  }

  /** The address text made of a group holds only characters of the group's class. */
  lemma AddressTextKeepsClass(t: string, c: Capture)
    requires AddressGroup(t, c)
    ensures forall k :: 0 <= k < |Capitalize(Strip(t[c.start..c.end]))| ==>
              InClass(Capitalize(Strip(t[c.start..c.end]))[k], AddressClass)
  {
    StripKeepsAddressClass(t[c.start..c.end]);
    CapitalizeKeepsAddressClass(Strip(t[c.start..c.end]));
  }

  lemma StripKeepsAddressClass(s: string)
    requires forall k :: 0 <= k < |s| ==> InClass(s[k], AddressClass)
    ensures forall k :: 0 <= k < |Strip(s)| ==> InClass(Strip(s)[k], AddressClass)
  {
    var i := StripStart(s);
    assert forall k :: 0 <= k < |Strip(s)| ==> Strip(s)[k] == s[i + k];
  }

  lemma CapitalizeKeepsAddressClass(s: string)
    requires forall k :: 0 <= k < |s| ==> InClass(s[k], AddressClass)
    ensures forall k :: 0 <= k < |Capitalize(s)| ==> InClass(Capitalize(s)[k], AddressClass)
  {
    if s != [] {
      var h, l := TitleChar(s[0]), Lower(s[1..]);
      assert forall k :: 0 <= k < |l| ==> l[k] == LowerChar(s[k + 1]);
      assert forall k :: 0 <= k < |h + l| ==> (h + l)[k] == if k < |h| then h[k] else l[k - |h|];
    }
  }

  /** A run of class `k` characters up to the end of the text is taken whole. */
  lemma {:induction false} RunEndAll(s: string, p: nat, k: Class)
    requires p <= |s|
    requires forall j :: p <= j < |s| ==> InClass(s[j], k)
    decreases |s| - p
    ensures RunEnd(s, p, k) == |s|
  {
    if p < |s| {
      RunEndAll(s, p + 1, k);
    }
  }

  /** When the pattern matches at the start of the text, the search returns that match. */
  lemma SearchAtStart(t: string, f: Field)
    requires CaptureAt(t, 0, f).Some?
    ensures SearchCapture(t, f) == Some((0, CaptureAt(t, 0, f).value))
  {
    assert Matcher(t, f)(0) == CaptureAt(t, 0, f);
  }

  /** A group that reaches the end of the text, after the one whitespace character at `p`. */
  lemma TailToEnd(t: string, p: nat, k: Class)
    requires p < |t| && IsSpace(t[p])
    requires p + 1 < |t| && !IsSpace(t[p + 1])
    requires forall j :: p + 1 <= j < |t| ==> InClass(t[j], k)
    ensures k == NameClass ==> NameAfter(t, p) == Some(Capture(p + 1, |t|))
    ensures k == AddressClass ==> AddressAfter(t, p) == Some(Capture(p + 1, |t|))
  {
    assert SpaceEnd(t, p + 1) == p + 1;
    RunEndAll(t, p + 1, k);
  }

  lemma MeChamoCue(t: string)
    requires 9 < |t| && t[..9] == "me chamo "
    ensures CaptureAt(t, 0, NameField) == NameAfter(t, 8)
  {
    assert StartsAt(t, 0, "me") by { assert t[..2] == t[..9][..2]; }
    WordAtIs(t, 0, "me");
    assert StartsAt(t, 3, "chamo") by { assert t[3..8] == t[..9][3..8]; }
    WordAtIs(t, 3, "chamo");
    assert SpaceEnd(t, 3) == 3;
  }

  lemma MoroEmCue(t: string)
    requires 8 < |t| && t[..8] == "moro em "
    ensures CaptureAt(t, 0, AddressField) == AddressAfter(t, 7)
  {
    assert StartsAt(t, 0, "moro") by { assert t[..4] == t[..8][..4]; }
    WordAtIs(t, 0, "moro");
    assert StartsAt(t, 5, "em") by { assert t[5..7] == t[..8][5..7]; }
    WordAtIs(t, 5, "em");
    assert !StartsAt(t, 0, "meu") by { assert t[1] == t[..8][1]; }
    WordAtIs(t, 0, "meu");
    assert SpaceEnd(t, 5) == 5;
  }

  /** In the lower-cased text, "me chamo " and a name is matched at the start, and the group
      is the name. */
  lemma MeChamoSearch(t: string, name: string)
    requires t == "me chamo " + name
    requires name != [] && !IsSpace(name[0])
    requires forall k :: 0 <= k < |name| ==> InClass(name[k], NameClass)
    ensures SearchCapture(t, NameField) == Some((0, Capture(9, |t|))) && Group(t, Capture(9, |t|)) == name
  {
    assert t[..9] == "me chamo " && t[9..] == name;
    MeChamoCue(t);
    TailToEnd(t, 8, NameClass);
    SearchAtStart(t, NameField);
  }

  /** "me chamo" followed by a name, in any case, yields the name title-cased. */
  lemma MeChamoName(texto: string, name: string)
    requires Lower(texto) == "me chamo " + name
    requires name != [] && !IsSpace(name[0]) && !IsSpace(name[|name| - 1])
    requires forall k :: 0 <= k < |name| ==> InClass(name[k], NameClass)
    ensures ExtractInfo(texto).nome == Some(Title(name))
  {
    var c := Capture(9, |texto|);
    calc {
      ExtractInfo(texto).nome;
    == { MeChamoSearch(Lower(texto), name); ExtractNameOf(texto, c); }
      Some(Title(Strip(Group(Lower(texto), c))));
    == { MeChamoSearch(Lower(texto), name); StripUnchanged(name); }
      Some(Title(name));
    }
  }

  lemma ExtractNameOf(texto: string, c: Capture)
    requires SearchCapture(Lower(texto), NameField).Some? && SearchCapture(Lower(texto), NameField).value.1 == c
    ensures ExtractInfo(texto).nome == Some(Title(Strip(Group(Lower(texto), c))))
  {
  }

  lemma ExtractAddressOf(texto: string, c: Capture)
    requires SearchCapture(Lower(texto), AddressField).Some? && SearchCapture(Lower(texto), AddressField).value.1 == c
    ensures ExtractInfo(texto).endereco == Some(Capitalize(Strip(Group(Lower(texto), c))))
  {
  }

  /** In the lower-cased text, "moro em " and an address is matched at the start, and the
      group is the address. */
  lemma MoroEmSearch(t: string, addr: string)
    requires t == "moro em " + addr
    requires addr != [] && !IsSpace(addr[0])
    requires forall k :: 0 <= k < |addr| ==> InClass(addr[k], AddressClass)
    ensures SearchCapture(t, AddressField) == Some((0, Capture(8, |t|))) && Group(t, Capture(8, |t|)) == addr
  {
    assert t[..8] == "moro em " && t[8..] == addr;
    MoroEmCue(t);
    TailToEnd(t, 7, AddressClass);
    SearchAtStart(t, AddressField);
  }

  /** "moro em" followed by an address without `, . ! ?`, in any case, yields the address
      capitalized. */
  lemma MoroEmAddress(texto: string, addr: string)
    requires Lower(texto) == "moro em " + addr
    requires addr != [] && !IsSpace(addr[0]) && !IsSpace(addr[|addr| - 1])
    requires forall k :: 0 <= k < |addr| ==> InClass(addr[k], AddressClass)
    ensures ExtractInfo(texto).endereco == Some(Capitalize(addr))
  {
    var c := Capture(8, |texto|);
    calc {
      ExtractInfo(texto).endereco;
    == { MoroEmSearch(Lower(texto), addr); ExtractAddressOf(texto, c); }
      Some(Capitalize(Strip(Group(Lower(texto), c))));
    == { MoroEmSearch(Lower(texto), addr); StripUnchanged(addr); }
      Some(Capitalize(addr));
    }
  }


  // ---------------------------------------------------------------------------
  // process_order, fallback path

  /** A catalog row; prices are integer cents. */
  datatype Produto = Produto(id: int, nome: string, preco: int)

  /** One line of the order. */
  datatype PedidoItem = PedidoItem(produtoId: int, nome: string, quantidade: nat, precoUnitario: int)

  /** The synonym table: a lower-cased product name to its synonyms. */
  type Sinonimos = map<string, seq<string>>

  /** The words of a match name the product: they are its lower-cased name, or one of the
      synonyms listed under that name. */
  predicate Designates(p: Produto, itemNome: string, sinonimos: Sinonimos) {
    || itemNome == Lower(p.nome)
    || (Lower(p.nome) in sinonimos && itemNome in sinonimos[Lower(p.nome)])
  }

  /** The product loop, from index `k`: the index of the first product the words name. */
  function FindProduct(produtos: seq<Produto>, itemNome: string, sinonimos: Sinonimos, k: nat): (r: Option<nat>)
    requires k <= |produtos|
    decreases |produtos| - k
    ensures r.Some? ==> k <= r.value < |produtos| && Designates(produtos[r.value], itemNome, sinonimos)
  {
    if k == |produtos| then None
    else if Designates(produtos[k], itemNome, sinonimos) then Some(k)
    else FindProduct(produtos, itemNome, sinonimos, k + 1)
  }

  /** The first product in list order that the words name wins; none is found only when the
      words name no product. */
  lemma {:induction false} FindProductIsFirst(produtos: seq<Produto>, itemNome: string, sinonimos: Sinonimos, k: nat)
    requires k <= |produtos|
    decreases |produtos| - k
    ensures FindProduct(produtos, itemNome, sinonimos, k).Some? ==>
              forall j :: k <= j < FindProduct(produtos, itemNome, sinonimos, k).value ==> !Designates(produtos[j], itemNome, sinonimos)
    ensures FindProduct(produtos, itemNome, sinonimos, k).None? <==>
              forall j :: k <= j < |produtos| ==> !Designates(produtos[j], itemNome, sinonimos)
  {
    if k < |produtos| && !Designates(produtos[k], itemNome, sinonimos) {
      FindProductIsFirst(produtos, itemNome, sinonimos, k + 1);
    }
  }

  /** The words of a match: its item group, stripped. */
  function ItemNome(t: string, m: ItemMatch): string {
    Strip(Group(t, m.item))
  }

  /** The order line of one match, when its words name a product: the product's id, name and
      price, and the match's quantity. */
  function ItemFor(t: string, m: ItemMatch, produtos: seq<Produto>, sinonimos: Sinonimos): Option<PedidoItem> {
    var k := FindProduct(produtos, ItemNome(t, m), sinonimos, 0);
    if k.None? then None
    else
      var p := produtos[k.value];
      Some(PedidoItem(p.id, p.nome, m.quantidade, p.preco))
  }

  function LineOf(t: string, produtos: seq<Produto>, sinonimos: Sinonimos): ItemMatch -> Option<PedidoItem> {
    m => ItemFor(t, m, produtos, sinonimos)
  }

  /** The loop over the matches: one line per match whose words name a product, in the
      order of the matches. */
  function ItemsOf(t: string, ms: seq<ItemMatch>, produtos: seq<Produto>, sinonimos: Sinonimos): seq<PedidoItem> {
    FilterMap(LineOf(t, produtos, sinonimos), ms)
  }

  /** Every line comes from a match whose words name a product, every such match gives its
      line, and there is no line only when no match names a product. */
  lemma ItemsOfFromMatches(t: string, ms: seq<ItemMatch>, produtos: seq<Produto>, sinonimos: Sinonimos)
    ensures forall x :: x in ItemsOf(t, ms, produtos, sinonimos) ==>
              exists k :: 0 <= k < |ms| && ItemFor(t, ms[k], produtos, sinonimos) == Some(x)
    ensures forall k :: 0 <= k < |ms| && ItemFor(t, ms[k], produtos, sinonimos).Some? ==>
              ItemFor(t, ms[k], produtos, sinonimos).value in ItemsOf(t, ms, produtos, sinonimos)
    ensures ItemsOf(t, ms, produtos, sinonimos) == [] <==>
              forall k :: 0 <= k < |ms| ==> ItemFor(t, ms[k], produtos, sinonimos).None?
  {
    FilterMapMembers(LineOf(t, produtos, sinonimos), ms);
    assert forall k :: 0 <= k < |ms| ==> LineOf(t, produtos, sinonimos)(ms[k]) == ItemFor(t, ms[k], produtos, sinonimos);
  }

  /** A line carries the id, name and price of the first product its match's words name, and
      the match's quantity. */
  lemma ItemForIsFirstProduct(t: string, m: ItemMatch, produtos: seq<Produto>, sinonimos: Sinonimos)
    requires ItemFor(t, m, produtos, sinonimos).Some?
    ensures var x := ItemFor(t, m, produtos, sinonimos).value;
            exists k :: 0 <= k < |produtos|
              && Designates(produtos[k], ItemNome(t, m), sinonimos)
              && (forall j :: 0 <= j < k ==> !Designates(produtos[j], ItemNome(t, m), sinonimos))
              && x == PedidoItem(produtos[k].id, produtos[k].nome, m.quantidade, produtos[k].preco)
  {
    FindProductIsFirst(produtos, ItemNome(t, m), sinonimos, 0);
  }

  /** The lines of all matches of the quantity pattern in `t`. */
  function Lines(t: string, produtos: seq<Produto>, sinonimos: Sinonimos): seq<PedidoItem> {
    ItemsOf(t, Matches(t, 0), produtos, sinonimos)
  }

  /** `process_order` without an OpenAI key: the lines of the matches in the lower-cased
      text, or `None` when there are none. */
  function ProcessOrder(texto: string, produtos: seq<Produto>, sinonimos: Sinonimos): (r: Option<seq<PedidoItem>>)
    ensures r.Some? ==> r.value != []
  {
    var items := Lines(Lower(texto), produtos, sinonimos);
    if items == [] then None else Some(items)
  }

  /** There is no order exactly when no match of the quantity pattern names a product. */
  lemma ProcessOrderNone(texto: string, produtos: seq<Produto>, sinonimos: Sinonimos, ms: seq<ItemMatch>)
    requires ms == Matches(Lower(texto), 0)
    ensures ProcessOrder(texto, produtos, sinonimos).None? <==>
              forall k :: 0 <= k < |ms| ==> ItemFor(Lower(texto), ms[k], produtos, sinonimos).None?
  {
    ItemsOfFromMatches(Lower(texto), ms, produtos, sinonimos);
  }

  /** Every line copies the id, name and price of a catalog product. */
  lemma ProcessOrderFromCatalog(texto: string, produtos: seq<Produto>, sinonimos: Sinonimos)
    requires ProcessOrder(texto, produtos, sinonimos).Some?
    ensures forall x :: x in ProcessOrder(texto, produtos, sinonimos).value ==>
              exists p :: p in produtos && x.produtoId == p.id && x.nome == p.nome && x.precoUnitario == p.preco
  {
    var t := Lower(texto);
    var ms := Matches(t, 0);
    ItemsOfFromMatches(t, ms, produtos, sinonimos);
    assert ProcessOrder(texto, produtos, sinonimos).value == ItemsOf(t, ms, produtos, sinonimos);
    forall x | x in ProcessOrder(texto, produtos, sinonimos).value
      ensures exists p :: p in produtos && x.produtoId == p.id && x.nome == p.nome && x.precoUnitario == p.preco
    {
      var k :| 0 <= k < |ms| && ItemFor(t, ms[k], produtos, sinonimos) == Some(x);
      var j := FindProduct(produtos, ItemNome(t, ms[k]), sinonimos, 0).value;
      assert produtos[j] in produtos;
    }
  }

  /** The digit run from `p` ends at the first non-digit. */
  lemma {:induction false} DigitEndAt(s: string, p: nat, q: nat)
    requires p <= q <= |s| && DigitsAt(s, p, q - p) && (q == |s| || !IsDigit(s[q]))
    decreases q - p
    ensures DigitEnd(s, p) == q
  {
    if p < q {
      DigitEndAt(s, p + 1, q);
    }
  }

  /** Words that start with a letter other than 'x', 'u' and 'd' are the item group right
      after the whitespace that follows the digits. */
  lemma RestAtPlainWords(t: string, n: nat)
    requires n + 1 < |t| && t[n] == ' '
    requires forall j :: n + 1 <= j < |t| ==> InClass(t[j], ItemClass)
    requires !IsSpace(t[n + 1]) && t[n + 1] != 'x' && t[n + 1] != 'u' && t[n + 1] != 'd'
    ensures RestAt(t, n) == Some(Capture(n + 1, |t|))
  {
    var q := n + 1;
    assert SpaceEnd(t, q) == q && SpaceEnd(t, n) == q;
    RunEndAll(t, q, ItemClass);
    assert !DeAt(t, q);
    assert AfterUnit(t, q) == Some(Capture(q, |t|));
    UnitThenOther(t, q, "x");
    UnitThenOther(t, q, "unidades");
    UnitThenOther(t, q, "unidade");
    UnitThenOther(t, q, "un.");
    UnitThenOther(t, q, "un");
    assert Unit(t, q) == Some(Capture(q, |t|));
  }

  /** No match starts at the end of the text. */
  lemma MatchesAtEnd(t: string)
    ensures Matches(t, |t|) == []
  {
    assert DigitEnd(t, |t|) == |t|;
    assert ItemMatcher(t)(|t|) == ItemAt(t, |t|) == None;
  }

  /** "<number> <words>" seen index by index. */
  lemma NumberSpaceWords(t: string, digits: string, name: string)
    requires t == digits + " " + name && name != []
    requires forall j :: 0 <= j < |name| ==> InClass(name[j], ItemClass)
    ensures t[..|digits|] == digits && t[|digits|] == ' ' && t[|digits| + 1..] == name
    ensures t[|digits| + 1] == name[0]
    ensures forall j :: |digits| + 1 <= j < |t| ==> InClass(t[j], ItemClass)
  {
    var n := |digits|;
    assert forall j :: n + 1 <= j < |t| ==> t[j] == name[j - n - 1];
  }

  /** `n` digits, one space and plain words match the quantity pattern at the start. */
  lemma ItemAtStart(t: string, n: nat)
    requires 0 < n && n + 1 < |t| && AllDigits(t[..n]) && t[n] == ' '
    requires forall j :: n + 1 <= j < |t| ==> InClass(t[j], ItemClass)
    requires !IsSpace(t[n + 1]) && t[n + 1] != 'x' && t[n + 1] != 'u' && t[n + 1] != 'd'
    ensures ItemAt(t, 0) == Some(ItemMatch(0, n, DigitsValue(t[..n]), Capture(n + 1, |t|)))
  {
    assert DigitsAt(t, 0, n) by {
      assert forall j :: 0 <= j < n ==> t[..n][j] == t[j];
    }
    DigitEndAt(t, 0, n);
    RestAtPlainWords(t, n);
    assert DigitsThen(AfterDigits(t), 0, n) == Some((n, Capture(n + 1, |t|)));
    assert t[0..n] == t[..n];
  }

  /** `n` digits, one space and plain words form one match of the quantity pattern. */
  lemma OneMatch(t: string, n: nat)
    requires 0 < n && n + 1 < |t| && AllDigits(t[..n]) && t[n] == ' '
    requires forall j :: n + 1 <= j < |t| ==> InClass(t[j], ItemClass)
    requires !IsSpace(t[n + 1]) && t[n + 1] != 'x' && t[n + 1] != 'u' && t[n + 1] != 'd'
    ensures Matches(t, 0) == [ItemMatch(0, n, DigitsValue(t[..n]), Capture(n + 1, |t|))]
  {
    ItemAtStart(t, n);
    MatchesSingle(t, ItemMatch(0, n, DigitsValue(t[..n]), Capture(n + 1, |t|)));
  }

  /** A match at the start that runs to the end of the text is the only one. */
  lemma MatchesSingle(t: string, m: ItemMatch)
    requires ItemAt(t, 0) == Some(m) && m.item.end == |t|
    ensures Matches(t, 0) == [m]
  {
    assert ItemMatcher(t)(0) == Some(m);
    FirstHitAt(ItemMatcher(t), 0, |t|, 0);
    MatchesAtEnd(t);
    assert Matches(t, 0) == [m] + Matches(t, |t|);
  }

  /** The product loop settles on `k` when `produtos[k]` is the first product the words
      name. */
  lemma FindProductAt(produtos: seq<Produto>, itemNome: string, sinonimos: Sinonimos, k: nat)
    requires k < |produtos| && Designates(produtos[k], itemNome, sinonimos)
    requires forall j :: 0 <= j < k ==> !Designates(produtos[j], itemNome, sinonimos)
    ensures FindProduct(produtos, itemNome, sinonimos, 0) == Some(k)
  {
    FindProductIsFirst(produtos, itemNome, sinonimos, 0);
  }

  /** "<number> <words>" where the words are a product's name or synonym orders that number
      of the first product the words name. */
  lemma NumberThenName(texto: string, digits: string, name: string,
                       produtos: seq<Produto>, sinonimos: Sinonimos, k: nat)
    requires Lower(texto) == digits + " " + name && digits != [] && AllDigits(digits) && name != []
    requires forall j :: 0 <= j < |name| ==> InClass(name[j], ItemClass)
    requires !IsSpace(name[0]) && !IsSpace(name[|name| - 1])
    requires name[0] != 'x' && name[0] != 'u' && name[0] != 'd'
    requires k < |produtos| && Designates(produtos[k], name, sinonimos)
    requires forall j :: 0 <= j < k ==> !Designates(produtos[j], name, sinonimos)
    ensures ProcessOrder(texto, produtos, sinonimos)
              == Some([PedidoItem(produtos[k].id, produtos[k].nome, DigitsValue(digits), produtos[k].preco)])
  {
    var t := Lower(texto);
    NumberSpaceWords(t, digits, name);
    LinesOfNumber(t, |digits|, name, produtos, sinonimos, k);
  }

  /** `n` digits, one space and the words of a product give that product's line alone. */
  lemma LinesOfNumber(t: string, n: nat, name: string, produtos: seq<Produto>, sinonimos: Sinonimos, k: nat)
    requires 0 < n && n + 1 < |t| && AllDigits(t[..n]) && t[n] == ' '
    requires forall j :: n + 1 <= j < |t| ==> InClass(t[j], ItemClass)
    requires !IsSpace(t[n + 1]) && t[n + 1] != 'x' && t[n + 1] != 'u' && t[n + 1] != 'd'
    requires t[n + 1..] == name && !IsSpace(name[|name| - 1])
    requires k < |produtos| && Designates(produtos[k], name, sinonimos)
    requires forall j :: 0 <= j < k ==> !Designates(produtos[j], name, sinonimos)
    ensures Lines(t, produtos, sinonimos)
              == [PedidoItem(produtos[k].id, produtos[k].nome, DigitsValue(t[..n]), produtos[k].preco)]
  {
    var m := ItemMatch(0, n, DigitsValue(t[..n]), Capture(n + 1, |t|));
    var line := PedidoItem(produtos[k].id, produtos[k].nome, m.quantidade, produtos[k].preco);
    assert Matches(t, 0) == [m] by {
      OneMatch(t, n);
    }
    assert ItemFor(t, m, produtos, sinonimos) == Some(line) by {
      assert Group(t, m.item) == name;
      assert name[0] == t[n + 1];
      ItemForName(t, m, name, produtos, sinonimos, k);
    }
    OneLine(t, m, produtos, sinonimos);
    assert Lines(t, produtos, sinonimos) == [line];
  }

  /** A match whose group is the stripped words of the first product they name gives that
      product's line. */
  lemma ItemForName(t: string, m: ItemMatch, name: string, produtos: seq<Produto>, sinonimos: Sinonimos, k: nat)
    requires Group(t, m.item) == name && name != [] && !IsSpace(name[0]) && !IsSpace(name[|name| - 1])
    requires k < |produtos| && Designates(produtos[k], name, sinonimos)
    requires forall j :: 0 <= j < k ==> !Designates(produtos[j], name, sinonimos)
    ensures ItemFor(t, m, produtos, sinonimos) == Some(PedidoItem(produtos[k].id, produtos[k].nome, m.quantidade, produtos[k].preco))
  {
    StripUnchanged(name);
    FindProductAt(produtos, name, sinonimos, k);
  }

  /** A text with one match has at most one line: the match's. */
  lemma OneLine(t: string, m: ItemMatch, produtos: seq<Produto>, sinonimos: Sinonimos)
    requires Matches(t, 0) == [m]
    ensures Lines(t, produtos, sinonimos) == if ItemFor(t, m, produtos, sinonimos).Some? then [ItemFor(t, m, produtos, sinonimos).value] else []
  {
    FilterMapOne(LineOf(t, produtos, sinonimos), m);
  }
}

=== FILE: fallback_quantity.dfy ===
/** The quantity pattern `(\d+)\s*(?:x|unidades?|un\.?)?\s*(?:de\s+)?([a-zà-ÿ\s]+)` that the
    rule-based `process_order` of src/services/order_processor.py walks with `re.finditer`
    over the lower-cased text, compiled by hand in the order the backtracking `re` engine
    tries its choices, and the walk itself. */
module FallbackQuantity {
  import opened Wrappers
  import opened Text
  import opened Seqs
  import opened Groups

  /** The item group `([a-zà-ÿ\s]+)` at `g`. Nothing follows it in the pattern, so its greedy
      first choice, the whole run, is the match. */
  function ItemGroup(t: string, g: nat): (r: Option<Capture>)
    requires g <= |t|
    ensures r.Some? ==> r.value.start == g < r.value.end <= |t|
  {
    var e := RunEnd(t, g, ItemClass);
    if e > g then Some(Capture(g, e)) else None
  }

  /** The `\s+` after "de", taking `k` whitespace characters after `p`, then fewer, each
      followed by the group. */
  function DeSpaces(t: string, p: nat, k: nat): (r: Option<Capture>)
    requires p + k <= |t|
    decreases k
    ensures r.Some? ==> p < r.value.start <= p + k && r.value.start < r.value.end <= |t|
  {
    if k == 0 then None
    else
      var r := ItemGroup(t, p + k);
      if r.Some? then r else DeSpaces(t, p, k - 1)
  }

  /** "de" at `v`. */
  predicate DeAt(t: string, v: nat) {
    v + 1 < |t| && t[v] == 'd' && t[v + 1] == 'e'
  }

  /** `(?:de\s+)?` at `u`, then the group: with "de" first, then without. */
  function DeThenGroup(t: string, u: nat): (r: Option<Capture>)
    requires u <= |t|
    ensures r.Some? ==> u <= r.value.start < r.value.end <= |t|
  {
    var withDe := if DeAt(t, u) then DeSpaces(t, u + 2, SpaceEnd(t, u + 2) - (u + 2)) else None;
    if withDe.Some? then withDe else ItemGroup(t, u)
  }

  /** The `\s*` after the unit, taking `k` whitespace characters after `p`, then fewer. */
  function SpacesThenDe(t: string, p: nat, k: nat): (r: Option<Capture>)
    requires p + k <= |t|
    decreases k
    ensures r.Some? ==> p <= r.value.start < r.value.end <= |t|
  {
    var r := DeThenGroup(t, p + k);
    if r.Some? || k == 0 then r else SpacesThenDe(t, p, k - 1)
  }

  /** Everything after the unit, from `u`. */
  function AfterUnit(t: string, u: nat): (r: Option<Capture>)
    requires u <= |t|
    ensures r.Some? ==> u <= r.value.start < r.value.end <= |t|
  {
    SpacesThenDe(t, u, SpaceEnd(t, u) - u)
  }

  /** The unit `u` at `q`, then the rest. */
  function UnitThen(t: string, q: nat, u: string): (r: Option<Capture>)
    requires q <= |t|
    ensures r.Some? ==> q + |u| <= r.value.start < r.value.end <= |t|
  {
    if WordAt(t, q, u) then AfterUnit(t, q + |u|) else None
  }

  /** The optional group `(?:x|unidades?|un\.?)` at `q`: its alternatives in the order the
      engine tries them ("unidades" before "unidade", "un." before "un"), then the group
      skipped. */
  function Unit(t: string, q: nat): (r: Option<Capture>)
    requires q <= |t|
    ensures r.Some? ==> q <= r.value.start < r.value.end <= |t|
  {
    var x := UnitThen(t, q, "x");
    if x.Some? then x
    else
      var unidades := UnitThen(t, q, "unidades");
      if unidades.Some? then unidades
      else
        var unidade := UnitThen(t, q, "unidade");
        if unidade.Some? then unidade
        else
          var unDot := UnitThen(t, q, "un.");
          if unDot.Some? then unDot
          else
            var un := UnitThen(t, q, "un");
            if un.Some? then un else AfterUnit(t, q)
  }

  /** The `\s*` after the digits, taking `k` whitespace characters after `p`, then fewer. */
  function SpacesThenUnit(t: string, p: nat, k: nat): (r: Option<Capture>)
    requires p + k <= |t|
    decreases k
    ensures r.Some? ==> p <= r.value.start < r.value.end <= |t|
  {
    var r := Unit(t, p + k);
    if r.Some? || k == 0 then r else SpacesThenUnit(t, p, k - 1)
  }

  /** Everything after `(\d+)`, from `p`. */
  function RestAt(t: string, p: nat): (r: Option<Capture>)
    ensures r.Some? ==> p <= r.value.start < r.value.end <= |t|
  {
    if p <= |t| then SpacesThenUnit(t, p, SpaceEnd(t, p) - p) else None
  }

  function AfterDigits(t: string): nat -> Option<Capture> {
    (p: nat) => RestAt(t, p)
  }

  /** `(\d+)` at `i` taking `d` digits, then fewer, each followed by `rest`. */
  function DigitsThen(rest: nat -> Option<Capture>, i: nat, d: nat): (r: Option<(nat, Capture)>)
    decreases d
    ensures r.Some? ==> i < r.value.0 <= i + d && rest(r.value.0) == Some(r.value.1)
  {
    if d == 0 then None
    else
      var r := rest(i + d);
      if r.Some? then Some((i + d, r.value)) else DigitsThen(rest, i, d - 1)
  }

  /** When the rest fails after every shorter prefix of the digits, only all `d` digits can
      succeed. */
  lemma {:induction false} DigitsThenWhole(rest: nat -> Option<Capture>, i: nat, d: nat)
    requires forall p :: i < p < i + d ==> rest(p).None?
    decreases d
    ensures DigitsThen(rest, i, d).Some? ==> DigitsThen(rest, i, d).value.0 == i + d
  {
    if d > 0 && rest(i + d).None? {
      DigitsThenNone(rest, i, d - 1);
    }
  }

  lemma {:induction false} DigitsThenNone(rest: nat -> Option<Capture>, i: nat, d: nat)
    requires forall p :: i < p <= i + d ==> rest(p).None?
    decreases d
    ensures DigitsThen(rest, i, d).None?
  {
    if d > 0 {
      DigitsThenNone(rest, i, d - 1);
    }
  }

  /** One match of the quantity pattern: where it starts, where the digits end, their value
      (`int(match.group(1))`), and the item group, which ends the match. */
  datatype ItemMatch = ItemMatch(start: nat, digitsEnd: nat, quantidade: nat, item: Capture)

  /** The quantity pattern anchored at `i`. */
  function ItemAt(t: string, i: nat): (r: Option<ItemMatch>)
    ensures r.Some? ==> r.value.start == i < r.value.digitsEnd <= r.value.item.start < r.value.item.end <= |t|
  {
    if i > |t| then None
    else
      var r := DigitsThen(AfterDigits(t), i, DigitEnd(t, i) - i);
      if r.None? then None
      else
        assert RestAt(t, r.value.0) == Some(r.value.1);
        assert AllDigits(t[i..r.value.0]) by {
          assert forall k :: 0 <= k < r.value.0 - i ==> t[i..r.value.0][k] == t[i + k];
        }
        Some(ItemMatch(i, r.value.0, DigitsValue(t[i..r.value.0]), r.value.1))
  }

  function ItemMatcher(t: string): nat -> Option<ItemMatch> {
    (i: nat) => ItemAt(t, i)
  }

  /** `re.finditer` from `from`: each match is searched for where the previous one ended. */
  function Matches(t: string, from: nat): (r: seq<ItemMatch>)
    requires from <= |t|
    decreases |t| - from
  {
    var m := FirstHit(ItemMatcher(t), from, |t|);
    if m.None? then []
    else
      assert ItemAt(t, m.value.0) == Some(m.value.1);
      [m.value.1] + Matches(t, m.value.1.item.end)
  }

  /** Reference definition of `re.finditer` from `from`: each match is the leftmost one at or
      after the end of the previous one, and none is left after the last. */
  ghost predicate FindIter(t: string, from: nat, ms: seq<ItemMatch>)
    decreases ms
  {
    if ms == [] then forall j :: from <= j <= |t| ==> ItemAt(t, j).None?
    else
      && from <= ms[0].start && ItemAt(t, ms[0].start) == Some(ms[0])
      && (forall j :: from <= j < ms[0].start ==> ItemAt(t, j).None?)
      && FindIter(t, ms[0].item.end, ms[1..])
  }

  /** `Matches` is `re.finditer`. */
  lemma {:induction false} MatchesIsFindIter(t: string, from: nat)
    requires from <= |t|
    decreases |t| - from
    ensures FindIter(t, from, Matches(t, from))
  {
    var m := FirstHit(ItemMatcher(t), from, |t|);
    FirstHitIsLeftmost(ItemMatcher(t), from, |t|);
    FirstHitMiss(ItemMatcher(t), from, |t|);
    assert forall j :: from <= j <= |t| ==> ItemMatcher(t)(j) == ItemAt(t, j);
    if m.Some? {
      assert ItemAt(t, m.value.0) == Some(m.value.1);
      MatchesIsFindIter(t, m.value.1.item.end);
      assert Matches(t, from)[1..] == Matches(t, m.value.1.item.end);
    }
  }

  /** `re.finditer` has one result: any sequence of matches that satisfies the reference
      definition is the one `Matches` computes. */
  lemma {:induction false} FindIterUnique(t: string, from: nat, ms: seq<ItemMatch>)
    requires from <= |t| && FindIter(t, from, ms)
    decreases ms
    ensures ms == Matches(t, from)
  {
    if ms == [] {
      FindIterNone(t, from);
    } else {
      FindIterHead(t, from, ms);
      FindIterUnique(t, ms[0].item.end, ms[1..]);
    }
  }

  lemma FindIterNone(t: string, from: nat)
    requires from <= |t| && FindIter(t, from, [])
    ensures Matches(t, from) == []
  {
    FirstHitMiss(ItemMatcher(t), from, |t|);
    assert forall j :: from <= j <= |t| ==> ItemMatcher(t)(j) == ItemAt(t, j);
  }

  lemma FindIterHead(t: string, from: nat, ms: seq<ItemMatch>)
    requires from <= |t| && ms != [] && FindIter(t, from, ms)
    ensures ms[0].item.end <= |t| && FindIter(t, ms[0].item.end, ms[1..])
    ensures Matches(t, from) == [ms[0]] + Matches(t, ms[0].item.end)
  {
    var i := ms[0].start;
    assert forall j :: from <= j <= i ==> ItemMatcher(t)(j) == ItemAt(t, j);
    FirstHitAt(ItemMatcher(t), from, |t|, i);
  }

  /** No unit starting with another character than `t[q]` matches at `q`. */
  lemma UnitThenOther(t: string, q: nat, u: string)
    requires q < |t| && u != [] && u[0] != t[q]
    ensures UnitThen(t, q, u).None?
  {
  }

  /** Nothing after the unit accepts a digit. */
  lemma AfterUnitDigit(t: string, p: nat)
    requires p < |t| && IsDigit(t[p])
    ensures AfterUnit(t, p).None?
  {
    assert SpaceEnd(t, p) == p;
    assert !DeAt(t, p);
    assert RunEnd(t, p, ItemClass) == p;
  }

  /** After fewer digits than the whole run a digit comes next, and nothing in the rest of
      the pattern accepts a digit there. */
  lemma DigitBlocksRest(t: string, p: nat)
    requires p < |t| && IsDigit(t[p])
    ensures SpacesThenUnit(t, p, SpaceEnd(t, p) - p).None?
  {
    assert SpaceEnd(t, p) == p;
    AfterUnitDigit(t, p);
    UnitThenOther(t, p, "x");
    UnitThenOther(t, p, "unidades");
    UnitThenOther(t, p, "unidade");
    UnitThenOther(t, p, "un.");
    UnitThenOther(t, p, "un");
  }

  /** The digits of a match are the whole run of digits where it starts. */
  lemma ItemAtDigits(t: string, i: nat)
    requires ItemAt(t, i).Some?
    ensures ItemAt(t, i).value.digitsEnd == DigitEnd(t, i)
  {
    var d := DigitEnd(t, i) - i;
    forall p | i < p < i + d
      ensures AfterDigits(t)(p).None?
    {
      DigitBlocksRest(t, p);
    }
    DigitsThenWhole(AfterDigits(t), i, d);
  }
}

=== FILE: fallback_quantity_match.dfy ===
/** The quantity pattern as it reads, with existentials over where each piece ends, and the
    match the engine reports among the ways it matches; with the proof that the scanner of
    `FallbackQuantity` matches exactly where the pattern does and returns that match. */
module FallbackQuantityMatch {
  import opened Wrappers
  import opened Text
  import opened Seqs
  import opened Groups
  import opened FallbackQuantity

  /** The item group `([a-zà-ÿ\s]+)` can span `t[g..e]`. */
  predicate ItemSpan(t: string, g: nat, e: nat) {
    g < e <= |t| && forall k :: g <= k < e ==> InClass(t[k], ItemClass)
  }

  /** `(?:de\s+)?` spans `t[v..g]`. */
  predicate DeTo(t: string, v: nat, g: nat) {
    v == g || (DeAt(t, v) && v + 2 < g && Spaces(t, v + 2, g))
  }

  /** `\s*(?:de\s+)?` spans `t[u..g]`. */
  ghost predicate AfterUnitTo(t: string, u: nat, g: nat) {
    exists v: nat :: Spaces(t, u, v) && DeTo(t, v, g)
  }

  /** `(?:x|unidades?|un\.?)?` spans `t[q..u]`. */
  predicate UnitTo(t: string, q: nat, u: nat) {
    || u == q
    || (StartsAt(t, q, "x") && u == q + 1)
    || (StartsAt(t, q, "unidades") && u == q + 8)
    || (StartsAt(t, q, "unidade") && u == q + 7)
    || (StartsAt(t, q, "un.") && u == q + 3)
    || (StartsAt(t, q, "un") && u == q + 2)
  }

  /** `\s*(?:x|unidades?|un\.?)?\s*(?:de\s+)?`, what lies between the digits and the item
      group, spans `t[d..g]`. */
  ghost predicate QuantityTailTo(t: string, d: nat, g: nat) {
    exists q: nat, u: nat :: Spaces(t, d, q) && UnitTo(t, q, u) && AfterUnitTo(t, u, g)
  }

  /** The quantity pattern matches at `i` with its digits ending at `d` and its item group
      spanning `t[g..e]`. */
  ghost predicate ItemWay(t: string, i: nat, d: nat, g: nat, e: nat) {
    i < d <= |t| && AllDigits(t[i..d]) && QuantityTailTo(t, d, g) && ItemSpan(t, g, e)
  }

  /** The match the engine reports at `i`. Every repetition in the pattern is greedy, each
      optional part is tried before it is skipped, and "unidades" and "un." come before
      their prefixes, so the engine takes the most digits that work, then the latest item
      group start, then the latest end: `m` is the way that comes last in that order. */
  ghost predicate FirstItemWay(t: string, i: nat, m: ItemMatch) {
    && m.start == i
    && ItemWay(t, i, m.digitsEnd, m.item.start, m.item.end)
    && m.quantidade == DigitsValue(t[i..m.digitsEnd])
    && forall d: nat, g: nat, e: nat :: ItemWay(t, i, d, g, e) ==>
         d < m.digitsEnd || (d == m.digitsEnd && UpTo(g, e, m.item))
  }

  /** `\s*(?:de\s+)?` from `u` to `g`, read off the run of whitespace at `u`: inside the run
      only the spaces themselves can precede the group, and "de" can only start where the
      run ends. */
  predicate AfterUnitAt(t: string, u: nat, g: nat)
    requires u <= |t|
  {
    var s := SpaceEnd(t, u);
    (u <= g < s) || DeTo(t, s, g)
  }

  /** The optional unit at `q`, then `\s*(?:de\s+)?`, up to `g`. */
  predicate UnitWay(t: string, q: nat, g: nat)
    requires q <= |t|
  {
    || AfterUnitAt(t, q, g)
    || (WordAt(t, q, "x") && AfterUnitAt(t, q + 1, g))
    || (WordAt(t, q, "unidades") && AfterUnitAt(t, q + 8, g))
    || (WordAt(t, q, "unidade") && AfterUnitAt(t, q + 7, g))
    || (WordAt(t, q, "un.") && AfterUnitAt(t, q + 3, g))
    || (WordAt(t, q, "un") && AfterUnitAt(t, q + 2, g))
  }

  /** Everything between the digits, ending at `p`, and the item group start `g`, read off
      the run of whitespace at `p`: no unit starts with whitespace. */
  predicate RestWay(t: string, p: nat, g: nat)
    requires p <= |t|
  {
    var s := SpaceEnd(t, p);
    (p <= g < s) || UnitWay(t, s, g)
  }


  /** The characters each unit spells at `q`. */
  lemma UnitChars(t: string, q: nat)
    ensures WordAt(t, q, "x") ==> q < |t| && t[q] == 'x'
    ensures WordAt(t, q, "un") ==> q < |t| && t[q] == 'u'
    ensures WordAt(t, q, "un.") ==> WordAt(t, q, "un") && q + 2 < |t| && t[q + 2] == '.'
    ensures WordAt(t, q, "unidade") ==> WordAt(t, q, "un") && q + 2 < |t| && t[q + 2] == 'i'
    ensures WordAt(t, q, "unidades") ==> WordAt(t, q, "unidade") && q + 7 < |t| && t[q + 7] == 's'
  {
    if WordAt(t, q, "x") {
      WordAtChar(t, q, "x", 0);
    }
    if WordAt(t, q, "un") {
      WordAtChar(t, q, "un", 0);
    }
    if WordAt(t, q, "un.") {
      WordAtChar(t, q, "un.", 2);
      WordAtPrefix(t, q, "un.", 2);
      assert "un."[..2] == "un";
    }
    if WordAt(t, q, "unidade") {
      WordAtChar(t, q, "unidade", 2);
      WordAtPrefix(t, q, "unidade", 2);
      assert "unidade"[..2] == "un";
    }
    if WordAt(t, q, "unidades") {
      WordAtChar(t, q, "unidades", 7);
      WordAtPrefix(t, q, "unidades", 7);
      assert "unidades"[..7] == "unidade";
    }
  }

  /** The item group at `g`: the scanner reports the longest one. */
  lemma ItemGroupLast(t: string, g: nat)
    requires g <= |t|
    ensures var r := ItemGroup(t, g);
            && (r.Some? ==> r.value.start == g && ItemSpan(t, g, r.value.end))
            && forall e: nat :: ItemSpan(t, g, e) ==> r.Some? && e <= r.value.end
  {
    RunEndRun(t, g, ItemClass);
    forall e: nat | ItemSpan(t, g, e)
      ensures e <= RunEnd(t, g, ItemClass)
    {
      RunEndCovers(t, g, e, ItemClass);
    }
  }

  /** `\s+` taking `k` characters after `p`, then fewer, before the item group: the scanner
      reports the group that comes last. */
  lemma {:induction false} DeSpacesLast(t: string, p: nat, k: nat)
    requires p + k <= |t|
    decreases k
    ensures var r := DeSpaces(t, p, k);
            && (r.Some? ==> p < r.value.start <= p + k && ItemSpan(t, r.value.start, r.value.end))
            && forall g: nat, e: nat :: p < g <= p + k && ItemSpan(t, g, e) ==> r.Some? && UpTo(g, e, r.value)
  {
    if k > 0 {
      ItemGroupLast(t, p + k);
      DeSpacesLast(t, p, k - 1);
    }
  }

  /** `(?:de\s+)?` at `v`, then the item group: what the scanner reports is a way. */
  lemma DeThenGroupHit(t: string, v: nat)
    requires v <= |t| && DeThenGroup(t, v).Some?
    ensures var c := DeThenGroup(t, v).value;
            DeTo(t, v, c.start) && ItemSpan(t, c.start, c.end)
  {
    ItemGroupLast(t, v);
    if DeAt(t, v) {
      var w := v + 2;
      var s := SpaceEnd(t, w);
      DeSpacesLast(t, w, s - w);
      if DeSpaces(t, w, s - w).Some? {
        SpacesUpTo(t, w, DeSpaces(t, w, s - w).value.start);
      }
    }
  }

  /** `(?:de\s+)?` at `v`, then the item group: every way comes no later than what the
      scanner reports. With "de" the group starts past it, later than without. */
  lemma DeThenGroupWay(t: string, v: nat, g: nat, e: nat)
    requires v <= |t| && DeTo(t, v, g) && ItemSpan(t, g, e)
    ensures DeThenGroup(t, v).Some? && UpTo(g, e, DeThenGroup(t, v).value)
  {
    if DeAt(t, v) && DeSpaces(t, v + 2, SpaceEnd(t, v + 2) - (v + 2)).Some? {
      DeThenGroupWayDe(t, v, g, e);
    } else {
      DeThenGroupWayPlain(t, v, g, e);
    }
  }

  /** When "de" and whitespace lead to a group, that group starts past every way's start. */
  lemma DeThenGroupWayDe(t: string, v: nat, g: nat, e: nat)
    requires v <= |t| && DeTo(t, v, g) && ItemSpan(t, g, e) && DeAt(t, v)
    requires DeSpaces(t, v + 2, SpaceEnd(t, v + 2) - (v + 2)).Some?
    ensures DeThenGroup(t, v).Some? && UpTo(g, e, DeThenGroup(t, v).value)
  {
    var w := v + 2;
    var s := SpaceEnd(t, w);
    assert DeThenGroup(t, v) == DeSpaces(t, w, s - w);
    DeSpacesLast(t, w, s - w);
    if g != v {
      SpacesUpTo(t, w, g);
    }
  }

  /** Otherwise no way goes through "de", and the group starts at `v`. */
  lemma DeThenGroupWayPlain(t: string, v: nat, g: nat, e: nat)
    requires v <= |t| && DeTo(t, v, g) && ItemSpan(t, g, e)
    requires !DeAt(t, v) || DeSpaces(t, v + 2, SpaceEnd(t, v + 2) - (v + 2)).None?
    ensures DeThenGroup(t, v).Some? && UpTo(g, e, DeThenGroup(t, v).value)
  {
    if g != v {
      var w := v + 2;
      var s := SpaceEnd(t, w);
      SpacesUpTo(t, w, g);
      DeSpacesLast(t, w, s - w);
      assert false;
    }
    assert DeThenGroup(t, v) == ItemGroup(t, v);
    ItemGroupLast(t, v);
  }

  /** Whitespace from `p` up to `v`, then `(?:de\s+)?` from `v`, reaches `g`: the group can
      start on one of the spaces, or where "de" ends. */
  predicate SpacesDeTo(t: string, p: nat, v: nat, g: nat) {
    (p <= g < v) || DeTo(t, v, g)
  }

  /** `\s*` taking `k` of the whitespace characters after `p`, then fewer, then the rest:
      before `p + k` only a space itself can start the group. */
  lemma SpacesThenDeLast(t: string, p: nat, k: nat)
    requires p <= |t| && p + k <= SpaceEnd(t, p)
    ensures var r := SpacesThenDe(t, p, k);
            && (r.Some? ==> SpacesDeTo(t, p, p + k, r.value.start) && ItemSpan(t, r.value.start, r.value.end))
            && forall g: nat, e: nat :: SpacesDeTo(t, p, p + k, g) && ItemSpan(t, g, e) ==> r.Some? && UpTo(g, e, r.value)
  {
    if SpacesThenDe(t, p, k).Some? {
      SpacesThenDeHit(t, p, k);
    }
    forall g: nat, e: nat | SpacesDeTo(t, p, p + k, g) && ItemSpan(t, g, e)
      ensures SpacesThenDe(t, p, k).Some? && UpTo(g, e, SpacesThenDe(t, p, k).value)
    {
      SpacesThenDeWay(t, p, k, g, e);
    }
  }

  lemma {:induction false} SpacesThenDeHit(t: string, p: nat, k: nat)
    requires p <= |t| && p + k <= SpaceEnd(t, p) && SpacesThenDe(t, p, k).Some?
    decreases k
    ensures var c := SpacesThenDe(t, p, k).value;
            SpacesDeTo(t, p, p + k, c.start) && ItemSpan(t, c.start, c.end)
  {
    if DeThenGroup(t, p + k).Some? || k == 0 {
      SpacesThenDeHitHere(t, p, k);
    } else {
      SpacesThenDeHit(t, p, k - 1);
      SpacesThenDeHitBack(t, p, k);
    }
  }

  /** The group "de" and the group at `p + k` give is what `SpacesThenDe` reports. */
  lemma SpacesThenDeHitHere(t: string, p: nat, k: nat)
    requires p <= |t| && p + k <= SpaceEnd(t, p) && (DeThenGroup(t, p + k).Some? || k == 0)
    requires SpacesThenDe(t, p, k).Some?
    ensures var c := SpacesThenDe(t, p, k).value;
            SpacesDeTo(t, p, p + k, c.start) && ItemSpan(t, c.start, c.end)
  {
    var u := p + k;
    assert SpacesThenDe(t, p, k) == DeThenGroup(t, u) by {
      SpacesThenDeIs(t, p, k, u);
    }
    DeThenGroupHit(t, u);
  }

  /** When nothing matches at `p + k`, `SpacesThenDe` reports what it reports with one space
      fewer. */
  lemma SpacesThenDeHitBack(t: string, p: nat, k: nat)
    requires p <= |t| && 0 < k && p + k <= SpaceEnd(t, p) && DeThenGroup(t, p + k).None?
    requires SpacesThenDe(t, p, k - 1).Some?
    requires var c := SpacesThenDe(t, p, k - 1).value;
             SpacesDeTo(t, p, p + (k - 1), c.start) && ItemSpan(t, c.start, c.end)
    ensures SpacesThenDe(t, p, k).Some?
    ensures var c := SpacesThenDe(t, p, k).value;
            SpacesDeTo(t, p, p + k, c.start) && ItemSpan(t, c.start, c.end)
  {
    assert SpacesThenDe(t, p, k) == SpacesThenDe(t, p, k - 1) by {
      SpacesThenDeIs(t, p, k, p + k);
    }
    SpacesDeToStep(t, p, k, SpacesThenDe(t, p, k - 1).value.start);
  }

  lemma {:induction false} SpacesThenDeWay(t: string, p: nat, k: nat, g: nat, e: nat)
    requires p <= |t| && p + k <= SpaceEnd(t, p)
    requires SpacesDeTo(t, p, p + k, g) && ItemSpan(t, g, e)
    decreases k
    ensures SpacesThenDe(t, p, k).Some? && UpTo(g, e, SpacesThenDe(t, p, k).value)
  {
    if DeThenGroup(t, p + k).Some? || k == 0 {
      SpacesThenDeWayHere(t, p, k, g, e);
    } else {
      SpacesDeToBack(t, p, p + (k - 1), g);
      SpacesThenDeWay(t, p, k - 1, g, e);
      assert SpacesThenDe(t, p, k) == SpacesThenDe(t, p, k - 1) by {
        SpacesThenDeIs(t, p, k, p + k);
      }
    }
  }

  /** When a group follows at `p + k`, it starts no earlier than any way. */
  lemma SpacesThenDeWayHere(t: string, p: nat, k: nat, g: nat, e: nat)
    requires p <= |t| && p + k <= SpaceEnd(t, p) && (DeThenGroup(t, p + k).Some? || k == 0)
    requires SpacesDeTo(t, p, p + k, g) && ItemSpan(t, g, e)
    ensures SpacesThenDe(t, p, k).Some? && UpTo(g, e, SpacesThenDe(t, p, k).value)
  {
    var u := p + k;
    assert SpacesThenDe(t, p, k) == DeThenGroup(t, u) by {
      SpacesThenDeIs(t, p, k, u);
    }
    if DeTo(t, u, g) {
      DeThenGroupWay(t, u, g, e);
    }
  }

  /** A group start the whitespace up to `p + k - 1` reaches, the whitespace up to `p + k`
      reaches too. */
  lemma SpacesDeToStep(t: string, p: nat, k: nat, g: nat)
    requires p <= |t| && 0 < k && p + k <= SpaceEnd(t, p) && SpacesDeTo(t, p, p + (k - 1), g)
    ensures SpacesDeTo(t, p, p + k, g)
  {
    SpacesDeToBack(t, p, p + (k - 1), g);
  }

  /** One step of `SpacesThenDe`, with `u` the index it tries "de" and the group at. */
  lemma SpacesThenDeIs(t: string, p: nat, k: nat, u: nat)
    requires u == p + k <= |t|
    ensures SpacesThenDe(t, p, k) == if DeThenGroup(t, u).Some? || k == 0 then DeThenGroup(t, u) else SpacesThenDe(t, p, k - 1)
  {
  }

  /** Inside a run of whitespace "de" cannot start, so the group starts on a space. */
  lemma SpacesDeToBack(t: string, p: nat, v: nat, g: nat)
    requires p <= |t| && p <= v < SpaceEnd(t, p)
    ensures SpacesDeTo(t, p, v, g) <==> p <= g <= v
  {
    SpaceEndRun(t, p);
  }

  /** Everything after the unit, from `u`: the scanner reports the group that comes last. */
  lemma AfterUnitLast(t: string, u: nat)
    requires u <= |t|
    ensures var r := AfterUnit(t, u);
            && (r.Some? ==> AfterUnitAt(t, u, r.value.start) && ItemSpan(t, r.value.start, r.value.end))
            && forall g: nat, e: nat :: AfterUnitAt(t, u, g) && ItemSpan(t, g, e) ==> r.Some? && UpTo(g, e, r.value)
  {
    SpacesThenDeLast(t, u, SpaceEnd(t, u) - u);
  }

  /** The unit `w` at `q`, then the rest. */
  lemma UnitThenLast(t: string, q: nat, w: string)
    requires q <= |t|
    ensures var r := UnitThen(t, q, w);
            && (r.Some? ==> WordAt(t, q, w) && AfterUnitAt(t, q + |w|, r.value.start) && ItemSpan(t, r.value.start, r.value.end))
            && forall g: nat, e: nat :: WordAt(t, q, w) && AfterUnitAt(t, q + |w|, g) && ItemSpan(t, g, e) ==> r.Some? && UpTo(g, e, r.value)
  {
    if WordAt(t, q, w) {
      AfterUnitLast(t, q + |w|);
    }
  }

  /** After a unit that ends before character `c`, neither whitespace nor "d", the group can
      only start there. */
  lemma AfterUnitPlain(t: string, u: nat, c: char)
    requires u < |t| && t[u] == c && !IsSpace(c) && c != 'd'
    ensures forall g :: AfterUnitAt(t, u, g) ==> g == u
  {
    assert SpaceEnd(t, u) == u;
  }

  /** What the scanner reports at `q` comes from a way of the unit and the rest. */
  lemma UnitHit(t: string, q: nat)
    requires q <= |t| && Unit(t, q).Some?
    ensures UnitWay(t, q, Unit(t, q).value.start) && ItemSpan(t, Unit(t, q).value.start, Unit(t, q).value.end)
  {
    UnitThenLast(t, q, "x");
    UnitThenLast(t, q, "unidades");
    UnitThenLast(t, q, "unidade");
    UnitThenLast(t, q, "un.");
    UnitThenLast(t, q, "un");
    AfterUnitLast(t, q);
  }

  /** Every way of the unit and the rest at `q` comes no later than what the scanner reports:
      an alternative the engine tries earlier leaves the group a later start than any
      alternative after it. */
  lemma UnitWayLast(t: string, q: nat, g: nat, e: nat)
    requires q <= |t| && UnitWay(t, q, g) && ItemSpan(t, g, e)
    ensures Unit(t, q).Some? && UpTo(g, e, Unit(t, q).value)
  {
    if AfterUnitAt(t, q, g) {
      UnitWaySkip(t, q, g, e);
    } else if WordAt(t, q, "x") && AfterUnitAt(t, q + 1, g) {
      UnitWayX(t, q, g, e);
    } else {
      UnitWayU(t, q, g, e);
    }
  }

  /** A way through "x", the alternative the engine tries first. */
  lemma UnitWayX(t: string, q: nat, g: nat, e: nat)
    requires q <= |t| && WordAt(t, q, "x") && AfterUnitAt(t, q + 1, g) && ItemSpan(t, g, e)
    ensures Unit(t, q).Some? && UpTo(g, e, Unit(t, q).value)
  {
    UnitThenLast(t, q, "x");
  }

  /** A way through one of the units that start with "u". */
  lemma UnitWayU(t: string, q: nat, g: nat, e: nat)
    requires q <= |t| && ItemSpan(t, g, e)
    requires || (WordAt(t, q, "unidades") && AfterUnitAt(t, q + 8, g))
             || (WordAt(t, q, "unidade") && AfterUnitAt(t, q + 7, g))
             || (WordAt(t, q, "un.") && AfterUnitAt(t, q + 3, g))
             || (WordAt(t, q, "un") && AfterUnitAt(t, q + 2, g))
    ensures Unit(t, q).Some? && UpTo(g, e, Unit(t, q).value)
  {
    if WordAt(t, q, "unidades") && AfterUnitAt(t, q + 8, g) {
      UnitWayUnidades(t, q, g, e);
    } else if WordAt(t, q, "unidade") && AfterUnitAt(t, q + 7, g) {
      UnitWayUnidade(t, q, g, e);
    } else if WordAt(t, q, "un.") && AfterUnitAt(t, q + 3, g) {
      UnitWayUnDot(t, q, g, e);
    } else {
      UnitWayUn(t, q, g, e);
    }
  }

  /** A way without a unit: any unit that matches ends past `q`, where such a way's group
      starts. */
  lemma UnitWaySkip(t: string, q: nat, g: nat, e: nat)
    requires q <= |t| && AfterUnitAt(t, q, g) && ItemSpan(t, g, e)
    ensures Unit(t, q).Some? && UpTo(g, e, Unit(t, q).value)
  {
    UnitChars(t, q);
    AfterUnitLast(t, q);
    if WordAt(t, q, "x") {
      AfterUnitPlain(t, q, 'x');
    }
    if WordAt(t, q, "un") {
      AfterUnitPlain(t, q, 'u');
    }
  }

  lemma UnitWayUnidades(t: string, q: nat, g: nat, e: nat)
    requires q <= |t| && WordAt(t, q, "unidades") && AfterUnitAt(t, q + 8, g) && ItemSpan(t, g, e)
    ensures Unit(t, q).Some? && UpTo(g, e, Unit(t, q).value)
  {
    UnitThenLast(t, q, "unidades");
    assert UnitThen(t, q, "x").None? by {
      UnitChars(t, q);
      UnitThenOther(t, q, "x");
    }
  }

  /** A way through "unidade": when "unidades" matches too, "s" follows "unidade" and the
      group can only start on it, before what "unidades" leaves. */
  lemma UnitWayUnidade(t: string, q: nat, g: nat, e: nat)
    requires q <= |t| && WordAt(t, q, "unidade") && AfterUnitAt(t, q + 7, g) && ItemSpan(t, g, e)
    ensures Unit(t, q).Some? && UpTo(g, e, Unit(t, q).value)
  {
    if UnitThen(t, q, "unidades").Some? {
      UnidadeThenS(t, q, g);
      UnitPicksUnidades(t, q);
    } else {
      UnitThenLast(t, q, "unidade");
      UnitPicksUnidade(t, q);
    }
  }

  /** When "unidades" matches, the group after "unidade" starts on its "s". */
  lemma UnidadeThenS(t: string, q: nat, g: nat)
    requires q <= |t| && UnitThen(t, q, "unidades").Some? && AfterUnitAt(t, q + 7, g)
    ensures g == q + 7
  {
    UnitChars(t, q);
    AfterUnitPlain(t, q + 7, 's');
  }

  lemma UnitPicksUnidades(t: string, q: nat)
    requires q <= |t| && UnitThen(t, q, "unidades").Some?
    ensures Unit(t, q) == UnitThen(t, q, "unidades")
  {
    UnitChars(t, q);
    UnitThenOther(t, q, "x");
  }

  lemma UnitPicksUnidade(t: string, q: nat)
    requires q <= |t| && UnitThen(t, q, "unidades").None? && UnitThen(t, q, "unidade").Some?
    ensures Unit(t, q) == UnitThen(t, q, "unidade")
  {
    UnitChars(t, q);
    UnitThenOther(t, q, "x");
  }

  lemma UnitWayUnDot(t: string, q: nat, g: nat, e: nat)
    requires q <= |t| && WordAt(t, q, "un.") && AfterUnitAt(t, q + 3, g) && ItemSpan(t, g, e)
    ensures Unit(t, q).Some? && UpTo(g, e, Unit(t, q).value)
  {
    UnitThenLast(t, q, "un.");
    assert UnitThen(t, q, "x").None? && UnitThen(t, q, "unidades").None? && UnitThen(t, q, "unidade").None? by {
      UnitChars(t, q);
      UnitThenOther(t, q, "x");
      UnitDotNotIdade(t, q);
    }
  }

  /** "un." and "unidade" differ in their third character. */
  lemma UnitDotNotIdade(t: string, q: nat)
    requires q <= |t| && WordAt(t, q, "un.")
    ensures UnitThen(t, q, "unidades").None? && UnitThen(t, q, "unidade").None?
  {
    UnitChars(t, q);
    if WordAt(t, q, "unidades") {
      UnitChars(t, q);
    }
  }

  /** A way through "un": when a longer unit matches too, "i" or "." follows "un" and the
      group can only start on it, before what the longer unit leaves. */
  lemma UnitWayUn(t: string, q: nat, g: nat, e: nat)
    requires q <= |t| && WordAt(t, q, "un") && AfterUnitAt(t, q + 2, g) && ItemSpan(t, g, e)
    ensures Unit(t, q).Some? && UpTo(g, e, Unit(t, q).value)
  {
    if UnitThen(t, q, "unidades").Some? {
      UnThenNext(t, q, g, "unidades");
      UnitPicksUnidades(t, q);
    } else if UnitThen(t, q, "unidade").Some? {
      UnThenNext(t, q, g, "unidade");
      UnitPicksUnidade(t, q);
    } else if UnitThen(t, q, "un.").Some? {
      UnThenNext(t, q, g, "un.");
      UnitPicksUnDot(t, q);
    } else {
      UnitThenLast(t, q, "un");
      UnitPicksUn(t, q);
    }
  }

  /** When a longer unit matches, the group after "un" starts on the character after it. */
  lemma UnThenNext(t: string, q: nat, g: nat, w: string)
    requires q + 2 <= |t| && w in {"unidades", "unidade", "un."} && UnitThen(t, q, w).Some? && AfterUnitAt(t, q + 2, g)
    ensures g == q + 2
  {
    UnitChars(t, q);
    if w == "un." {
      AfterUnitPlain(t, q + 2, '.');
    } else {
      AfterUnitPlain(t, q + 2, 'i');
    }
  }

  lemma UnitPicksUnDot(t: string, q: nat)
    requires q <= |t| && UnitThen(t, q, "unidades").None? && UnitThen(t, q, "unidade").None?
    requires UnitThen(t, q, "un.").Some?
    ensures Unit(t, q) == UnitThen(t, q, "un.")
  {
    UnitChars(t, q);
    UnitThenOther(t, q, "x");
  }

  lemma UnitPicksUn(t: string, q: nat)
    requires q <= |t| && UnitThen(t, q, "unidades").None? && UnitThen(t, q, "unidade").None?
    requires UnitThen(t, q, "un.").None? && UnitThen(t, q, "un").Some?
    ensures Unit(t, q) == UnitThen(t, q, "un")
  {
    UnitChars(t, q);
    UnitThenOther(t, q, "x");
  }

  /** Everything after `(\d+)`, from `p`: the scanner reports the group that comes last. */
  lemma RestAtLast(t: string, p: nat)
    requires p <= |t|
    ensures var r := RestAt(t, p);
            && (r.Some? ==> RestWay(t, p, r.value.start) && ItemSpan(t, r.value.start, r.value.end))
            && forall g: nat, e: nat :: RestWay(t, p, g) && ItemSpan(t, g, e) ==> r.Some? && UpTo(g, e, r.value)
  {
    var s := SpaceEnd(t, p);
    SpaceEndRun(t, p);
    SpaceEndRun(t, s);
    RestAtIs(t, p, s - p);
    if Unit(t, s).Some? {
      assert SpacesThenUnit(t, p, s - p) == Unit(t, s);
      UnitHit(t, s);
      forall g: nat, e: nat | RestWay(t, p, g) && ItemSpan(t, g, e)
        ensures UpTo(g, e, Unit(t, s).value)
      {
        if UnitWay(t, s, g) {
          UnitWayLast(t, s, g, e);
        }
      }
    } else if s > p {
      RestInsideRun(t, p);
    } else {
      forall g: nat, e: nat | RestWay(t, p, g) && ItemSpan(t, g, e)
        ensures false
      {
        UnitWayLast(t, s, g, e);
      }
    }
  }

  /** Inside a run of whitespace no unit matches. */
  lemma UnitAtSpace(t: string, q: nat)
    requires q < |t| && IsSpace(t[q])
    ensures Unit(t, q) == AfterUnit(t, q)
  {
    UnitThenOther(t, q, "x");
    UnitThenOther(t, q, "unidades");
    UnitThenOther(t, q, "unidade");
    UnitThenOther(t, q, "un.");
    UnitThenOther(t, q, "un");
  }

  /** When nothing matches where the whitespace after the digits ends, the engine gives back
      one whitespace character, and the group starts on it. */
  lemma RestInsideRun(t: string, p: nat)
    requires p <= |t| && p < SpaceEnd(t, p) && Unit(t, SpaceEnd(t, p)).None?
    ensures var r := RestAt(t, p);
            && (r.Some? ==> RestWay(t, p, r.value.start) && ItemSpan(t, r.value.start, r.value.end))
            && forall g: nat, e: nat :: RestWay(t, p, g) && ItemSpan(t, g, e) ==> r.Some? && UpTo(g, e, r.value)
  {
    var s := SpaceEnd(t, p);
    var q := s - 1;
    SpaceEndRun(t, p);
    SpaceEndWithin(t, p, q);
    NoWayAtRunEnd(t, p);
    UnitAtSpace(t, q);
    AfterUnitLast(t, q);
    assert AfterUnitAt(t, q, q) && ItemSpan(t, q, s);
    RestAtIs(t, p, s - p);
    SpacesThenUnitPast(t, p, q - p, s);
    SpacesThenUnitHere(t, p, q - p, q);
  }

  /** Where no unit matches, `SpacesThenUnit` gives up one whitespace character. */
  lemma SpacesThenUnitPast(t: string, p: nat, k: nat, q: nat)
    requires q == p + k + 1 <= |t| && Unit(t, q).None?
    ensures SpacesThenUnit(t, p, k + 1) == SpacesThenUnit(t, p, k)
  {
    SpacesThenUnitIs(t, p, k + 1, q);
  }

  /** Where a unit matches, `SpacesThenUnit` reports it. */
  lemma SpacesThenUnitHere(t: string, p: nat, k: nat, q: nat)
    requires q == p + k <= |t| && Unit(t, q).Some?
    ensures SpacesThenUnit(t, p, k) == Unit(t, q)
  {
    SpacesThenUnitIs(t, p, k, q);
  }

  /** `RestAt` is `SpacesThenUnit` over the whole run of `k` whitespace characters. */
  lemma RestAtIs(t: string, p: nat, k: nat)
    requires p <= |t| && p + k == SpaceEnd(t, p)
    ensures RestAt(t, p) == SpacesThenUnit(t, p, k)
  {
  }

  /** One step of `SpacesThenUnit`, with `q` the index it tries the unit at. */
  lemma SpacesThenUnitIs(t: string, p: nat, k: nat, q: nat)
    requires q == p + k <= |t|
    ensures SpacesThenUnit(t, p, k) == if Unit(t, q).Some? || k == 0 then Unit(t, q) else SpacesThenUnit(t, p, k - 1)
  {
  }

  /** When nothing matches where a run of whitespace ends, not even "de" and the group
      start there. */
  lemma NoWayAtRunEnd(t: string, p: nat)
    requires p <= |t| && Unit(t, SpaceEnd(t, p)).None?
    ensures forall g: nat, e: nat :: ItemSpan(t, g, e) ==> !UnitWay(t, SpaceEnd(t, p), g) && !DeTo(t, SpaceEnd(t, p), g)
  {
    var s := SpaceEnd(t, p);
    SpaceEndRun(t, p);
    forall g: nat, e: nat | ItemSpan(t, g, e) && (UnitWay(t, s, g) || DeTo(t, s, g))
      ensures false
    {
      assert UnitWay(t, s, g);
      UnitWayLast(t, s, g, e);
    }
  }
  /** `\s*(?:de\s+)?` read as written is `AfterUnitAt`. */
  lemma AfterUnitToAt(t: string, u: nat, g: nat)
    requires u <= |t|
    ensures AfterUnitTo(t, u, g) <==> AfterUnitAt(t, u, g)
  {
    var s := SpaceEnd(t, u);
    SpaceEndRun(t, u);
    if AfterUnitTo(t, u, g) {
      var v: nat :| Spaces(t, u, v) && DeTo(t, v, g);
      SpacesUpTo(t, u, v);
    }
    if u <= g < s {
      SpacesUpTo(t, u, g);
      assert Spaces(t, u, g) && DeTo(t, g, g);
    }
    if DeTo(t, s, g) {
      SpacesUpTo(t, u, s);
      assert Spaces(t, u, s);
    }
  }

  /** At whitespace, no unit matches. */
  lemma UnitToAtSpace(t: string, q: nat, u: nat)
    requires q < |t| && IsSpace(t[q]) && UnitTo(t, q, u)
    ensures u == q
  {
    WordAtIs(t, q, "x");
    WordAtIs(t, q, "un");
    UnitChars(t, q);
  }

  /** A way through one of the units at `q` reads as `UnitWay`, and back. */
  lemma UnitWayIs(t: string, q: nat, g: nat)
    requires q <= |t|
    ensures UnitWay(t, q, g) <==> exists u: nat :: UnitTo(t, q, u) && AfterUnitTo(t, u, g)
  {
    AfterUnitToAt(t, q, g);
    if AfterUnitAt(t, q, g) {
      assert UnitTo(t, q, q);
    }
    UnitWordIs(t, q, "x", g);
    UnitWordIs(t, q, "unidades", g);
    UnitWordIs(t, q, "unidade", g);
    UnitWordIs(t, q, "un.", g);
    UnitWordIs(t, q, "un", g);
  }

  lemma UnitWordIs(t: string, q: nat, w: string, g: nat)
    requires q <= |t|
    ensures WordAt(t, q, w) && AfterUnitAt(t, q + |w|, g) <==> StartsAt(t, q, w) && AfterUnitTo(t, q + |w|, g)
  {
    WordAtIs(t, q, w);
    if StartsAt(t, q, w) {
      AfterUnitToAt(t, q + |w|, g);
    }
  }

  /** What lies between the digits and the item group, read as written, is `RestWay`. */
  lemma QuantityTailToAt(t: string, d: nat, g: nat)
    requires d <= |t|
    ensures QuantityTailTo(t, d, g) <==> RestWay(t, d, g)
  {
    if QuantityTailTo(t, d, g) {
      QuantityTailToRest(t, d, g);
    }
    if RestWay(t, d, g) {
      RestToQuantityTail(t, d, g);
    }
  }

  lemma QuantityTailToRest(t: string, d: nat, g: nat)
    requires d <= |t| && QuantityTailTo(t, d, g)
    ensures RestWay(t, d, g)
  {
    var s := SpaceEnd(t, d);
    SpaceEndRun(t, d);
    var q: nat, u: nat :| Spaces(t, d, q) && UnitTo(t, q, u) && AfterUnitTo(t, u, g);
    SpacesUpTo(t, d, q);
    if q < s {
      UnitToAtSpace(t, q, u);
      AfterUnitToAt(t, q, g);
      SpaceEndWithin(t, d, q);
    } else {
      UnitWayIs(t, s, g);
    }
  }

  lemma RestToQuantityTail(t: string, d: nat, g: nat)
    requires d <= |t| && RestWay(t, d, g)
    ensures QuantityTailTo(t, d, g)
  {
    var s := SpaceEnd(t, d);
    if d <= g < s {
      SpacesUpTo(t, d, g);
      assert Spaces(t, g, g) && DeTo(t, g, g);
      assert Spaces(t, d, g) && UnitTo(t, g, g) && AfterUnitTo(t, g, g);
    } else {
      UnitWayIs(t, s, g);
      SpaceEndRun(t, d);
      SpacesUpTo(t, d, s);
      var u: nat :| UnitTo(t, s, u) && AfterUnitTo(t, u, g);
      assert Spaces(t, d, s) && UnitTo(t, s, u) && AfterUnitTo(t, u, g);
    }
  }

  /** A match at `i` is the rest of the pattern after the whole run of digits there. */
  lemma ItemAtRest(t: string, i: nat)
    requires i <= |t|
    ensures var r := ItemAt(t, i);
            && (r.Some? <==> i < DigitEnd(t, i) && RestAt(t, DigitEnd(t, i)).Some?)
            && (r.Some? ==> r.value.digitsEnd == DigitEnd(t, i) && RestAt(t, DigitEnd(t, i)) == Some(r.value.item))
  {
    if ItemAt(t, i).Some? {
      ItemAtDigits(t, i);
    }
  }

  /** At a digit the rest of the pattern has no way: the units, "de" and the item group all
      start with something else. */
  lemma DigitNoRest(t: string, p: nat, g: nat, e: nat)
    requires p < |t| && IsDigit(t[p])
    ensures !(RestWay(t, p, g) && ItemSpan(t, g, e))
  {
    assert SpaceEnd(t, p) == p;
    UnitChars(t, p);
    AfterUnitPlain(t, p, t[p]);
  }

  /** Digits from `i` to `d` lie within the run that `DigitEnd` finds. */
  lemma DigitsWithin(t: string, i: nat, d: nat)
    requires i <= d <= |t| && AllDigits(t[i..d])
    ensures d <= DigitEnd(t, i)
  {
    forall k | i <= k < d
      ensures IsDigit(t[k])
    {
      assert t[i..d][k - i] == t[k];
    }
  }

  /** A way of the quantity pattern has the whole run of digits, then the rest read off the
      whitespace after them. */
  lemma ItemWayRest(t: string, i: nat, d: nat, g: nat, e: nat)
    requires ItemWay(t, i, d, g, e)
    ensures i <= |t| && d == DigitEnd(t, i) && RestWay(t, d, g) && ItemSpan(t, g, e)
  {
    QuantityTailToAt(t, d, g);
    DigitsWithin(t, i, d);
    if d < DigitEnd(t, i) {
      DigitNoRest(t, d, g, e);
    }
  }

  /** The scanner reports a way of the quantity pattern at `i`, and every way has its digits
      and comes no later. */
  lemma ItemAtLast(t: string, i: nat)
    ensures var r := ItemAt(t, i);
            && (r.Some? ==> ItemWay(t, i, r.value.digitsEnd, r.value.item.start, r.value.item.end))
            && forall d: nat, g: nat, e: nat :: ItemWay(t, i, d, g, e) ==>
                 r.Some? && d == r.value.digitsEnd && UpTo(g, e, r.value.item)
  {
    if i <= |t| {
      var de := DigitEnd(t, i);
      ItemAtRest(t, i);
      RestAtLast(t, de);
      if ItemAt(t, i).Some? {
        var c := ItemAt(t, i).value.item;
        QuantityTailToAt(t, de, c.start);
        assert AllDigits(t[i..de]) by {
          assert forall k :: 0 <= k < de - i ==> t[i..de][k] == t[i + k];
        }
      }
      forall d: nat, g: nat, e: nat | ItemWay(t, i, d, g, e)
        ensures ItemAt(t, i).Some? && d == ItemAt(t, i).value.digitsEnd && UpTo(g, e, ItemAt(t, i).value.item)
      {
        ItemWayRest(t, i, d, g, e);
      }
    }
  }

  /** `ItemAt` is the match the engine reports at `i`, and reports none when the pattern has
      no way there. */
  lemma ItemAtIsFirst(t: string, i: nat)
    ensures forall m :: ItemAt(t, i) == Some(m) <==> FirstItemWay(t, i, m)
  {
    forall m
      ensures ItemAt(t, i) == Some(m) <==> FirstItemWay(t, i, m)
    {
      if ItemAt(t, i) == Some(m) {
        ItemAtFirstWay(t, i);
      }
      if FirstItemWay(t, i, m) {
        FirstWayItemAt(t, i, m);
      }
    }
  }

  lemma ItemAtFirstWay(t: string, i: nat)
    requires ItemAt(t, i).Some?
    ensures FirstItemWay(t, i, ItemAt(t, i).value)
  {
    ItemAtLast(t, i);
  }

  lemma FirstWayItemAt(t: string, i: nat, m: ItemMatch)
    requires FirstItemWay(t, i, m)
    ensures ItemAt(t, i) == Some(m)
  {
    ItemAtLast(t, i);
    var r := ItemAt(t, i).value;
    assert ItemWay(t, i, r.digitsEnd, r.item.start, r.item.end);
    assert r.item == m.item;
  }

  /** The quantity pattern matches at `i` exactly when a run of digits starts there and a
      character of the item class follows the whole run. */
  lemma ItemAtWhen(t: string, i: nat)
    ensures ItemAt(t, i).Some? <==> i < |t| && IsDigit(t[i]) && DigitEnd(t, i) < |t| && InClass(t[DigitEnd(t, i)], ItemClass)
  {
    if i <= |t| {
      var de := DigitEnd(t, i);
      ItemAtRest(t, i);
      if ItemAt(t, i).Some? {
        RestAtClass(t, de);
      }
      if i < |t| && IsDigit(t[i]) && de < |t| && InClass(t[de], ItemClass) {
        ClassRestAt(t, de);
      }
    }
  }

  /** The rest of the pattern only matches before a character of the item class: whitespace,
      a unit, "de" and the group all start with one. */
  lemma RestAtClass(t: string, p: nat)
    requires p <= |t| && RestAt(t, p).Some?
    ensures p < |t| && InClass(t[p], ItemClass)
  {
    RestAtLast(t, p);
    SpaceEndRun(t, p);
    if SpaceEnd(t, p) == p {
      UnitChars(t, p);
    }
  }

  /** Before a character of the item class the rest of the pattern matches: the group can
      start on it, or on the last space of the run it starts. */
  lemma ClassRestAt(t: string, p: nat)
    requires p < |t| && InClass(t[p], ItemClass)
    ensures RestAt(t, p).Some?
  {
    var s := SpaceEnd(t, p);
    RestAtLast(t, p);
    SpaceEndRun(t, p);
    if s > p {
      assert ItemSpan(t, s - 1, s);
      assert RestWay(t, p, s - 1);
    } else {
      assert AfterUnitAt(t, p, p);
      assert RestWay(t, p, p) && ItemSpan(t, p, p + 1);
    }
  }

  /** A match of the quantity pattern: the whole run of digits at its start, with their
      value, then the whole run of lower-case letters and whitespace that its group starts,
      which ends the match. */
  lemma ItemAtShape(t: string, i: nat)
    requires ItemAt(t, i).Some?
    ensures var m := ItemAt(t, i).value;
            && m.digitsEnd == DigitEnd(t, i)
            && m.quantidade == DigitsValue(t[i..m.digitsEnd])
            && (forall k :: m.item.start <= k < m.item.end ==> InClass(t[k], ItemClass))
            && (m.item.end == |t| || !InClass(t[m.item.end], ItemClass))
  {
    ItemAtRest(t, i);
    var m := ItemAt(t, i).value;
    RestAtLast(t, m.digitsEnd);
    if m.item.end < |t| && InClass(t[m.item.end], ItemClass) {
      assert ItemSpan(t, m.item.start, m.item.end + 1);
    }
  }
}

=== FILE: formatters.dfy ===
/** `format_currency` of src/utils/formatters.py, on an amount in integer cents.

    Python formats the value as `f"R$ {value:,.2f}"` (thousands separated by ",", two decimals
    after ".") and then swaps the two marks with the chain `.replace(",", "X")
    .replace(".", ",").replace("X", ".")`, giving the Brazilian form "R$ 1.234,56". */
module Formatters {
  import opened Wrappers
  import opened Text

  // ---------------------------------------------------------------------------
  // Digit grouping

  /** `format(n, ",")` on the digits of `n`, with `sep` as the separator: groups of three
      digits from the right. */
  function Grouped(d: string, sep: char): (r: string)
    decreases |d|
  {
    if |d| <= 3 then d else Grouped(d[..|d| - 3], sep) + [sep] + d[|d| - 3..]
  }

  /** The separators of `Grouped` sit exactly every four characters counted from the right
      end, so every group but the first has three digits and the first has one to three;
      the other characters are the digits in order. */
  lemma {:induction false} GroupedShape(d: string, sep: char)
    requires d != [] && sep !in d
    ensures |Grouped(d, sep)| == |d| + (|d| - 1) / 3
    ensures SepEveryFour(Grouped(d, sep), sep)
    decreases |d|
  {
    var r := Grouped(d, sep);
    if |d| > 3 {
      var p := d[..|d| - 3];
      var tail := d[|d| - 3..];
      AbsentFromSplit(d, sep);
      GroupedShape(p, sep);
      SepEveryFourStep(Grouped(p, sep), tail, sep);
    } else {
      forall i | 0 <= i < |r|
        ensures r[i] != sep && (|r| - i) % 4 != 0
      {
        assert r[i] in d;
      }
    }
  }

  /** `sep` occurs in `r` exactly at the distances 4, 8, ... from its right end. */
  predicate SepEveryFour(r: string, sep: char) {
    forall i :: 0 <= i < |r| ==> (r[i] == sep <==> (|r| - i) % 4 == 0)
  }

  lemma SepEveryFourStep(q: string, tail: string, sep: char)
    requires SepEveryFour(q, sep) && |tail| == 3 && sep !in tail
    ensures SepEveryFour(q + [sep] + tail, sep)
  {
    var r := q + [sep] + tail;
    forall i | 0 <= i < |r|
      ensures r[i] == sep <==> (|r| - i) % 4 == 0
    {
      if i < |q| {
        assert r[i] == q[i];
        assert |r| - i == (|q| - i) + 4;
      } else if i > |q| {
        assert r[i] == tail[i - |q| - 1];
        assert tail[i - |q| - 1] in tail;
      }
    }
  }

  /** A character absent from `d` is absent from both parts `Grouped` splits it into. */
  lemma AbsentFromSplit(d: string, sep: char)
    requires |d| > 3 && sep !in d
    ensures sep !in d[..|d| - 3] && sep !in d[|d| - 3..]
  {
    assert forall x | x in d[..|d| - 3] :: x in d;
    assert forall x | x in d[|d| - 3..] :: x in d;
  }

  /** `s` with every `c` removed. */
  function DropChar(s: string, c: char): (r: string)
    ensures c !in r
  {
    if s == [] then [] else (if s[0] == c then [] else [s[0]]) + DropChar(s[1..], c)
  }

  lemma {:induction false} DropCharAppend(a: string, b: string, c: char)
    ensures DropChar(a + b, c) == DropChar(a, c) + DropChar(b, c)
  {
    if a == [] {
      assert a + b == b;
    } else {
      var h := if a[0] == c then [] else [a[0]];
      calc {
        DropChar(a + b, c);
        h + DropChar((a + b)[1..], c);
        { assert (a + b)[1..] == a[1..] + b; }
        h + DropChar(a[1..] + b, c);
        { DropCharAppend(a[1..], b, c); }
        h + (DropChar(a[1..], c) + DropChar(b, c));
        DropChar(a, c) + DropChar(b, c);
      }
    }
  }

  lemma {:induction false} DropCharAbsent(s: string, c: char)
    requires c !in s
    ensures DropChar(s, c) == s
  {
    if s != [] {
      assert c !in s[1..] by {
        assert forall x | x in s[1..] :: x in s;
      }
      DropCharAbsent(s[1..], c);
    }
  }

  /** Removing the separators gives the digits back. */
  lemma {:induction false} UngroupGrouped(d: string, sep: char)
    requires sep !in d
    ensures DropChar(Grouped(d, sep), sep) == d
    decreases |d|
  {
    if |d| <= 3 {
      DropCharAbsent(d, sep);
    } else {
      var p, tail := d[..|d| - 3], d[|d| - 3..];
      AbsentFromSplit(d, sep);
      calc {
        DropChar(Grouped(d, sep), sep);
        DropChar(Grouped(p, sep) + [sep] + tail, sep);
        { DropCharAppend(Grouped(p, sep) + [sep], tail, sep); DropCharAppend(Grouped(p, sep), [sep], sep); }
        DropChar(Grouped(p, sep), sep) + DropChar([sep], sep) + DropChar(tail, sep);
        { UngroupGrouped(p, sep); DropCharAbsent(tail, sep); assert DropChar([sep], sep) == []; }
        p + tail;
        d;
      }
    }
  }

  lemma {:induction false} GroupedChars(d: string, sep: char)
    ensures forall x | x in Grouped(d, sep) :: x in d || x == sep
    ensures d != [] ==> Grouped(d, sep) != [] && Grouped(d, sep)[0] == d[0]
    decreases |d|
  {
    if |d| > 3 {
      var p := d[..|d| - 3];
      GroupedChars(p, sep);
      assert forall x | x in p :: x in d;
      assert forall x | x in d[|d| - 3..] :: x in d;
      assert (Grouped(p, sep) + [sep] + d[|d| - 3..])[0] == Grouped(p, sep)[0];
    }
  }

  // ---------------------------------------------------------------------------
  // The amount

  /** The two decimals of a number of cents below 100. */
  function TwoDigits(m: nat): (r: string)
    requires m < 100
    ensures |r| == 2 && AllDigits(r)
  {
    [DigitChar(m / 10), DigitChar(m % 10)]
  }

  lemma TwoDigitsValue(m: nat)
    requires m < 100
    ensures DigitsValue(TwoDigits(m)) == m
  {
    var r := TwoDigits(m);
    assert r[..1] == [DigitChar(m / 10)];
    assert r[..1][..0] == [];
    assert DigitsValue(r[..1]) == m / 10;
    assert DigitsValue(r) == (m / 10) * 10 + m % 10;
  }

  /** `cents / 100` formatted with two decimals, thousands separated by `thousands` and the
      decimals after `point`; a negative amount starts with "-". */
  function Amount(cents: int, thousands: char, point: char): string {
    var a := if cents < 0 then -cents else cents;
    (if cents < 0 then "-" else "") + Grouped(NatToString(a / 100), thousands) + [point] + TwoDigits(a % 100)
  }

  /** `f"{cents / 100:.2f}"`: the amount with two decimals and no grouping. */
  function FixedTwo(cents: int): string {
    var a := if cents < 0 then -cents else cents;
    (if cents < 0 then "-" else "") + NatToString(a / 100) + "." + TwoDigits(a % 100)
  }

  /** The `:.2f` text reads back as the amount: an optional "-" exactly for a negative
      amount, then the whole part, a "." and two decimals, whose digits give the size of the
      amount in cents. */
  lemma FixedTwoReadsBack(cents: int)
    ensures var s := FixedTwo(cents);
            var whole := if cents < 0 then s[1..|s| - 3] else s[..|s| - 3];
            && |s| >= 4 && s[|s| - 3] == '.'
            && (s[0] == '-' <==> cents < 0)
            && whole != [] && AllDigits(whole) && AllDigits(s[|s| - 2..])
            && DigitsValue(whole) * 100 + DigitsValue(s[|s| - 2..]) == (if cents < 0 then -cents else cents)
  {
    var a := if cents < 0 then -cents else cents;
    FixedPieces(cents < 0, NatToString(a / 100), TwoDigits(a % 100));
    NatToStringRoundTrip(a / 100);
    TwoDigitsValue(a % 100);
  }

  /** Where the pieces of a `:.2f` text sit. */
  lemma FixedPieces(neg: bool, w: string, d: string)
    requires w != [] && AllDigits(w) && |d| == 2
    ensures var s := (if neg then "-" else "") + w + "." + d;
            && |s| >= 4 && s[|s| - 3] == '.' && s[|s| - 2..] == d
            && (if neg then s[1..|s| - 3] else s[..|s| - 3]) == w
            && (s[0] == '-' <==> neg)
  {
    var s := (if neg then "-" else "") + w + "." + d;
    assert s[0] == (if neg then '-' else w[0]);
    assert IsDigit(w[0]);
  }

  // ---------------------------------------------------------------------------
  // The replace chain

  /** What the chain does to one character when no "X" is present. */
  function SwapMark(c: char): char {
    if c == ',' then '.' else if c == '.' then ',' else c
  }

  /** Every "," becomes "." and every "." becomes ","; nothing else changes. */
  function SwapMarks(s: string): (r: string)
    ensures |r| == |s| && forall i :: 0 <= i < |s| ==> r[i] == SwapMark(s[i])
  {
    seq(|s|, i requires 0 <= i < |s| => SwapMark(s[i]))
  }

  /** `.replace(",", "X").replace(".", ",").replace("X", ".")`. */
  function ReplaceChain(s: string): string {
    Replace(Replace(Replace(s, ",", "X"), ".", ","), "X", ".")
  }

  /** On a string without "X" the chain swaps the two marks and changes nothing else. */
  lemma ReplaceChainSwaps(s: string)
    requires 'X' !in s
    ensures ReplaceChain(s) == SwapMarks(s)
  {
    var r1 := Replace(s, ",", "X");
    var r2 := Replace(r1, ".", ",");
    ReplaceOneChar(s, ',', 'X');
    ReplaceOneChar(r1, '.', ',');
    ReplaceOneChar(r2, 'X', '.');
    SwapCharAt(s, ',', 'X');
    SwapCharAt(r1, '.', ',');
    SwapCharAt(r2, 'X', '.');
    forall i | 0 <= i < |s|
      ensures ReplaceChain(s)[i] == SwapMark(s[i])
    {
      assert s[i] != 'X' by {
        assert s[i] in s;
      }
    }
  }

  lemma SwapMarksAppend(a: string, b: string)
    ensures SwapMarks(a + b) == SwapMarks(a) + SwapMarks(b)
  {
  }

  lemma SwapMarksPlain(s: string)
    requires forall x | x in s :: x != ',' && x != '.'
    ensures SwapMarks(s) == s
  {
    forall i | 0 <= i < |s|
      ensures SwapMarks(s)[i] == s[i]
    {
      assert s[i] in s;
    }
  }

  lemma {:induction false} SwapMarksGrouped(d: string)
    requires AllDigits(d)
    ensures SwapMarks(Grouped(d, ',')) == Grouped(d, '.')
    decreases |d|
  {
    if |d| <= 3 {
      SwapMarksDigits(d);
    } else {
      var p, tail := d[..|d| - 3], d[|d| - 3..];
      assert AllDigits(p) && AllDigits(tail) by {
        assert forall k :: 0 <= k < |p| ==> p[k] == d[k];
        assert forall k :: 0 <= k < |tail| ==> tail[k] == d[|d| - 3 + k];
      }
      calc {
        SwapMarks(Grouped(d, ','));
        SwapMarks(Grouped(p, ',') + [','] + tail);
        { SwapMarksAppend(Grouped(p, ',') + [','], tail); SwapMarksAppend(Grouped(p, ','), [',']); }
        SwapMarks(Grouped(p, ',')) + SwapMarks([',']) + SwapMarks(tail);
        { SwapMarksGrouped(p); SwapMarksDigits(tail); assert SwapMarks([',']) == ['.']; }
        Grouped(p, '.') + ['.'] + tail;
        Grouped(d, '.');
      }
    }
  }

  lemma SwapMarksDigits(d: string)
    requires AllDigits(d)
    ensures SwapMarks(d) == d
  {
    forall i | 0 <= i < |d|
      ensures SwapMarks(d)[i] == d[i]
    {
      assert IsDigit(d[i]);
    }
  }

  // ---------------------------------------------------------------------------
  // format_currency

  /** `format_currency(cents / 100)`. */
  function FormatCurrency(cents: int): string {
    ReplaceChain("R$ " + Amount(cents, ',', '.'))
  }

  /** The Brazilian form: "R$ ", the sign, the whole part grouped by ".", then "," and the two
      decimals. */
  lemma FormatCurrencyIsBrazilian(cents: int)
    ensures FormatCurrency(cents) == "R$ " + Amount(cents, '.', ',')
  {
    var s := "R$ " + Amount(cents, ',', '.');
    assert 'X' !in s by {
      AmountChars(cents, ',', '.');
    }
    ReplaceChainSwaps(s);
    SwapMarksAppend("R$ ", Amount(cents, ',', '.'));
    SwapMarksPlain("R$ ");
    SwapMarksAmount(cents);
  }

  /** An amount holds only digits, "-" and the two marks. */
  lemma AmountChars(cents: int, thousands: char, point: char)
    ensures forall x | x in Amount(cents, thousands, point) ::
              IsDigit(x) || x == '-' || x == thousands || x == point
  {
    var a := if cents < 0 then -cents else cents;
    var whole := NatToString(a / 100);
    var dec := TwoDigits(a % 100);
    GroupedChars(whole, thousands);
    forall x | x in Amount(cents, thousands, point)
      ensures IsDigit(x) || x == '-' || x == thousands || x == point
    {
      if x in whole {
        var k :| 0 <= k < |whole| && whole[k] == x;
      } else if x in dec {
        var k :| 0 <= k < |dec| && dec[k] == x;
      }
    }
  }

  lemma SwapMarksAmount(cents: int)
    ensures SwapMarks(Amount(cents, ',', '.')) == Amount(cents, '.', ',')
  {
    var a := if cents < 0 then -cents else cents;
    var sign: string := if cents < 0 then "-" else "";
    var whole := NatToString(a / 100);
    var dec := TwoDigits(a % 100);
    calc {
      SwapMarks(Amount(cents, ',', '.'));
      SwapMarks(sign + Grouped(whole, ',') + ['.'] + dec);
      { SwapMarksAppend(sign + Grouped(whole, ',') + ['.'], dec);
        SwapMarksAppend(sign + Grouped(whole, ','), ['.']);
        SwapMarksAppend(sign, Grouped(whole, ',')); }
      SwapMarks(sign) + SwapMarks(Grouped(whole, ',')) + SwapMarks(['.']) + SwapMarks(dec);
      { SwapMarksPlain(sign); SwapMarksGrouped(whole); SwapMarksDigits(dec);
        assert SwapMarks(['.']) == [',']; }
      sign + Grouped(whole, '.') + [','] + dec;
    }
  }

  // ---------------------------------------------------------------------------
  // Reading an amount back

  /** Reads "R$ [-]d.ddd,dd" back into cents: the inverse the format is checked against. */
  function ParseCurrency(s: string): Option<int> {
    if |s| < 3 || s[..3] != "R$ " then None
    else
      var body := s[3..];
      if body != [] && body[0] == '-' then
        match ParseAmount(body[1..])
        case Some(v) => Some(-(v as int))
        case None => None
      else
        match ParseAmount(body)
        case Some(v) => Some(v)
        case None => None
  }

  /** Reads "d.ddd,dd" into cents. */
  function ParseAmount(m: string): Option<nat> {
    if |m| < 4 || m[|m| - 3] != ',' then None
    else
      var whole := DropChar(m[..|m| - 3], '.');
      var dec := m[|m| - 2..];
      if whole == [] || !AllDigits(whole) || !AllDigits(dec) then None
      else Some(DigitsValue(whole) * 100 + DigitsValue(dec))
  }

  lemma ParseAmountRoundTrip(a: nat)
    ensures ParseAmount(Grouped(NatToString(a / 100), '.') + [','] + TwoDigits(a % 100)) == Some(a)
  {
    var whole := NatToString(a / 100);
    var g := Grouped(whole, '.');
    assert DropChar(g, '.') == whole by {
      assert '.' !in whole by {
        forall x | x in whole
          ensures x != '.'
        {
          var k :| 0 <= k < |whole| && whole[k] == x;
        }
      }
      UngroupGrouped(whole, '.');
    }
    ParseAmountOf(g, TwoDigits(a % 100));
    NatToStringRoundTrip(a / 100);
    TwoDigitsValue(a % 100);
  }

  /** `ParseAmount` on a whole part, "," and two decimals. */
  lemma ParseAmountOf(g: string, dec: string)
    requires |dec| == 2 && AllDigits(dec)
    requires DropChar(g, '.') != [] && AllDigits(DropChar(g, '.'))
    ensures ParseAmount(g + [','] + dec) == Some(DigitsValue(DropChar(g, '.')) * 100 + DigitsValue(dec))
  {
    var m := g + [','] + dec;
    assert m[..|m| - 3] == g && m[|m| - 3] == ',' && m[|m| - 2..] == dec;
  }

  /** Round trip: the formatted amount reads back as the same number of cents. */
  lemma FormatCurrencyRoundTrip(cents: int)
    ensures ParseCurrency(FormatCurrency(cents)) == Some(cents)
  {
    var a := if cents < 0 then -cents else cents;
    var whole := NatToString(a / 100);
    var m := Grouped(whole, '.') + [','] + TwoDigits(a % 100);
    assert Amount(cents, '.', ',') == (if cents < 0 then "-" else "") + m;
    assert m[0] != '-' by {
      GroupedChars(whole, '.');
      assert m[0] == whole[0];
    }
    calc {
      ParseCurrency(FormatCurrency(cents));
      { FormatCurrencyIsBrazilian(cents); }
      ParseCurrency("R$ " + ((if cents < 0 then "-" else "") + m));
      { ParseSigned(cents < 0, m); }
      SignedValue(cents < 0, ParseAmount(m));
      { ParseAmountRoundTrip(a); }
      Some(cents);
    }
  }

  function SignedValue(neg: bool, v: Option<nat>): Option<int> {
    match v
    case Some(n) => Some(if neg then -(n as int) else n)
    case None => None
  }

  /** `ParseCurrency` reads the prefix and the sign, and leaves the rest to `ParseAmount`. */
  lemma ParseSigned(neg: bool, m: string)
    requires m != [] && m[0] != '-'
    ensures ParseCurrency("R$ " + ((if neg then "-" else "") + m)) == SignedValue(neg, ParseAmount(m))
  {
    var s := "R$ " + ((if neg then "-" else "") + m);
    assert s[..3] == "R$ ";
    if neg {
      assert s[3..] == "-" + m;
      assert s[3..][1..] == m;
    } else {
      assert s[3..] == m;
    }
  }

  /** The result starts with "R$ " and ends with "," and the two decimals of the amount. */
  lemma FormatCurrencyEnds(cents: int)
    ensures |FormatCurrency(cents)| >= 7 && FormatCurrency(cents)[..3] == "R$ "
    ensures var s := FormatCurrency(cents);
            var a := if cents < 0 then -cents else cents;
            s[|s| - 3] == ',' && s[|s| - 2..] == TwoDigits(a % 100)
  {
    FormatCurrencyIsBrazilian(cents);
    var a := if cents < 0 then -cents else cents;
    GroupedChars(NatToString(a / 100), '.');
  }
}

=== FILE: groups.dfy ===
/** The groups the rule-based patterns of src/services/order_processor.py capture: where a
    group lies in the text, the text it holds, and the order in which the backtracking `re`
    engine prefers one span of a group to another. */
module Groups {

  /** The span of a pattern's group. */
  datatype Capture = Capture(start: nat, end: nat)

  /** The group `t[g..e]` comes no later than `c`: it starts earlier, or starts there and ends
      no later. */
  predicate UpTo(g: nat, e: nat, c: Capture) {
    g < c.start || (g == c.start && e <= c.end)
  }

  /** `match.group(1)`: the text the group spans (empty for a span the text does not hold). */
  function Group(t: string, c: Capture): string {
    if c.start <= c.end <= |t| then t[c.start..c.end] else []
  }
}

=== FILE: inventory_processor.dfy ===
/** The order parser of services/process.inventory.py.

    A product is ordered when its name occurs anywhere in the text (both lower-cased).
    One quantity is read for the whole text: the last whitespace-separated word `isdigit()`
    accepts, or 1; `int()` raises on such a word when it holds a superscript digit, and the
    whole parse then fails. The word "sem" anywhere in the text switches on ingredient removal,
    and then every ingredient of an ordered product whose name occurs in the text is
    reported as removed. */
module InventoryProcessor {
  import opened Wrappers
  import opened Text
  import opened Seqs

  /** An inventory entry: the catalog name and the ingredient list. */
  datatype Product = Product(nome: string, ingredientes: seq<string>)

  /** One line of the processed order. */
  datatype Item = Item(produto: string, quantidade: nat, ingredientesRemovidos: seq<string>)

  /** The product's lower-cased name occurs in the lower-cased text. */
  predicate Mentions(text: string, p: Product) {
    Contains(Lower(text), Lower(p.nome))
  }

  /** Reference definition: the inventory products the text mentions, in inventory order. */
  function Mentioned(text: string, inventory: seq<Product>): (r: seq<Product>)
    ensures IsSubsequence(r, inventory)
    ensures forall p :: p in r <==> p in inventory && Mentions(text, p)
  {
    if inventory == [] then []
    else
      var rest := Mentioned(text, inventory[1..]);
      assert forall p :: p in inventory <==> p == inventory[0] || p in inventory[1..];
      if Mentions(text, inventory[0]) then
        assert ([inventory[0]] + rest)[1..] == rest;
        [inventory[0]] + rest
      else
        assert rest == [] || rest[0] != inventory[0];
        rest
  }

  // ---------------------------------------------------------------------------
  // Quantity

  /** `word.isdigit()`: a non-empty word of digit-like characters. */
  predicate DigitWord(w: string) {
    w != [] && forall k :: 0 <= k < |w| ==> IsDigitLike(w[k])
  }

  /** A word `isdigit()` accepts but `int()` rejects: it holds one of ¹ ² ³. */
  predicate BadDigitWord(w: string) {
    DigitWord(w) && !AllDigits(w)
  }

  const IntError := "invalid literal for int() with base 10"

  /** The loop over `text.split()`: every `isdigit()` word overwrites the quantity with
      `int(word)`, which raises on a word holding a superscript digit. */
  function QuantityScan(words: seq<string>, current: nat): Result<nat> {
    if words == [] then Success(current)
    else if !DigitWord(words[0]) then QuantityScan(words[1..], current)
    else if AllDigits(words[0]) then QuantityScan(words[1..], DigitsValue(words[0]))
    else Failure(IntError)
  }

  function Quantity(text: string): Result<nat> {
    QuantityScan(Split(text), 1)
  }

  /** The scan fails exactly when some word is accepted by `isdigit()` and rejected by
      `int()`. */
  lemma {:induction false} QuantityScanFails(words: seq<string>, current: nat)
    ensures QuantityScan(words, current).Failure? <==> exists k :: 0 <= k < |words| && BadDigitWord(words[k])
  {
    if words != [] {
      assert forall j :: 0 <= j < |words| - 1 ==> words[1..][j] == words[j + 1];
      if DigitWord(words[0]) && !AllDigits(words[0]) {
        assert BadDigitWord(words[0]);
      } else {
        QuantityScanFails(words[1..], if DigitWord(words[0]) then DigitsValue(words[0]) else current);
        if exists k :: 0 <= k < |words| && BadDigitWord(words[k]) {
          var k :| 0 <= k < |words| && BadDigitWord(words[k]);
          assert k > 0 && BadDigitWord(words[1..][k - 1]);
        }
      }
    }
  }

  /** Without an `isdigit()` word the scan returns its starting value. */
  lemma {:induction false} QuantityScanNone(words: seq<string>, current: nat)
    requires forall k :: 0 <= k < |words| ==> !DigitWord(words[k])
    ensures QuantityScan(words, current) == Success(current)
  {
    if words != [] {
      assert !DigitWord(words[0]);
      assert forall k :: 0 <= k < |words| - 1 ==> words[1..][k] == words[k + 1];
      QuantityScanNone(words[1..], current);
    }
  }

  /** With no word rejected by `int()`, the scan returns the value of the last `isdigit()`
      word. */
  lemma {:induction false} QuantityScanLast(words: seq<string>, current: nat, k: nat)
    requires k < |words| && DigitWord(words[k])
    requires forall j :: 0 <= j < |words| ==> !BadDigitWord(words[j])
    requires forall j :: k < j < |words| ==> !DigitWord(words[j])
    ensures AllDigits(words[k]) && QuantityScan(words, current) == Success(DigitsValue(words[k]))
  {
    assert forall j :: 0 <= j < |words| - 1 ==> words[1..][j] == words[j + 1];
    assert !BadDigitWord(words[0]) && !BadDigitWord(words[k]);
    if k > 0 {
      var next := if DigitWord(words[0]) then DigitsValue(words[0]) else current;
      QuantityScanLast(words[1..], next, k - 1);
    } else {
      QuantityScanNone(words[1..], DigitsValue(words[0]));
    }
  }

  /** The scan fails iff a word holds a superscript digit; otherwise it returns the value of
      the last `isdigit()` word, or its starting value when there is none. */
  lemma QuantityScanIsLast(words: seq<string>, current: nat)
    ensures QuantityScan(words, current).Failure? <==> exists k :: 0 <= k < |words| && BadDigitWord(words[k])
    ensures (forall k :: 0 <= k < |words| ==> !DigitWord(words[k])) ==> QuantityScan(words, current) == Success(current)
    ensures (forall j :: 0 <= j < |words| ==> !BadDigitWord(words[j])) ==>
              forall k :: 0 <= k < |words| && DigitWord(words[k]) && (forall j :: k < j < |words| ==> !DigitWord(words[j]))
                ==> AllDigits(words[k]) && QuantityScan(words, current) == Success(DigitsValue(words[k]))
  {
    QuantityScanFails(words, current);
    if forall k :: 0 <= k < |words| ==> !DigitWord(words[k]) {
      QuantityScanNone(words, current);
    }
    if forall j :: 0 <= j < |words| ==> !BadDigitWord(words[j]) {
      forall k | 0 <= k < |words| && DigitWord(words[k]) && (forall j :: k < j < |words| ==> !DigitWord(words[j]))
        ensures AllDigits(words[k]) && QuantityScan(words, current) == Success(DigitsValue(words[k]))
      {
        QuantityScanLast(words, current, k);
      }
    }
  }

  /** The quantity of the text: a failure iff a word holds a superscript digit, otherwise
      the int value of the last `isdigit()` word, 1 without one. */
  lemma QuantityIsLastDigitWord(text: string)
    ensures var words := Split(text);
            Quantity(text).Failure? <==> exists k :: 0 <= k < |words| && BadDigitWord(words[k])
    ensures var words := Split(text);
            (forall k :: 0 <= k < |words| ==> !DigitWord(words[k])) ==> Quantity(text) == Success(1)
    ensures var words := Split(text);
            (forall j :: 0 <= j < |words| ==> !BadDigitWord(words[j])) ==>
              forall k :: 0 <= k < |words| && DigitWord(words[k]) && (forall j :: k < j < |words| ==> !DigitWord(words[j]))
                ==> AllDigits(words[k]) && Quantity(text) == Success(DigitsValue(words[k]))
  {
    QuantityScanIsLast(Split(text), 1);
  }

  /** A text without a character `isdigit()` accepts orders one of each product it names. */
  lemma NoDigitsQuantityOne(text: string)
    requires forall c | c in text :: !IsDigitLike(c)
    ensures Quantity(text) == Success(1)
  {
    forall k | 0 <= k < |Split(text)|
      ensures !DigitWord(Split(text)[k])
    {
      assert Split(text)[k][0] in Split(text)[k];
    }
    QuantityIsLastDigitWord(text);
  }

  /** A superscript digit standing as a word of its own makes the parse fail. */
  lemma SuperscriptWordFails(head: string, tail: string)
    ensures Quantity(head + " \U{B2} " + tail).Failure?
  {
    var w := "\U{B2}";
    var text := head + " \U{B2} " + tail;
    assert text == (head + " ") + ((w + " ") + tail);
    assert BadDigitWord(w) by {
      assert !IsDigit(w[0]);
    }
    SplitAppend(head + " ", (w + " ") + tail);
    SplitAppend(w + " ", tail);
    assert Split(w + " ") == [w] by {
      var t := w + " ";
      assert SpaceEnd(t, 0) == 0 && WordEnd(t, 0) == 1;
      SplitFromStep(t, 0, 0, 1);
      assert SplitFrom(t, 1) == [];
      assert t[0..1] == w;
    }
    var k := |Split(head + " ")|;
    assert Split(text)[k] == w;
    QuantityIsLastDigitWord(text);
  }

  // ---------------------------------------------------------------------------
  // Removed ingredients

  /** The ingredients, in list order, whose lower-cased name occurs in `lowered`. */
  function PresentIngredients(lowered: string, ingredientes: seq<string>): (r: seq<string>)
    ensures IsSubsequence(r, ingredientes)
    ensures forall i :: i in r <==> i in ingredientes && Contains(lowered, Lower(i))
  {
    if ingredientes == [] then []
    else
      var rest := PresentIngredients(lowered, ingredientes[1..]);
      assert forall i :: i in ingredientes <==> i == ingredientes[0] || i in ingredientes[1..];
      if Contains(lowered, Lower(ingredientes[0])) then
        assert ([ingredientes[0]] + rest)[1..] == rest;
        [ingredientes[0]] + rest
      else
        assert rest == [] || rest[0] != ingredientes[0];
        rest
  }

  /** The removal list of one ordered product. */
  function Removed(text: string, p: Product): (r: seq<string>)
    ensures !Contains(Lower(text), "sem") ==> r == []
    ensures IsSubsequence(r, p.ingredientes)
    ensures Contains(Lower(text), "sem") ==>
              forall i :: i in r <==> i in p.ingredientes && Contains(Lower(text), Lower(i))
  {
    if Contains(Lower(text), "sem") then PresentIngredients(Lower(text), p.ingredientes) else []
  }

  // ---------------------------------------------------------------------------
  // The parser

  function ItemFor(text: string, p: Product, quantity: nat): Item {
    Item(p.nome, quantity, Removed(text, p))
  }

  /** The item of each product of `ps`, in order. */
  function Items(text: string, ps: seq<Product>, quantity: nat): seq<Item> {
    seq(|ps|, k requires 0 <= k < |ps| => ItemFor(text, ps[k], quantity))
  }

  /** The loop of `process_order`, with `order` the list built so far; the quantity is read
      afresh for every mentioned product, and its failure ends the loop. */
  function ProcessFrom(text: string, inventory: seq<Product>, order: seq<Item>): Result<seq<Item>> {
    if inventory == [] then Success(order)
    else
      var p := inventory[0];
      if Mentions(text, p) then
        var quantity :- Quantity(text);
        ProcessFrom(text, inventory[1..], order + [ItemFor(text, p, quantity)])
      else ProcessFrom(text, inventory[1..], order)
  }

  /** The loop appends the item of every mentioned product, in inventory order, and fails
      exactly when some product is mentioned and the quantity fails. */
  lemma {:induction false} ProcessFromAppends(text: string, inventory: seq<Product>, order: seq<Item>)
    ensures Mentioned(text, inventory) == [] ==> ProcessFrom(text, inventory, order) == Success(order)
    ensures Mentioned(text, inventory) != [] && Quantity(text).Failure? ==> ProcessFrom(text, inventory, order).Failure?
    ensures Quantity(text).Success? ==>
              ProcessFrom(text, inventory, order) == Success(order + Items(text, Mentioned(text, inventory), Quantity(text).value))
  {
    if inventory != [] {
      var p := inventory[0];
      var rest := Mentioned(text, inventory[1..]);
      if Mentions(text, p) {
        if Quantity(text).Success? {
          var q := Quantity(text).value;
          ProcessFromAppends(text, inventory[1..], order + [ItemFor(text, p, q)]);
          assert Items(text, [p] + rest, q) == [ItemFor(text, p, q)] + Items(text, rest, q);
          assert order + [ItemFor(text, p, q)] + Items(text, rest, q) == order + ([ItemFor(text, p, q)] + Items(text, rest, q));
        }
      } else {
        ProcessFromAppends(text, inventory[1..], order);
      }
    } else if Quantity(text).Success? {
      assert Items(text, [], Quantity(text).value) == [];
      assert order + [] == order;
    }
  }

  /** `process_order(text, inventory)`: one item per mentioned product, in inventory order,
      carrying the catalog name, the quantity of the text and the product's removal list;
      the `ValueError` of `int()` when a product is mentioned and the quantity fails. */
  function ProcessOrder(text: string, inventory: seq<Product>): (r: Result<seq<Item>>)
    ensures r.Failure? <==> Mentioned(text, inventory) != [] && Quantity(text).Failure?
    ensures r.Success? ==> |r.value| == |Mentioned(text, inventory)|
    ensures r.Success? ==> forall k :: 0 <= k < |r.value| ==>
              var p := Mentioned(text, inventory)[k];
              && r.value[k].produto == p.nome
              && Quantity(text) == Success(r.value[k].quantidade)
              && r.value[k].ingredientesRemovidos == Removed(text, p)
    ensures r == Success([]) <==> forall p :: p in inventory ==> !Mentions(text, p)
  {
    ProcessFromAppends(text, inventory, []);
    assert Mentioned(text, inventory) != [] ==> Mentioned(text, inventory)[0] in Mentioned(text, inventory);
    ProcessFrom(text, inventory, [])
  }

  /** Each item's removal list is a subsequence of the ingredient list of the product it names. */
  lemma RemovedAreIngredients(text: string, inventory: seq<Product>, k: nat)
    requires ProcessOrder(text, inventory).Success? && k < |ProcessOrder(text, inventory).value|
    ensures var item := ProcessOrder(text, inventory).value[k];
            exists p :: p in inventory && Mentions(text, p) && p.nome == item.produto
              && IsSubsequence(item.ingredientesRemovidos, p.ingredientes)
  {
    var p := Mentioned(text, inventory)[k];
    assert p in Mentioned(text, inventory);
  }
}

=== FILE: inventory_scenarios.dfy ===
/** The worked examples of test/test_order_processor.py, proved against the inventory parser.

    The lemmas avoid evaluating `lower()` on whole sentences: each fact about the lower-cased
    text is drawn from an occurrence in the original text (`LowerStartsAt`) or from a
    character the text lacks (`LowerNotIn`). */
module InventoryScenarios {
  import opened Wrappers
  import opened Text
  import opened InventoryProcessor

  const BigMac := Product("Big Mac", ["Hambúrguer", "Alface", "Queijo", "Molho especial", "Cebola", "Picles"])
  const CocaCola := Product("Coca-Cola 350ml", [])
  const Batata := Product("Batata Frita Média", ["Sal"])
  const Inventory := [BigMac, CocaCola, Batata]

  // ---------------------------------------------------------------------------
  // Facts that hold for any text

  /** A three-product inventory whose last product is not mentioned. */
  lemma MentionedOfThree(text: string, a: Product, b: Product, c: Product)
    requires !Mentions(text, c)
    ensures Mentioned(text, [a, b, c]) == (if Mentions(text, a) then [a] else []) + (if Mentions(text, b) then [b] else [])
  {
    var inv := [a, b, c];
    assert inv[1..] == [b, c];
    assert inv[1..][1..] == [c];
    assert inv[1..][1..][1..] == [];
    assert Mentioned(text, [c]) == [];
    assert Mentioned(text, [b, c]) == (if Mentions(text, b) then [b] else []);
  }

  lemma ProcessOrderOfThree(text: string, a: Product, b: Product, c: Product, q: nat)
    requires !Mentions(text, c) && Quantity(text) == Success(q)
    ensures ProcessOrder(text, [a, b, c])
         == Success((if Mentions(text, a) then [ItemFor(text, a, q)] else []) + (if Mentions(text, b) then [ItemFor(text, b, q)] else []))
  {
    MentionedOfThree(text, a, b, c);
    var m := Mentioned(text, [a, b, c]);
    var r := ProcessOrder(text, [a, b, c]);
    assert r.Success?;
    var expected := (if Mentions(text, a) then [ItemFor(text, a, q)] else []) + (if Mentions(text, b) then [ItemFor(text, b, q)] else []);
    assert |expected| == |m| == |r.value|;
    forall k | 0 <= k < |m|
      ensures r.value[k] == expected[k]
    {
      assert r.value[k] == ItemFor(text, m[k], q);
    }
    assert r.value == expected;
  }

  lemma PresentNone(lowered: string, ing: seq<string>)
    requires forall j :: 0 <= j < |ing| ==> !Contains(lowered, Lower(ing[j]))
    ensures PresentIngredients(lowered, ing) == []
  {
  }

  /** Exactly one ingredient occurs in the text. */
  lemma {:induction false} PresentOnlyOne(lowered: string, ing: seq<string>, k: nat)
    requires k < |ing| && Contains(lowered, Lower(ing[k]))
    requires forall j :: 0 <= j < |ing| && j != k ==> !Contains(lowered, Lower(ing[j]))
    ensures PresentIngredients(lowered, ing) == [ing[k]]
  {
    if k == 0 {
      PresentNone(lowered, ing[1..]);
    } else {
      PresentOnlyOne(lowered, ing[1..], k - 1);
    }
  }

  lemma StartsAtEnd(a: string, b: string)
    ensures StartsAt(a + b, |a|, b)
  {
    assert (a + b)[|a|..|a| + |b|] == b;
  }

  lemma StartsAtExtend(s: string, i: int, p: string, t: string)
    requires StartsAt(s, i, p)
    ensures StartsAt(s + t, i, p)
  {
    assert (s + t)[i..i + |p|] == s[i..i + |p|];
  }

  // ---------------------------------------------------------------------------
  // The Big Mac line

  /** A text that says "sem" and "cebola" and lacks the letters ú, f, j, h and p (in either
      case) removes exactly Cebola from the Big Mac. */
  lemma BigMacRemovesCebola(text: string, sem: nat, cebola: nat)
    requires StartsAt(text, sem, "sem") && StartsAt(text, cebola, "cebola")
    requires forall x | x in text :: x !in "úÚfFjJhHpP"
    ensures Removed(text, BigMac) == ["Cebola"]
  {
    assert forall x | x in text :: LowerChar(x) !in "úfjhp";
    var lt := Lower(text);
    var ing := BigMac.ingredientes;
    LowerStartsAt(text, sem, "sem");
    LowerFixed("sem");
    ContainsShift(lt, "sem", sem);
    LowerStartsAt(text, cebola, "cebola");
    assert Lower("Cebola") == Lower("cebola") by {
      LowerAppend("C", "ebola");
      LowerAppend("c", "ebola");
      assert "Cebola" == "C" + "ebola" && "cebola" == "c" + "ebola";
    }
    ContainsShift(lt, Lower("Cebola"), cebola);
    forall j | 0 <= j < |ing| && j != 4
      ensures !Contains(lt, Lower(ing[j]))
    {
      var (c, at) := if j == 0 then ('ú', 4) else if j == 1 then ('f', 2) else if j == 2 then ('j', 4)
                     else if j == 3 then ('h', 3) else ('p', 0);
      LowerAt(ing[j], at);
      LowerNotIn(text, c);
      AbsentChar(lt, Lower(ing[j]), c);
    }
    PresentOnlyOne(lt, ing, 4);
  }

  /** A text that lacks 'f' and 'F' does not mention the Batata Frita Média. */
  lemma BatataAbsent(text: string)
    requires forall x | x in text :: x != 'f' && x != 'F'
    ensures !Mentions(text, Batata)
  {
    LowerAt(Batata.nome, 7);
    LowerNotIn(text, 'f');
    AbsentChar(Lower(text), Lower(Batata.nome), 'f');
  }

  // ---------------------------------------------------------------------------
  // The scenarios

  /** Any text that names the Big Mac, says "sem" and "cebola", and has no character
      `isdigit()` accepts and none of the letters that would name another product or
      ingredient. */
  lemma BigMacWithoutCebola(text: string, big: nat, sem: nat, cebola: nat)
    requires StartsAt(text, big, "Big Mac") && StartsAt(text, sem, "sem") && StartsAt(text, cebola, "cebola")
    requires forall x | x in text :: x !in "úÚfFjJhHpP" && !IsDigitLike(x)
    ensures ProcessOrder(text, Inventory) == Success([Item("Big Mac", 1, ["Cebola"])])
  {
    assert Mentions(text, BigMac) by {
      LowerStartsAt(text, big, "Big Mac");
      ContainsShift(Lower(text), Lower("Big Mac"), big);
    }
    assert !Mentions(text, CocaCola) by {
      LowerAt(CocaCola.nome, 10);
      LowerNotIn(text, '3');
      AbsentChar(Lower(text), Lower(CocaCola.nome), '3');
    }
    assert !Mentions(text, Batata) by {
      BatataAbsent(text);
    }
    assert Removed(text, BigMac) == ["Cebola"] by {
      BigMacRemovesCebola(text, sem, cebola);
    }
    assert Quantity(text) == Success(1) by {
      NoDigitsQuantityOne(text);
    }
    ProcessOrderOfThree(text, BigMac, CocaCola, Batata, 1);
    assert ItemFor(text, BigMac, 1) == Item("Big Mac", 1, ["Cebola"]);
    assert [ItemFor(text, BigMac, 1)] + [] == [Item("Big Mac", 1, ["Cebola"])];
  }

  /** A character that names no product or ingredient other than the Big Mac, the
      Coca-Cola 350ml and Cebola, and that `isdigit()` rejects. */
  predicate Clean(x: char) {
    x !in "úÚfFjJhHpP" && !IsDigitLike(x)
  }

  lemma CleanAppend(a: string, b: string)
    requires (forall x | x in a :: Clean(x)) && (forall x | x in b :: Clean(x))
    ensures forall x | x in a + b :: Clean(x)
  {
  }

  lemma PiecesAreClean()
    ensures forall x | x in "Quero um " :: Clean(x)
    ensures forall x | x in "Big Mac" :: Clean(x)
    ensures forall x | x in "cebola" :: Clean(x)
    ensures forall x | x in "." :: Clean(x)
    ensures forall x | x in " e uma " :: Clean(x)
    ensures forall x | x in "Coca-Cola " :: Clean(x)
    ensures forall x | x in " " :: Clean(x)
    ensures forall x | x in "sem" :: Clean(x)
  {
  }

  /** Scenario 1: "Quero um Big Mac sem cebola." orders one Big Mac without Cebola. */
  lemma Scenario1(text: string)
    requires text == "Quero um Big Mac sem cebola."
    ensures ProcessOrder(text, Inventory) == Success([Item("Big Mac", 1, ["Cebola"])])
  {
    var a, b, c, d, e, f, g := "Quero um ", "Big Mac", " ", "sem", " ", "cebola", ".";
    assert text == a + b + c + d + e + f + g by { Scenario1Pieces(); }
    assert StartsAt(text, 9, b) by {
      StartsAtEnd(a, b);
      StartsAtExtend(a + b, 9, b, c + d + e + f + g);
    }
    assert StartsAt(text, 17, d) by {
      StartsAtEnd(a + b + c, d);
      StartsAtExtend(a + b + c + d, 17, d, e + f + g);
    }
    assert StartsAt(text, 21, f) by {
      StartsAtEnd(a + b + c + d + e, f);
      StartsAtExtend(a + b + c + d + e + f, 21, f, g);
    }
    assert forall x | x in text :: Clean(x) by {
      PiecesAreClean();
      CleanAppend(a, b);
      CleanAppend(a + b, c);
      CleanAppend(a + b + c, d);
      CleanAppend(a + b + c + d, e);
      CleanAppend(a + b + c + d + e, f);
      CleanAppend(a + b + c + d + e + f, g);
    }
    BigMacWithoutCebola(text, 9, 17, 21);
  }

  lemma Scenario1Pieces()
    ensures "Quero um Big Mac sem cebola." == "Quero um " + "Big Mac" + " " + "sem" + " " + "cebola" + "."
  {
  }

  /** A text of the shape `head + last` where `head` ends in a space and has no character
      `isdigit()` accepts, and the single word `last` has a character it rejects, orders one
      of each product. */
  lemma QuantityOneWithLastWord(head: string, last: string)
    requires head != [] && IsSpace(head[|head| - 1]) && forall x | x in head :: !IsDigitLike(x)
    requires last != [] && (forall x | x in last :: !IsSpace(x)) && exists x | x in last :: !IsDigitLike(x)
    ensures Quantity(head + last) == Success(1)
  {
    SplitAppend(head, last);
    SplitSingleWord(last);
    var words := Split(head + last);
    forall k | 0 <= k < |words|
      ensures !DigitWord(words[k])
    {
      if k < |Split(head)| {
        assert words[k] == Split(head)[k];
        assert words[k][0] in words[k];
      } else {
        assert words[k] == last;
      }
    }
    QuantityIsLastDigitWord(head + last);
  }

  /** The text of scenario 5 up to its last word. */
  const Scenario5Head := "Quero um " + "Big Mac" + " " + "sem" + " " + "cebola" + " e uma " + "Coca-Cola "

  lemma Scenario5Facts()
    ensures StartsAt(Scenario5Head + "350ml.", 9, "Big Mac") && StartsAt(Scenario5Head + "350ml.", 17, "sem")
    ensures StartsAt(Scenario5Head + "350ml.", 21, "cebola") && StartsAt(Scenario5Head + "350ml.", 34, "Coca-Cola 350ml")
    ensures forall x | x in Scenario5Head :: Clean(x)
  {
    var a, b, c, d, e, f := "Quero um ", "Big Mac", " ", "sem", " ", "cebola";
    var g, h, k := " e uma ", "Coca-Cola ", "350ml.";
    var text := Scenario5Head + k;
    StartsAtEnd(a, b);
    StartsAtExtend(a + b, 9, b, c + d + e + f + g + h + k);
    StartsAtEnd(a + b + c, d);
    StartsAtExtend(a + b + c + d, 17, d, e + f + g + h + k);
    StartsAtEnd(a + b + c + d + e, f);
    StartsAtExtend(a + b + c + d + e + f, 21, f, g + h + k);
    assert StartsAt(text, 34, "Coca-Cola 350ml") by {
      assert text[34..49] == h + k[..5];
    }
    PiecesAreClean();
    CleanAppend(a, b);
    CleanAppend(a + b, c);
    CleanAppend(a + b + c, d);
    CleanAppend(a + b + c + d, e);
    CleanAppend(a + b + c + d + e, f);
    CleanAppend(a + b + c + d + e + f, g);
    CleanAppend(a + b + c + d + e + f + g, h);
  }

  lemma Scenario5LastWord()
    ensures (forall x | x in "350ml." :: x !in "úÚfFjJhHpP" && !IsSpace(x)) && exists x | x in "350ml." :: !IsDigitLike(x)
  {
    var k := "350ml.";
    assert !IsDigitLike(k[3]) && k[3] in k;
  }

  /** Scenario 5: a Big Mac without Cebola and a Coca-Cola 350ml, one of each; the digits of
      "350ml." make no quantity because that word is not all digits. */
  lemma Scenario5(text: string)
    requires text == "Quero um Big Mac sem cebola e uma Coca-Cola 350ml."
    ensures ProcessOrder(text, Inventory) == Success([Item("Big Mac", 1, ["Cebola"]), Item("Coca-Cola 350ml", 1, [])])
  {
    var k := "350ml.";
    Scenario5Pieces();
    Scenario5Facts();
    Scenario5LastWord();
    QuantityOneWithLastWord(Scenario5Head, k);
    BigMacAndCoca(Scenario5Head, k, 9, 17, 21, 34, 1);
  }

  lemma Scenario5Pieces()
    ensures "Quero um Big Mac sem cebola e uma Coca-Cola 350ml." == Scenario5Head + "350ml."
  {
    Scenario5Halves();
    Scenario5FirstHalf();
    Scenario5SecondHalf();
    AppendThree("Quero um " + "Big Mac" + " " + "sem" + " " + "cebola", " e uma ", "Coca-Cola ", "350ml.");
  }

  lemma Scenario5Halves()
    ensures "Quero um Big Mac sem cebola e uma Coca-Cola 350ml." == "Quero um Big Mac sem cebola" + " e uma Coca-Cola 350ml."
  {
  }

  lemma Scenario5FirstHalf()
    ensures "Quero um Big Mac sem cebola" == "Quero um " + "Big Mac" + " " + "sem" + " " + "cebola"
  {
  }

  lemma Scenario5SecondHalf()
    ensures " e uma Coca-Cola 350ml." == " e uma " + "Coca-Cola " + "350ml."
  {
  }

  lemma AppendThree(x: string, g: string, h: string, k: string)
    ensures x + (g + h + k) == x + g + h + k
  {
  }

  /** Any text that names the Big Mac and the Coca-Cola 350ml, says "sem" and "cebola", and
      has none of the letters that would name another product or ingredient. */
  lemma BigMacAndCoca(head: string, last: string, big: nat, sem: nat, cebola: nat, coca: nat, q: nat)
    requires var text := head + last;
             StartsAt(text, big, "Big Mac") && StartsAt(text, sem, "sem") && StartsAt(text, cebola, "cebola")
             && StartsAt(text, coca, "Coca-Cola 350ml")
    requires (forall x | x in head :: Clean(x)) && forall x | x in last :: x !in "úÚfFjJhHpP"
    requires Quantity(head + last) == Success(q)
    ensures ProcessOrder(head + last, Inventory)
         == Success([ItemFor(head + last, BigMac, q), ItemFor(head + last, CocaCola, q)])
    ensures Removed(head + last, BigMac) == ["Cebola"] && Removed(head + last, CocaCola) == []
  {
    var text := head + last;
    BigMacAndCocaFacts(text, big, sem, cebola, coca);
    ProcessOrderOfThree(text, BigMac, CocaCola, Batata, q);
    assert [ItemFor(text, BigMac, q)] + [ItemFor(text, CocaCola, q)] == [ItemFor(text, BigMac, q), ItemFor(text, CocaCola, q)];
  }

  lemma BigMacAndCocaFacts(text: string, big: nat, sem: nat, cebola: nat, coca: nat)
    requires StartsAt(text, big, "Big Mac") && StartsAt(text, sem, "sem") && StartsAt(text, cebola, "cebola")
             && StartsAt(text, coca, "Coca-Cola 350ml")
    requires forall x | x in text :: x !in "úÚfFjJhHpP"
    ensures Mentions(text, BigMac) && Mentions(text, CocaCola) && !Mentions(text, Batata)
    ensures Removed(text, BigMac) == ["Cebola"]
  {
    assert Mentions(text, BigMac) by {
      LowerStartsAt(text, big, "Big Mac");
      ContainsShift(Lower(text), Lower("Big Mac"), big);
    }
    assert Mentions(text, CocaCola) by {
      LowerStartsAt(text, coca, "Coca-Cola 350ml");
      ContainsShift(Lower(text), Lower("Coca-Cola 350ml"), coca);
    }
    assert !Mentions(text, Batata) by {
      BatataAbsent(text);
    }
    BigMacRemovesCebola(text, sem, cebola);
  }
}

=== FILE: order_processor.dfy ===
/** The order service of services/order_processor.py.

    `extrair_informacoes` looks for the leftmost phone number matching
    `(\d{2})[\s\-]?(\d{5})[\s\-]?(\d{4})`; the text before it is the name and the text after
    it the address. `process_order` lower-cases the utterance, rewrites every synonym into its
    product name one after the other, and emits one item per catalog product whose
    lower-cased name occurs in the rewritten text, with the quantity read from the leftmost
    `(\d+)\s*<name>` match. Prices are integer cents. */
module OrderProcessor {
  import opened Wrappers
  import opened Text
  import opened Seqs

  // ---------------------------------------------------------------------------
  // The phone pattern

  /** Reference definition of the phone pattern: `t` is two digits, an optional separator
      (present when `x == 1`), five digits, an optional separator (`y == 1`) and four digits. */
  predicate PhoneShape(t: string, x: nat, y: nat) {
    && x <= 1 && y <= 1 && |t| == 11 + x + y
    && DigitsAt(t, 0, 2) && (x == 1 ==> IsSeparator(t[2]))
    && DigitsAt(t, 2 + x, 5) && (y == 1 ==> IsSeparator(t[7 + x]))
    && DigitsAt(t, 7 + x + y, 4)
  }

  /** The phone pattern matches `s[i..e]`. */
  predicate PhoneSpan(s: string, i: nat, e: nat) {
    i <= e <= |s| && exists x: nat, y: nat | x <= 1 && y <= 1 :: PhoneShape(s[i..e], x, y)
  }

  /** A match: where it starts and ends, and the three groups joined. */
  datatype PhoneMatch = PhoneMatch(start: nat, end: nat, digits: string)

  /** `[\s\-]?`: one separator when there is one. Backing off to the empty match never helps,
      because a digit has to follow and no separator is a digit. */
  function SkipSeparator(s: string, i: nat): (j: nat)
    requires i <= |s|
    ensures j == i || (j == i + 1 && i < |s| && IsSeparator(s[i]))
  {
    if i < |s| && IsSeparator(s[i]) then i + 1 else i
  }

  /** The phone pattern anchored at index `i`. */
  function PhoneAt(s: string, i: nat): (r: Option<PhoneMatch>)
    ensures r.Some? ==> r.value.start == i && i + 11 <= r.value.end <= i + 13 && r.value.end <= |s|
    ensures r.Some? ==> |r.value.digits| == 11 && AllDigits(r.value.digits)
  {
    if !DigitsAt(s, i, 2) then None
    else
      var j := SkipSeparator(s, i + 2);
      if !DigitsAt(s, j, 5) then None
      else
        var k := SkipSeparator(s, j + 5);
        if !DigitsAt(s, k, 4) then None
        else
          DigitsBlock(s, i, 2);
          DigitsBlock(s, j, 5);
          DigitsBlock(s, k, 4);
          AllDigitsAppend3(s[i..i + 2], s[j..j + 5], s[k..k + 4]);
          Some(PhoneMatch(i, k + 4, s[i..i + 2] + s[j..j + 5] + s[k..k + 4]))
  }

  lemma DigitsAtSlice(s: string, i: nat, e: nat, a: nat, n: nat)
    requires i <= e <= |s| && a + n <= e - i
    ensures DigitsAt(s[i..e], a, n) <==> DigitsAt(s, i + a, n)
  {
    assert forall k :: a <= k < a + n ==> s[i..e][k] == s[i + k];
  }

  /** The scanner agrees with the pattern: it finds a match at `i` exactly when the pattern
      matches some `s[i..e]`, and then that `e` is unique and is where the match ends. */
  lemma PhoneAtIsPattern(s: string, i: nat)
    requires i <= |s|
    ensures PhoneAt(s, i).Some? ==> PhoneSpan(s, i, PhoneAt(s, i).value.end)
    ensures forall e: nat :: PhoneSpan(s, i, e) ==> PhoneAt(s, i).Some? && PhoneAt(s, i).value.end == e
  {
    if PhoneAt(s, i).Some? {
      PhoneAtSpans(s, i);
    }
    forall e: nat | PhoneSpan(s, i, e)
      ensures PhoneAt(s, i).Some? && PhoneAt(s, i).value.end == e
    {
      var x: nat, y: nat :| x <= 1 && y <= 1 && PhoneShape(s[i..e], x, y);
      SpanIsPhoneAt(s, i, e, x, y);
    }
  }

  lemma PhoneAtSpans(s: string, i: nat)
    requires i <= |s| && PhoneAt(s, i).Some?
    ensures PhoneSpan(s, i, PhoneAt(s, i).value.end)
  {
    var j := SkipSeparator(s, i + 2);
    var k := SkipSeparator(s, j + 5);
    var e := k + 4;
    var x, y := j - (i + 2), k - (j + 5);
    DigitsAtSlice(s, i, e, 0, 2);
    DigitsAtSlice(s, i, e, 2 + x, 5);
    DigitsAtSlice(s, i, e, 7 + x + y, 4);
    assert x == 1 ==> s[i..e][2] == s[i + 2];
    assert y == 1 ==> s[i..e][7 + x] == s[j + 5];
    assert PhoneShape(s[i..e], x, y);
  }

  lemma SpanIsPhoneAt(s: string, i: nat, e: nat, x: nat, y: nat)
    requires i <= e <= |s| && PhoneShape(s[i..e], x, y)
    ensures PhoneAt(s, i).Some? && PhoneAt(s, i).value.end == e
  {
    DigitsAtSlice(s, i, e, 0, 2);
    DigitsAtSlice(s, i, e, 2 + x, 5);
    DigitsAtSlice(s, i, e, 7 + x + y, 4);
    assert s[i..e][2] == s[i + 2];
    assert s[i..e][7 + x] == s[i + 7 + x];
    assert SkipSeparator(s, i + 2) == i + 2 + x;
    assert SkipSeparator(s, i + 7 + x) == i + 7 + x + y;
  }

  /** The reported number is the matched text with its separators dropped. */
  lemma PhoneDigitsOfSpan(s: string, i: nat)
    requires i <= |s| && PhoneAt(s, i).Some?
    ensures PhoneAt(s, i).value.digits == DigitsOf(s[i..PhoneAt(s, i).value.end])
  {
    var j := SkipSeparator(s, i + 2);
    var k := SkipSeparator(s, j + 5);
    DigitsOfGroups(s, i, j, k);
  }

  lemma DigitsOfGroups(s: string, i: nat, j: nat, k: nat)
    requires DigitsAt(s, i, 2) && DigitsAt(s, j, 5) && DigitsAt(s, k, 4)
    requires j == i + 2 || (j == i + 3 && IsSeparator(s[i + 2]))
    requires k == j + 5 || (k == j + 6 && IsSeparator(s[j + 5]))
    ensures DigitsOf(s[i..k + 4]) == s[i..i + 2] + s[j..j + 5] + s[k..k + 4]
  {
    SliceConcat(s, i + 2, j, j + 5);
    SliceConcat(s, j + 5, k, k + 4);
    SliceConcat(s, i + 2, j + 5, k + 4);
    SliceConcat(s, i, i + 2, k + 4);
    assert s[i + 2..j] == [] || s[i + 2..j] == [s[i + 2]];
    assert s[j + 5..k] == [] || s[j + 5..k] == [s[j + 5]];
    DigitsOfPieces(s[i..i + 2], s[i + 2..j], s[j..j + 5], s[j + 5..k], s[k..k + 4]);
  }

  /** Dropping the separators from two digits, a separator, five digits, a separator and four
      digits. */
  lemma DigitsOfPieces(g1: string, s1: string, g2: string, s2: string, g3: string)
    requires AllDigits(g1) && AllDigits(g2) && AllDigits(g3)
    requires |s1| <= 1 && (s1 != [] ==> IsSeparator(s1[0]))
    requires |s2| <= 1 && (s2 != [] ==> IsSeparator(s2[0]))
    ensures DigitsOf(g1 + ((s1 + g2) + (s2 + g3))) == g1 + g2 + g3
  {
    calc {
      DigitsOf(g1 + ((s1 + g2) + (s2 + g3)));
      { DigitsOfAppend(g1, (s1 + g2) + (s2 + g3)); }
      DigitsOf(g1) + DigitsOf((s1 + g2) + (s2 + g3));
      { DigitsOfAllDigits(g1); DigitsOfAppend(s1 + g2, s2 + g3); }
      g1 + (DigitsOf(s1 + g2) + DigitsOf(s2 + g3));
      { DigitsOfSeparatorRun(s1, g2); DigitsOfSeparatorRun(s2, g3); }
      g1 + (g2 + g3);
      g1 + g2 + g3;
    }
  }

  lemma DigitsOfSeparatorRun(a: string, b: string)
    requires |a| <= 1 && (a != [] ==> IsSeparator(a[0])) && AllDigits(b)
    ensures DigitsOf(a + b) == b
  {
    DigitsOfAppend(a, b);
    DigitsOfAllDigits(b);
  }

  function PhoneMatcher(s: string): nat -> Option<PhoneMatch> {
    (i: nat) => PhoneAt(s, i)
  }

  /** `re.search` with the phone pattern: the match at the smallest index. */
  function SearchPhone(s: string): (r: Option<PhoneMatch>)
    ensures r.Some? ==> r.value.start <= |s| && PhoneAt(s, r.value.start) == r
  {
    match FirstHit(PhoneMatcher(s), 0, |s|)
    case None => None
    case Some((_, m)) => Some(m)
  }

  /** The search returns the leftmost match, and fails only when no index matches. */
  lemma SearchPhoneIsLeftmost(s: string)
    ensures SearchPhone(s).Some? ==> forall i: nat :: i < SearchPhone(s).value.start ==> PhoneAt(s, i).None?
    ensures SearchPhone(s).None? ==> forall i: nat :: i <= |s| ==> PhoneAt(s, i).None?
  {
    FirstHitIsLeftmost(PhoneMatcher(s), 0, |s|);
    FirstHitMiss(PhoneMatcher(s), 0, |s|);
    forall i: nat
      ensures PhoneMatcher(s)(i) == PhoneAt(s, i)
    {
    }
  }

  // ---------------------------------------------------------------------------
  // extrair_informacoes

  datatype CustomerInfo = CustomerInfo(nome: string, telefone: string, endereco: string)

  /** `extrair_informacoes(texto)`. A field whose stripped text is empty keeps its default "",
      which is the stripped text itself. */
  function ExtractInfo(texto: string): (r: CustomerInfo)
    ensures r.telefone == [] || (|r.telefone| == 11 && AllDigits(r.telefone))
    ensures r.telefone == [] ==> r.nome == [] && r.endereco == []
  {
    match SearchPhone(texto)
    case None => CustomerInfo("", "", "")
    case Some(m) => CustomerInfo(Strip(texto[..m.start]), m.digits, Strip(texto[m.end..]))
  }

  /** The extractor in terms of the pattern: without a phone-shaped span every field is "";
      otherwise the phone is the digits of the leftmost such span, the name the stripped text
      before it and the address the stripped text after it. */
  lemma ExtractInfoSplitsAtPhone(texto: string)
    ensures (forall i: nat, e: nat :: !PhoneSpan(texto, i, e))
              ==> ExtractInfo(texto) == CustomerInfo("", "", "")
    ensures (exists i: nat, e: nat :: PhoneSpan(texto, i, e))
              ==> exists i: nat, e: nat ::
                    && PhoneSpan(texto, i, e)
                    && (forall i': nat, e': nat :: i' < i ==> !PhoneSpan(texto, i', e'))
                    && ExtractInfo(texto) == CustomerInfo(Strip(texto[..i]), DigitsOf(texto[i..e]), Strip(texto[e..]))
  {
    var r := SearchPhone(texto);
    SearchPhoneIsLeftmost(texto);
    if r.None? {
      forall i: nat, e: nat | PhoneSpan(texto, i, e)
        ensures false
      {
        PhoneAtIsPattern(texto, i);
      }
    } else {
      var i, e := r.value.start, r.value.end;
      PhoneAtIsPattern(texto, i);
      PhoneDigitsOfSpan(texto, i);
      forall i': nat, e': nat | i' < i && PhoneSpan(texto, i', e')
        ensures false
      {
        PhoneAtIsPattern(texto, i');
      }
    }
  }

  /** Round trip: a name without digits, then a phone written in any form the pattern
      accepts, then an address, are read back as the stripped name, the 11 digits and the
      stripped address. */
  lemma ExtractComposed(nome: string, phone: string, endereco: string, x: nat, y: nat)
    requires forall c | c in nome :: !IsDigit(c)
    requires PhoneShape(phone, x, y)
    ensures ExtractInfo(nome + phone + endereco) == CustomerInfo(Strip(nome), DigitsOf(phone), Strip(endereco))
  {
    var s := nome + phone + endereco;
    var i, e := |nome|, |nome| + |phone|;
    forall q | 0 <= q < i
      ensures PhoneAt(s, q).None?
    {
      assert s[q] == nome[q] && nome[q] in nome;
    }
    SlicesOfAppend3(nome, phone, endereco);
    SpanIsPhoneAt(s, i, e, x, y);
    PhoneDigitsOfSpan(s, i);
    var r := SearchPhone(s);
    SearchPhoneIsLeftmost(s);
    assert r.Some? && r.value.start == i;
    assert r.value == PhoneMatch(i, e, DigitsOf(phone));
  }

  // ---------------------------------------------------------------------------
  // process_order

  /** A catalog entry: the product name and its price in cents. */
  datatype CatalogEntry = CatalogEntry(nome: string, preco: int)

  /** A synonym and the product name it stands for. */
  datatype Synonym = Synonym(sinonimo: string, produto: string)

  datatype OrderItem = OrderItem(produto: string, quantidade: nat, preco: int)

  /** The synonym loop: each synonym is replaced by its product name, both lower-cased, in
      dictionary order, on the text the previous replacements left. */
  function RewriteSynonyms(texto: string, synonyms: seq<Synonym>): string
    decreases |synonyms|
  {
    if synonyms == [] then texto
    else RewriteSynonyms(Replace(texto, Lower(synonyms[0].sinonimo), Lower(synonyms[0].produto)), synonyms[1..])
  }

  /** Rewriting is sequential: the later synonyms act on the output of the earlier ones. */
  lemma {:induction false} RewriteSequential(texto: string, a: seq<Synonym>, b: seq<Synonym>)
    ensures RewriteSynonyms(texto, a + b) == RewriteSynonyms(RewriteSynonyms(texto, a), b)
    decreases |a|
  {
    if a == [] {
      assert a + b == b;
    } else {
      assert (a + b)[0] == a[0];
      assert (a + b)[1..] == a[1..] + b;
      RewriteSequential(Replace(texto, Lower(a[0].sinonimo), Lower(a[0].produto)), a[1..], b);
    }
  }

  /** A synonym that does not occur in the text leaves the text unchanged. */
  lemma RewriteOneAbsent(texto: string, syn: Synonym)
    requires Lower(syn.sinonimo) != [] && !Contains(texto, Lower(syn.sinonimo))
    ensures RewriteSynonyms(texto, [syn]) == texto
  {
    ReplaceAbsent(texto, Lower(syn.sinonimo), Lower(syn.produto));
    assert RewriteSynonyms(texto, [syn]) == Replace(texto, Lower(syn.sinonimo), Lower(syn.produto));
  }

  /** A synonym that occurs in the text brings its product name into it. */
  lemma RewriteOnePresent(texto: string, syn: Synonym)
    requires Lower(syn.sinonimo) != [] && Contains(texto, Lower(syn.sinonimo))
    ensures Contains(RewriteSynonyms(texto, [syn]), Lower(syn.produto))
  {
    ReplaceIntroduces(texto, Lower(syn.sinonimo), Lower(syn.produto));
    assert RewriteSynonyms(texto, [syn]) == Replace(texto, Lower(syn.sinonimo), Lower(syn.produto));
  }

  // ---- the quantity pattern `(\d+)\s*<name>`

  /** Reference definition: at `i`, `d >= 1` digits, then `w` whitespace characters, then the
      name as literal text (the source puts the name into the pattern unescaped, which
      agrees with this reading only for a name without pattern characters). */
  predicate QuantityShape(s: string, i: nat, d: nat, w: nat, name: string) {
    1 <= d && DigitsAt(s, i, d) && SpacesAt(s, i + d, w) && StartsAt(s, i + d + w, name)
  }

  /** `w` whitespace characters start at index `j`. */
  predicate SpacesAt(s: string, j: nat, w: nat) {
    j + w <= |s| && forall k :: j <= k < j + w ==> IsSpace(s[k])
  }

  /** Some whitespace run of at most `w` characters after `j` is followed by the name (the
      greedy `\s*` tries the longest run first, and only existence matters). */
  predicate NameAfterSpaces(s: string, j: nat, w: nat, name: string)
    decreases w
  {
    StartsAt(s, j + w, name) || (w > 0 && NameAfterSpaces(s, j, w - 1, name))
  }

  lemma NameAfterSpacesIff(s: string, j: nat, w: nat, name: string)
    ensures NameAfterSpaces(s, j, w, name) <==> exists v :: j <= v <= j + w && StartsAt(s, v, name)
    decreases w
  {
    if w > 0 {
      NameAfterSpacesIff(s, j, w - 1, name);
    }
  }

  /** The digit count of the match at `i`, trying `d` digits first and then fewer (the greedy
      `\d+` backs off one digit at a time). */
  function DigitsTry(s: string, i: nat, d: nat, name: string): (r: nat)
    requires i + d <= |s|
    decreases d
    ensures r <= d
  {
    if d == 0 then 0
    else if NameAfterSpaces(s, i + d, SpaceEnd(s, i + d) - (i + d), name) then d
    else DigitsTry(s, i, d - 1, name)
  }

  /** The group `(\d+)` of the match anchored at `i`: its length, 0 when nothing matches. */
  function QuantityAt(s: string, i: nat, name: string): (d: nat)
    requires i <= |s|
  {
    DigitsTry(s, i, DigitEnd(s, i) - i, name)
  }

  /** No match of `d` digits at `i` when the name follows none of the whitespace runs. */
  lemma NoShapeWithoutName(s: string, i: nat, d: nat, name: string)
    requires i + d <= |s| && !NameAfterSpaces(s, i + d, SpaceEnd(s, i + d) - (i + d), name)
    ensures forall w: nat :: !QuantityShape(s, i, d, w, name)
  {
    var j := i + d;
    var m := SpaceEnd(s, j) - j;
    SpaceEndRun(s, j);
    NameAfterSpacesIff(s, j, m, name);
    forall w: nat | QuantityShape(s, i, d, w, name)
      ensures false
    {
    }
  }

  /** A match of `d` digits at `i` when the name follows one of the whitespace runs. */
  lemma ShapeWithName(s: string, i: nat, d: nat, name: string) returns (w: nat)
    requires 1 <= d && DigitsAt(s, i, d) && NameAfterSpaces(s, i + d, SpaceEnd(s, i + d) - (i + d), name)
    ensures QuantityShape(s, i, d, w, name)
  {
    var j := i + d;
    var m := SpaceEnd(s, j) - j;
    SpaceEndRun(s, j);
    NameAfterSpacesIff(s, j, m, name);
    var v :| j <= v <= j + m && StartsAt(s, v, name);
    w := v - j;
  }

  /** `DigitsTry` returns the longest digit count `<= d` that admits a match. */
  lemma {:induction false} DigitsTryLongest(s: string, i: nat, d: nat, name: string) returns (w: nat)
    requires DigitsAt(s, i, d)
    ensures DigitsTry(s, i, d, name) > 0 ==> QuantityShape(s, i, DigitsTry(s, i, d, name), w, name)
    ensures forall d': nat, w': nat :: DigitsTry(s, i, d, name) < d' <= d ==> !QuantityShape(s, i, d', w', name)
    decreases d
  {
    w := 0;
    if d > 0 {
      if NameAfterSpaces(s, i + d, SpaceEnd(s, i + d) - (i + d), name) {
        w := DigitsTryHit(s, i, d, name);
      } else {
        w := DigitsTryLongest(s, i, d - 1, name);
        DigitsTryMiss(s, i, d, name);
      }
    }
  }

  lemma DigitsTryHit(s: string, i: nat, d: nat, name: string) returns (w: nat)
    requires 0 < d && DigitsAt(s, i, d)
    requires NameAfterSpaces(s, i + d, SpaceEnd(s, i + d) - (i + d), name)
    ensures DigitsTry(s, i, d, name) == d && QuantityShape(s, i, d, w, name)
  {
    w := ShapeWithName(s, i, d, name);
  }

  lemma DigitsTryMiss(s: string, i: nat, d: nat, name: string)
    requires 0 < d && i + d <= |s|
    requires !NameAfterSpaces(s, i + d, SpaceEnd(s, i + d) - (i + d), name)
    requires forall d': nat, w': nat :: DigitsTry(s, i, d - 1, name) < d' <= d - 1 ==> !QuantityShape(s, i, d', w', name)
    ensures DigitsTry(s, i, d, name) == DigitsTry(s, i, d - 1, name)
    ensures forall d': nat, w': nat :: DigitsTry(s, i, d, name) < d' <= d ==> !QuantityShape(s, i, d', w', name)
  {
    NoShapeWithoutName(s, i, d, name);
  }

  /** The scanner agrees with the pattern at `i`: a positive result is the longest digit run
      that starts a match, and 0 means no match starts at `i`. */
  lemma QuantityAtIsLongest(s: string, i: nat, name: string) returns (w: nat)
    requires i <= |s|
    ensures QuantityAt(s, i, name) > 0 ==> QuantityShape(s, i, QuantityAt(s, i, name), w, name)
    ensures forall d: nat, w': nat :: QuantityAt(s, i, name) < d ==> !QuantityShape(s, i, d, w', name)
  {
    w := DigitsTryLongest(s, i, DigitEnd(s, i) - i, name);
    forall d: nat, w': nat | QuantityShape(s, i, d, w', name)
      ensures d <= DigitEnd(s, i) - i
    {
    }
  }

  /** `re.search(rf'(\d+)\s*{name}', s)` with the name read literally: the leftmost start
      from `from` on, with its group length. */
  function SearchQuantity(s: string, name: string, from: nat): (r: Option<(nat, nat)>)
    requires from <= |s|
    decreases |s| - from
    ensures r.Some? ==> from <= r.value.0 && r.value.0 + r.value.1 <= |s|
    ensures r.Some? ==> r.value.1 == QuantityAt(s, r.value.0, name) > 0
    ensures r.Some? ==> forall i :: from <= i < r.value.0 ==> QuantityAt(s, i, name) == 0
    ensures r.None? ==> forall i :: from <= i <= |s| ==> QuantityAt(s, i, name) == 0
  {
    var d := QuantityAt(s, from, name);
    if d > 0 then
      assert DigitEnd(s, from) <= |s|;
      Some((from, d))
    else if from == |s| then None
    else SearchQuantity(s, name, from + 1)
  }

  /** The quantity of one product: `int(group(1))` of the leftmost match, else 1. */
  function QuantityFor(s: string, name: string): nat {
    match SearchQuantity(s, name, 0)
    case None => 1
    case Some((i, d)) =>
      assert forall k :: i <= k < i + d ==> IsDigit(s[k]) by { DigitsTryDigits(s, i, name); }
      DigitsValue(s[i..i + d])
  }

  lemma DigitsTryDigits(s: string, i: nat, name: string)
    requires i <= |s|
    ensures forall k :: i <= k < i + QuantityAt(s, i, name) ==> IsDigit(s[k])
  {
  }

  /** `s[i..i + d]` followed by `w` whitespace characters and the name is a match, no match
      starts further left, and no longer digit run at `i` is followed by the name. */
  ghost predicate LeftmostLongest(s: string, i: nat, d: nat, w: nat, name: string) {
    && QuantityShape(s, i, d, w, name)
    && (forall i': nat, d': nat, w': nat :: i' < i ==> !QuantityShape(s, i', d', w', name))
    && (forall d': nat, w': nat :: d < d' ==> !QuantityShape(s, i, d', w', name))
  }

  /** The quantity in terms of the pattern: 1 when no digit run is followed (after optional
      whitespace) by the name; otherwise the value of the longest such digit run at the
      leftmost position where one starts. */
  lemma QuantityForIsLeftmostLongest(s: string, name: string)
    ensures (forall i: nat, d: nat, w: nat :: !QuantityShape(s, i, d, w, name)) ==> QuantityFor(s, name) == 1
    ensures (exists i: nat, d: nat, w: nat :: QuantityShape(s, i, d, w, name)) ==>
              exists i: nat, d: nat, w: nat ::
                LeftmostLongest(s, i, d, w, name) && QuantityFor(s, name) == DigitsValue(s[i..i + d])
  {
    var r := SearchQuantity(s, name, 0);
    if r.None? {
      SearchQuantityNone(s, name);
    } else {
      var i, d, w := QuantityForMatch(s, name);
    }
  }

  lemma QuantityForMatch(s: string, name: string) returns (i: nat, d: nat, w: nat)
    requires SearchQuantity(s, name, 0).Some?
    ensures LeftmostLongest(s, i, d, w, name) && QuantityFor(s, name) == DigitsValue(s[i..i + d])
  {
    i, d := SearchQuantity(s, name, 0).value.0, SearchQuantity(s, name, 0).value.1;
    w := SearchQuantitySome(s, name);
  }

  lemma SearchQuantityNone(s: string, name: string)
    requires SearchQuantity(s, name, 0).None?
    ensures forall i: nat, d: nat, w: nat :: !QuantityShape(s, i, d, w, name)
  {
    forall i: nat, d: nat, w: nat | QuantityShape(s, i, d, w, name)
      ensures false
    {
      var _ := QuantityAtIsLongest(s, i, name);
    }
  }

  lemma SearchQuantitySome(s: string, name: string) returns (w: nat)
    requires SearchQuantity(s, name, 0).Some?
    ensures var (i, d) := SearchQuantity(s, name, 0).value; LeftmostLongest(s, i, d, w, name)
  {
    var (i, d) := SearchQuantity(s, name, 0).value;
    w := QuantityAtIsLongest(s, i, name);
    forall i': nat, d': nat, w': nat | i' < i && QuantityShape(s, i', d', w', name)
      ensures false
    {
      var _ := QuantityAtIsLongest(s, i', name);
    }
  }

  /** A text in which no digit precedes the name orders one unit. */
  lemma QuantityWithoutDigitsIsOne(s: string, name: string)
    requires forall c | c in s :: !IsDigit(c)
    ensures QuantityFor(s, name) == 1
  {
    forall i: nat, d: nat | 1 <= d
      ensures !DigitsAt(s, i, d)
    {
      if i < |s| {
        assert s[i] in s;
      }
    }
    QuantityForIsLeftmostLongest(s, name);
  }

  // ---- the product loop

  /** Reference definition: the catalog entries whose lower-cased name occurs in `s`. */
  function Matched(s: string, products: seq<CatalogEntry>): (r: seq<CatalogEntry>)
    ensures IsSubsequence(r, products)
    ensures forall p :: p in r <==> p in products && Contains(s, Lower(p.nome))
  {
    if products == [] then []
    else
      var rest := Matched(s, products[1..]);
      assert forall p :: p in products <==> p == products[0] || p in products[1..];
      if Contains(s, Lower(products[0].nome)) then
        assert ([products[0]] + rest)[1..] == rest;
        [products[0]] + rest
      else
        assert rest == [] || rest[0] != products[0];
        rest
  }

  function ItemOf(s: string, p: CatalogEntry): OrderItem {
    OrderItem(Lower(p.nome), QuantityFor(s, Lower(p.nome)), p.preco)
  }

  /** The loop over `products.items()` on the rewritten text `s`. */
  function ItemsFrom(s: string, products: seq<CatalogEntry>): seq<OrderItem> {
    if products == [] then []
    else
      var rest := ItemsFrom(s, products[1..]);
      if Contains(s, Lower(products[0].nome)) then [ItemOf(s, products[0])] + rest else rest
  }

  /** The loop emits one item per matched entry, in catalog order. */
  lemma {:induction false} ItemsFromMatched(s: string, products: seq<CatalogEntry>)
    ensures |ItemsFrom(s, products)| == |Matched(s, products)|
    ensures forall k :: 0 <= k < |ItemsFrom(s, products)| ==> ItemsFrom(s, products)[k] == ItemOf(s, Matched(s, products)[k])
  {
    if products != [] {
      ItemsFromMatched(s, products[1..]);
    }
  }

  /** The text the products are looked up in. */
  function Rewritten(texto: string, synonyms: seq<Synonym>): string {
    RewriteSynonyms(Lower(texto), synonyms)
  }

  /** `process_order(texto, products, synonyms)`: None when no product is found. */
  function ProcessOrder(texto: string, products: seq<CatalogEntry>, synonyms: seq<Synonym>): (r: Option<seq<OrderItem>>)
    ensures r.None? <==> forall p :: p in products ==> !Contains(Rewritten(texto, synonyms), Lower(p.nome))
    ensures r.Some? ==>
              var s, m := Rewritten(texto, synonyms), Matched(Rewritten(texto, synonyms), products);
              && |r.value| == |m| > 0
              && forall k :: 0 <= k < |m| ==>
                   && r.value[k].produto == Lower(m[k].nome)
                   && r.value[k].quantidade == QuantityFor(s, Lower(m[k].nome))
                   && r.value[k].preco == m[k].preco
  {
    var s := Rewritten(texto, synonyms);
    var items := ItemsFrom(s, products);
    ItemsFromMatched(s, products);
    assert Matched(s, products) != [] ==> Matched(s, products)[0] in Matched(s, products);
    if items == [] then None else Some(items)
  }
}

=== FILE: pedidos.dfy ===
/** The conversation routes of controllers/pedidos.py (the streaming variant) and of
    src/api/controllers/pedidos.py (the JSON variant) over the `pedido_estado` table.

    Each route is a function from the table before to the table after and the reply. What the
    route gets from outside is a parameter: the transcription of the recorded audio, what
    `extrair_informacoes` and `process_order` make of it, the row `fetchone()` returns, the
    id SQLite assigns to an inserted row and the `uuid4` of a new chat. The wired versions at
    the end compose the routes with `OrderProcessor.ExtractInfo` and `OrderProcessor.ProcessOrder`. */
module Pedidos {
  import opened Wrappers
  import opened Text
  import opened OrderProcessor
  import opened Sessions
  import opened Formatters

  // ---------------------------------------------------------------------------
  // Replies

  /** The JSON a route answers with. `Silent` is a route that ends without answering: the
      stream closes with nothing yielded, or the view returns None. */
  datatype Reply =
    | Say(text: string)
    | Fail(text: string)
    | Items(text: string, itens: seq<OrderItem>, total: Option<int>)
    | Started(chatId: string, text: string)
    | StartedWith(chatId: string, text: string, nome: string, telefone: string)
    | Silent

  const NotUnderstood := "Desculpe, não consegui entender. Pode repetir por favor?"
  const AskPhone := "Por favor, informe seu número de telefone para começarmos."
  const WelcomeName := "Bem-vindo ao OrderByVoice! Qual é o seu nome?"
  const AskName := "Por favor, diga seu nome para continuar."
  const AskAddress := "Agora, informe seu endereço completo."
  const AddressAgain := "Desculpe, não consegui entender seu endereço. Pode repetir?"
  const AddressOk := "Endereço confirmado! Agora, qual é o seu pedido?"
  const ItemsAgain := "Não consegui identificar os itens do seu pedido. Pode repetir, por favor?"
  const ItemsAdded := "Adicionei os itens ao seu pedido. Deseja confirmar ou adicionar algo mais?"
  const Confirmed := "Pedido confirmado com sucesso! Obrigado por usar nossos serviços."
  const ConfirmOrAdd := "Você deseja confirmar o pedido ou adicionar mais itens?"
  const NoSession := "Desculpe, não encontrei uma conversa ativa com este ID."
  const WelcomeNew := "Bem-vindo ao OrderByVoice! Por favor, informe seu nome e número de telefone."
  const AudioFailed := "Não foi possível entender o áudio."
  const NoPhone := "Número de telefone não fornecido."

  /** `f"Obrigado, {nome}. Agora, informe seu endereço completo."` */
  function Thanks(nome: string): string {
    "Obrigado, " + nome + ". " + AskAddress
  }

  /** `f"{item['quantidade']} {item['produto']}"` for each item. */
  function ItemTexts(itens: seq<OrderItem>): (r: seq<string>)
    ensures |r| == |itens|
    ensures forall k :: 0 <= k < |r| ==> r[k] == NatToString(itens[k].quantidade) + " " + itens[k].produto
  {
    seq(|itens|, k requires 0 <= k < |itens| => NatToString(itens[k].quantidade) + " " + itens[k].produto)
  }

  /** The confirmation message of the streaming variant, with the total written `:.2f`. */
  function Summary(itens: seq<OrderItem>): string {
    "Confirmando seu pedido: " + Join(", ", ItemTexts(itens)) + ". Total: R$ " + FixedTwo(Total(itens))
      + ". Deseja confirmar ou fazer alterações?"
  }

  // ---------------------------------------------------------------------------
  // One turn on a found session

  /** Which route runs the turn: `conversa_interativa` of controllers/pedidos.py (`Streamed`),
      its `continuar_conversa` (`ByChat`), or `conversa_interativa` of
      src/api/controllers/pedidos.py (`Api`). */
  datatype Route = Streamed | ByChat | Api

  /** Python's `not pedido_processado`: no result, or an empty list. */
  predicate NoItems(parsed: Option<seq<OrderItem>>) {
    parsed.None? || parsed.value == []
  }

  /** The branch on the status of the session the lookup found: the session afterwards and
      the reply. Only `em_progresso` differs between the variants, and `continuar_conversa` has
      no branch for "iniciado". */
  function Step(s: Session, transcription: string, info: CustomerInfo, parsed: Option<seq<OrderItem>>, route: Route): (r: (Session, Reply))
    ensures StepsOnce(s, r.0)
    ensures r.0.chatId == s.chatId && r.0.telefone == s.telefone
    ensures Consistent(s) && s.telefone.Some? ==> Consistent(r.0)
    ensures !Active(s) ==> r == (s, Silent)
    ensures s.status == Iniciado ==>
              (r.0 != s <==> route != ByChat && info.nome != "") &&
              (r.0 != s ==> r.0 == WithName(s, info.nome) && r.1 == Say(Thanks(info.nome)))
    ensures s.status == AguardandoEndereco ==>
              (r.0 != s <==> info.endereco != "") &&
              (r.0 != s ==> r.0 == WithAddress(s, info.endereco))
    ensures s.status == AguardandoConfirmacao ==>
              (r.0 != s <==> Contains(Lower(transcription), "confirmar")) &&
              (r.0 != s ==> r.0 == Finalized(s))
    ensures s.status == EmProgresso ==>
              (r.0 != s <==> !NoItems(parsed)) &&
              (r.0 != s ==> r.0 == WithItems(s, parsed.value) && r.1.Items? && r.1.itens == parsed.value) &&
              (r.0 != s && route != Api ==> r.1.total == Some(Total(parsed.value)))
  {
    if s.status == Iniciado then
      if route == ByChat then (s, Silent)
      else if info.nome == "" then (s, Say(AskName))
      else (WithName(s, info.nome), Say(Thanks(info.nome)))
    else if s.status == AguardandoEndereco then
      if info.endereco == "" then (s, Say(AddressAgain))
      else (WithAddress(s, info.endereco), Say(AddressOk))
    else if s.status == EmProgresso then
      if NoItems(parsed) then (s, Say(ItemsAgain))
      else
        var itens := parsed.value;
        (WithItems(s, itens),
         if route == Api then Items(ItemsAdded, itens, None) else Items(Summary(itens), itens, Some(Total(itens))))
    else if s.status == AguardandoConfirmacao then
      if Contains(Lower(transcription), "confirmar") then (Finalized(s), Say(Confirmed))
      else (s, Say(ConfirmOrAdd))
    else (s, Silent)
  }

  /** The row `INSERT INTO pedido_estado (cliente_telefone, status) VALUES (?, 'iniciado')`
      creates. */
  function Opened(telefone: string): Session {
    Session(None, Some(telefone), None, None, Iniciado, None)
  }

  /** The row `INSERT INTO pedido_estado (chat_id, status, ...) VALUES (?, 'iniciado', ...)`
      creates. */
  function OpenedChat(chatId: string): Session {
    Session(Some(chatId), None, None, None, Iniciado, None)
  }

  // ---------------------------------------------------------------------------
  // conversa_interativa

  /** `conversa_interativa` of controllers/pedidos.py when `streamed`, of
      src/api/controllers/pedidos.py otherwise. Only the streaming variant checks for an empty
      transcription. `pick` is the row the phone lookup returns. */
  function ConversaInterativa(store: Store, streamed: bool, transcription: string, info: CustomerInfo,
                              parsed: Option<seq<OrderItem>>, pick: Option<int>, newId: int): (r: (Store, Reply))
    requires info.telefone != "" ==> PhoneLookup(store, info.telefone, pick)
    requires newId !in store
    ensures streamed && transcription == "" ==> r == (store, Say(NotUnderstood))
    ensures !(streamed && transcription == "") && info.telefone == "" ==> r == (store, Say(AskPhone))
    ensures !(streamed && transcription == "") && info.telefone != "" && pick.None? ==>
              r == (store[newId := Opened(info.telefone)], Say(WelcomeName))
    ensures !(streamed && transcription == "") && info.telefone != "" && pick.Some? ==>
              var id := pick.value;
              id in store &&
              r == (store[id := Step(store[id], transcription, info, parsed, if streamed then Streamed else Api).0],
                    Step(store[id], transcription, info, parsed, if streamed then Streamed else Api).1)
  {
    if streamed && transcription == "" then (store, Say(NotUnderstood))
    else if info.telefone == "" then (store, Say(AskPhone))
    else match pick
      case None => (store[newId := Opened(info.telefone)], Say(WelcomeName))
      case Some(id) =>
        var (s, reply) := Step(store[id], transcription, info, parsed, if streamed then Streamed else Api);
        (store[id := s], reply)
  }

  /** What a turn does to the table: at most one new row, at `newId`, in "iniciado" and with
      the phone; every existing session stays or moves one status forward; only the session
      the lookup found can change, and only while it is active; the sessions stay
      consistent. */
  lemma ConversaInterativaEffect(store: Store, streamed: bool, transcription: string, info: CustomerInfo,
                                 parsed: Option<seq<OrderItem>>, pick: Option<int>, newId: int)
    requires info.telefone != "" ==> PhoneLookup(store, info.telefone, pick)
    requires newId !in store
    ensures var r := ConversaInterativa(store, streamed, transcription, info, parsed, pick, newId);
            && store.Keys <= r.0.Keys <= store.Keys + {newId}
            && (newId in r.0 ==> r.0[newId] == Opened(info.telefone))
            && (forall id | id in store :: StepsOnce(store[id], r.0[id]))
            && (forall id | id in store && pick != Some(id) :: r.0[id] == store[id])
            && (forall id | id in store && !Active(store[id]) :: r.0[id] == store[id])
            && (ConsistentStore(store) ==> ConsistentStore(r.0))
  {
    var r := ConversaInterativa(store, streamed, transcription, info, parsed, pick, newId);
    if !(streamed && transcription == "") && info.telefone != "" {
      if pick.Some? {
        var id := pick.value;
        var route := if streamed then Streamed else Api;
        assert r.0 == store[id := Step(store[id], transcription, info, parsed, route).0];
        assert store[id].telefone.Some?;
      } else {
        assert Consistent(Opened(info.telefone));
      }
    }
  }

  // ---------------------------------------------------------------------------
  // continuar_conversa

  /** `continuar_conversa(chat_id)` of controllers/pedidos.py: `pick` is the row the chat-id
      lookup returns; the lookup comes before the audio. */
  function ContinuarConversa(store: Store, chatId: string, transcription: string, info: CustomerInfo,
                             parsed: Option<seq<OrderItem>>, pick: Option<int>): (r: (Store, Reply))
    requires ChatLookup(store, chatId, pick)
    ensures pick.None? ==> r == (store, Fail(NoSession))
    ensures pick.Some? && transcription == "" ==> r == (store, Say(NotUnderstood))
    ensures pick.Some? && transcription != "" ==>
              var id := pick.value;
              id in store &&
              r == (store[id := Step(store[id], transcription, info, parsed, ByChat).0],
                    Step(store[id], transcription, info, parsed, ByChat).1)
    ensures pick.Some? && store[pick.value].status == Iniciado ==> r.0 == store && r.1 != Say(AskName)
  {
    match pick
    case None => (store, Fail(NoSession))
    case Some(id) =>
      if transcription == "" then (store, Say(NotUnderstood))
      else
        var (s, reply) := Step(store[id], transcription, info, parsed, ByChat);
        (store[id := s], reply)
  }

  /** A turn by chat id adds no row, moves only the session with that chat id, by at most one
      status, and never out of "iniciado". */
  lemma ContinuarConversaEffect(store: Store, chatId: string, transcription: string, info: CustomerInfo,
                                parsed: Option<seq<OrderItem>>, pick: Option<int>)
    requires ChatLookup(store, chatId, pick)
    ensures var r := ContinuarConversa(store, chatId, transcription, info, parsed, pick);
            && r.0.Keys == store.Keys
            && (forall id | id in store :: StepsOnce(store[id], r.0[id]))
            && (forall id | id in store && r.0[id] != store[id] ::
                  store[id].chatId == Some(chatId) && store[id].status != Iniciado)
            && (ConsistentStore(store) ==> ConsistentStore(r.0))
  {
    var r := ContinuarConversa(store, chatId, transcription, info, parsed, pick);
    if pick.Some? && transcription != "" {
      var id := pick.value;
      assert r.0 == store[id := Step(store[id], transcription, info, parsed, ByChat).0];
      if store[id].status == Iniciado {
        assert r.0 == store;
      }
    }
  }

  // ---------------------------------------------------------------------------
  // iniciar_conversa

  /** The transcription `iniciar_conversa` goes on with: the first one, or the one recorded
      after asking again when the first is empty. */
  function Heard(first: string, second: string): (r: string)
    ensures r == "" <==> first == "" && second == ""
  {
    if first != "" then first else second
  }

  /** `UPDATE pedido_estado SET cliente_telefone = ?, cliente_nome = ?, status =
      'aguardando_endereco' WHERE chat_id = ?`. */
  function IdentifyChat(store: Store, chatId: string, telefone: string, nome: string): (r: Store)
    ensures r.Keys == store.Keys
    ensures forall id | id in store ::
              r[id] == if store[id].chatId == Some(chatId)
                       then store[id].(telefone := Some(telefone), nome := Some(nome), status := AguardandoEndereco)
                       else store[id]
  {
    map id | id in store ::
      if store[id].chatId == Some(chatId)
      then store[id].(telefone := Some(telefone), nome := Some(nome), status := AguardandoEndereco)
      else store[id]
  }

  /** `iniciar_conversa` of controllers/pedidos.py: the new row is committed before the audio,
      so it stays in "iniciado" when the route fails; `heard` is `Heard` of the two
      transcriptions and `info` what `extrair_informacoes` makes of it. */
  function IniciarConversa(store: Store, chatId: string, newId: int, heard: string, info: CustomerInfo): (r: (Store, Reply))
    requires newId !in store
    ensures heard == "" ==> r == (store[newId := OpenedChat(chatId)], Fail(AudioFailed))
    ensures heard != "" && info.telefone == "" ==> r == (store[newId := OpenedChat(chatId)], Fail(NoPhone))
    ensures heard != "" && info.telefone != "" ==>
              r.1 == StartedWith(chatId, if info.nome != "" then Thanks(info.nome) else AskAddress,
                                 info.nome, info.telefone)
  {
    var inserted := store[newId := OpenedChat(chatId)];
    if heard == "" then (inserted, Fail(AudioFailed))
    else if info.telefone == "" then (inserted, Fail(NoPhone))
    else
      var text := if info.nome != "" then Thanks(info.nome) else AskAddress;
      (IdentifyChat(inserted, chatId, info.telefone, info.nome), StartedWith(chatId, text, info.nome, info.telefone))
  }

  /** With a chat id no row carries yet (a fresh `uuid4`), the route adds exactly the row
      `newId` and changes no other; that row is identified and awaits the address exactly
      when the route succeeds. Consistency holds whatever the chat id. */
  lemma IniciarConversaEffect(store: Store, chatId: string, newId: int, heard: string, info: CustomerInfo)
    requires newId !in store
    ensures var r := IniciarConversa(store, chatId, newId, heard, info);
            && r.0.Keys == store.Keys + {newId}
            && (ConsistentStore(store) ==> ConsistentStore(r.0))
            && ((forall id | id in store :: store[id].chatId != Some(chatId)) ==>
                  && (forall id | id in store :: r.0[id] == store[id])
                  && r.0[newId] == (if r.1.StartedWith?
                                    then Session(Some(chatId), Some(info.telefone), Some(info.nome), None, AguardandoEndereco, None)
                                    else OpenedChat(chatId)))
  {
    var r := IniciarConversa(store, chatId, newId, heard, info);
    var inserted := store[newId := OpenedChat(chatId)];
    assert Consistent(OpenedChat(chatId));
    if heard != "" && info.telefone != "" {
      assert r.0 == IdentifyChat(inserted, chatId, info.telefone, info.nome);
      if ConsistentStore(store) {
        forall id | id in r.0
          ensures Consistent(r.0[id])
        {
          assert id in inserted;
        }
      }
    }
  }

  /** `iniciar_conversa` of src/api/controllers/pedidos.py: the row is inserted and the chat id
      returned. */
  function IniciarConversaApi(store: Store, chatId: string, newId: int): (r: (Store, Reply))
    requires newId !in store
    ensures r.0.Keys == store.Keys + {newId}
    ensures forall id | id in store :: r.0[id] == store[id]
    ensures r.0[newId].chatId == Some(chatId) && r.0[newId].status == Iniciado
    ensures ConsistentStore(store) ==> ConsistentStore(r.0)
    ensures r.1 == Started(chatId, WelcomeNew)
  {
    assert Consistent(OpenedChat(chatId));
    (store[newId := OpenedChat(chatId)], Started(chatId, WelcomeNew))
  }

  // ---------------------------------------------------------------------------
  // The routes wired to the order service

  /** `conversa_interativa` with `extrair_informacoes` and `process_order` of
      services/order_processor.py applied to the transcription. */
  function ConversaInterativaWired(store: Store, streamed: bool, transcription: string,
                                   products: seq<CatalogEntry>, synonyms: seq<Synonym>,
                                   pick: Option<int>, newId: int): (r: (Store, Reply))
    requires ExtractInfo(transcription).telefone != "" ==> PhoneLookup(store, ExtractInfo(transcription).telefone, pick)
    requires newId !in store
  {
    ConversaInterativa(store, streamed, transcription, ExtractInfo(transcription),
                       ProcessOrder(transcription, products, synonyms), pick, newId)
  }

  /** An utterance without a phone number never reaches the table; an order that names no
      catalog product leaves a session in "em_progresso" where it is; a recognised order
      stores exactly the items `process_order` found. */
  lemma ConversaInterativaWiredReplies(store: Store, streamed: bool, transcription: string,
                                       products: seq<CatalogEntry>, synonyms: seq<Synonym>,
                                       pick: Option<int>, newId: int)
    requires ExtractInfo(transcription).telefone != "" ==> PhoneLookup(store, ExtractInfo(transcription).telefone, pick)
    requires newId !in store
    ensures var r := ConversaInterativaWired(store, streamed, transcription, products, synonyms, pick, newId);
            && (SearchPhone(transcription).None? ==> r.0 == store)
            && (pick.Some? && ExtractInfo(transcription).telefone != "" && store[pick.value].status == EmProgresso ==>
                  (r.0 == store <==> ProcessOrder(transcription, products, synonyms).None?) &&
                  (r.0 != store ==> r.0[pick.value].itens == ProcessOrder(transcription, products, synonyms)))
  {
    var info := ExtractInfo(transcription);
    var parsed := ProcessOrder(transcription, products, synonyms);
    var r := ConversaInterativaWired(store, streamed, transcription, products, synonyms, pick, newId);
    if pick.Some? && info.telefone != "" && store[pick.value].status == EmProgresso && !(streamed && transcription == "") {
      var id := pick.value;
      var route := if streamed then Streamed else Api;
      var s := Step(store[id], transcription, info, parsed, route);
      assert r.0 == store[id := s.0];
      assert r.0 == store <==> s.0 == store[id] by {
        if r.0 == store {
          assert r.0[id] == store[id];
        }
      }
    }
  }

  /** `iniciar_conversa` of controllers/pedidos.py with the two transcriptions and
      `extrair_informacoes`. */
  function IniciarConversaWired(store: Store, chatId: string, newId: int, first: string, second: string): (r: (Store, Reply))
    requires newId !in store
    ensures first == "" && second == "" ==> r.1 == Fail(AudioFailed)
    ensures SearchPhone(Heard(first, second)).None? ==> r.1.Fail?
    ensures r.1.StartedWith? ==> |r.1.telefone| == 11 && AllDigits(r.1.telefone)
  {
    var heard := Heard(first, second);
    IniciarConversa(store, chatId, newId, heard, ExtractInfo(heard))
  }
}

=== FILE: records.dfy ===
/** The records of models/pedido.py and models/cliente.py with their dictionary encodings.

    A dictionary is a map from key to `Value`. A `datetime` is an integer; the text that
    `isoformat()` writes for it is the value `VStampText`, and each call of `datetime.now()`
    is a parameter of its own. `from_dict` keeps whatever non-empty value it finds under a
    timestamp key, so a record read back from a dictionary holds that text, not a
    `datetime`, and its `to_dict` fails. The `itens` column holds `json.dumps` of the item
    list; it is represented by the list it encodes (`VJson`), so
    `json.loads(json.dumps(x)) == x` is taken as given. */
module Records {
  import opened Wrappers

  /** A JSON value, as the order items are stored. */
  datatype Json =
    | JNull
    | JBool(b: bool)
    | JInt(i: int)
    | JStr(s: string)
    | JList(elems: seq<Json>)
    | JObject(fields: map<string, Json>)

  /** A value of a record dictionary. */
  datatype Value =
    | VNone
    | VInt(i: int)
    | VStr(s: string)
    | VList(items: seq<Json>)
    | VJson(items: seq<Json>)
    | VStampText(t: int)  // the text of the datetime `t`, as `isoformat()` or SQLite writes it

  type Dict = map<string, Value>

  /** Python's truth value of a dictionary value; a JSON text is never empty. */
  predicate Truthy(v: Value) {
    match v
    case VNone => false
    case VInt(i) => i != 0
    case VStr(s) => s != ""
    case VList(items) => items != []
    case VJson(_) => true
    case VStampText(_) => true
  }

  /** A timestamp attribute: a `datetime`, or the non-empty value `from_dict` found under
      the key, kept as it was. */
  datatype Stamp = DateTime(t: int) | Kept(v: Value)

  // ---------------------------------------------------------------------------
  // Reading keys with `data.get`

  /** `data.get(k)` for an optional integer: missing and None give None. */
  function GetOptInt(d: Dict, k: string): (r: Result<Option<int>>)
    ensures k !in d ==> r == Success(None)
  {
    if k !in d then Success(None)
    else match d[k]
      case VNone => Success(None)
      case VInt(i) => Success(Some(i))
      case _ => Failure(k + " is not an integer")
  }

  /** `data.get(k)` for an optional string. */
  function GetOptStr(d: Dict, k: string): (r: Result<Option<string>>)
    ensures k !in d ==> r == Success(None)
  {
    if k !in d then Success(None)
    else match d[k]
      case VNone => Success(None)
      case VStr(s) => Success(Some(s))
      case _ => Failure(k + " is not a string")
  }

  /** `data.get(k, default)` for a string that may be None: a stored None is kept. */
  function GetStrOrNone(d: Dict, k: string, default: string): (r: Result<Option<string>>)
    ensures k !in d ==> r == Success(Some(default))
    ensures k in d && d[k] == VNone ==> r == Success(None)
    ensures k in d ==> (r.Success? <==> d[k].VNone? || d[k].VStr?)
  {
    if k !in d then Success(Some(default)) else GetOptStr(d, k)
  }

  /** `data.get(k, default)` for a string. */
  function GetStr(d: Dict, k: string, default: string): (r: Result<string>)
    ensures k !in d ==> r == Success(default)
  {
    if k !in d then Success(default)
    else match d[k]
      case VStr(s) => Success(s)
      case _ => Failure(k + " is not a string")
  }

  /** `data.get(k, default)` for an amount in cents. */
  function GetInt(d: Dict, k: string, default: int): (r: Result<int>)
    ensures k !in d ==> r == Success(default)
  {
    if k !in d then Success(default)
    else match d[k]
      case VInt(i) => Success(i)
      case _ => Failure(k + " is not a number")
  }

  /** `data.get(k)` passed as a timestamp argument: None when missing or falsy, so that the
      constructor's `or datetime.now()` replaces it. */
  function GetStamp(d: Dict, k: string): (r: Option<Stamp>)
    ensures r.None? <==> k !in d || !Truthy(d[k])
    ensures r.Some? ==> r.value == Kept(d[k])
  {
    if k in d && Truthy(d[k]) then Some(Kept(d[k])) else None
  }

  /** `stamp.isoformat()`: the text of a `datetime`; any other value has no `isoformat`. */
  function IsoFormat(s: Stamp): (r: Result<Value>)
    ensures r.Success? <==> s.DateTime?
    ensures r.Success? ==> r.value == VStampText(s.t)
  {
    match s
    case DateTime(t) => Success(VStampText(t))
    case Kept(_) => Failure("object has no attribute 'isoformat'")
  }

  /** What a timestamp becomes after `to_dict` and `from_dict`: a `datetime` comes back as
      its text, and a kept value stays. */
  function AsRead(s: Stamp): Stamp {
    match s
    case DateTime(t) => Kept(VStampText(t))
    case Kept(v) => Kept(v)
  }

  /** `data.get('itens')`, json-decoded when it is a string, then `or []`. */
  function GetItens(d: Dict): (r: Result<seq<Json>>)
    ensures "itens" !in d ==> r == Success([])
    ensures "itens" in d && d["itens"].VJson? ==> r == Success(d["itens"].items)
    ensures "itens" in d && d["itens"].VList? ==> r == Success(d["itens"].items)
  {
    if "itens" !in d then Success([])
    else match d["itens"]
      case VNone => Success([])
      case VList(l) => Success(l)
      case VJson(l) => Success(l)
      case _ => Failure("itens is not a list")
  }

  function OptIntValue(o: Option<int>): Value {
    match o
    case Some(i) => VInt(i)
    case None => VNone
  }

  function OptStrValue(o: Option<string>): Value {
    match o
    case Some(s) => VStr(s)
    case None => VNone
  }

  // ---------------------------------------------------------------------------
  // PedidoEstado

  /** The conversation state of one order. */
  datatype PedidoEstado = PedidoEstado(
    id: Option<int>,
    chatId: Option<string>,
    clienteTelefone: string,
    clienteNome: string,
    clienteEndereco: string,
    status: string,
    itens: seq<Json>,
    createdAt: Stamp,
    updatedAt: Stamp)

  /** The constructor: `itens or []`, and each missing timestamp becomes its own reading of
      the clock. */
  function NewPedidoEstado(id: Option<int>, chatId: Option<string>, telefone: string, nome: string,
                           endereco: string, status: string, itens: Option<seq<Json>>,
                           createdAt: Option<Stamp>, updatedAt: Option<Stamp>,
                           nowCreated: int, nowUpdated: int): (e: PedidoEstado)
    ensures itens == None ==> e.itens == []
    ensures createdAt == None ==> e.createdAt == DateTime(nowCreated)
    ensures updatedAt == None ==> e.updatedAt == DateTime(nowUpdated)
  {
    PedidoEstado(id, chatId, telefone, nome, endereco, status, itens.GetOr([]),
                 createdAt.GetOr(DateTime(nowCreated)), updatedAt.GetOr(DateTime(nowUpdated)))
  }

  /** `PedidoEstado()` with every argument left at its default. */
  function DefaultPedidoEstado(nowCreated: int, nowUpdated: int): PedidoEstado {
    NewPedidoEstado(None, None, "", "", "", "iniciado", None, None, None, nowCreated, nowUpdated)
  }

  /** `PedidoEstado.to_dict`: `itens` becomes its JSON text, or None when empty, and each
      timestamp its `isoformat()` text; a timestamp that is not a `datetime` makes it
      fail. */
  function PedidoEstadoToDict(e: PedidoEstado): (r: Result<Dict>)
    ensures r.Success? <==> e.createdAt.DateTime? && e.updatedAt.DateTime?
    ensures r.Success? ==> r.value.Keys == {"id", "chat_id", "cliente_telefone", "cliente_nome", "cliente_endereco",
                                            "status", "itens", "created_at", "updated_at"}
    ensures r.Success? ==> (r.value["itens"] == VNone <==> e.itens == [])
    ensures r.Success? && e.itens != [] ==> r.value["itens"] == VJson(e.itens)
    ensures r.Success? ==> r.value["created_at"] == VStampText(e.createdAt.t)
    ensures r.Success? ==> r.value["updated_at"] == VStampText(e.updatedAt.t)
  {
    var createdAt :- IsoFormat(e.createdAt);
    var updatedAt :- IsoFormat(e.updatedAt);
    Success(map["id" := OptIntValue(e.id),
                "chat_id" := OptStrValue(e.chatId),
                "cliente_telefone" := VStr(e.clienteTelefone),
                "cliente_nome" := VStr(e.clienteNome),
                "cliente_endereco" := VStr(e.clienteEndereco),
                "status" := VStr(e.status),
                "itens" := if e.itens != [] then VJson(e.itens) else VNone,
                "created_at" := createdAt,
                "updated_at" := updatedAt])
  }

  /** `PedidoEstado.from_dict`: every missing key takes the constructor's default, and a
      timestamp key keeps its value unless it is missing or falsy. */
  function PedidoEstadoFromDict(d: Dict, nowCreated: int, nowUpdated: int): (r: Result<PedidoEstado>)
    ensures r.Success? ==>
              ("cliente_telefone" !in d ==> r.value.clienteTelefone == "") &&
              ("cliente_nome" !in d ==> r.value.clienteNome == "") &&
              ("cliente_endereco" !in d ==> r.value.clienteEndereco == "") &&
              ("status" !in d ==> r.value.status == "iniciado") &&
              ("itens" !in d ==> r.value.itens == []) &&
              ("id" !in d ==> r.value.id == None) &&
              ("chat_id" !in d ==> r.value.chatId == None)
    ensures r.Success? ==>
              r.value.createdAt == (if "created_at" in d && Truthy(d["created_at"]) then Kept(d["created_at"]) else DateTime(nowCreated)) &&
              r.value.updatedAt == (if "updated_at" in d && Truthy(d["updated_at"]) then Kept(d["updated_at"]) else DateTime(nowUpdated))
  {
    var id :- GetOptInt(d, "id");
    var chatId :- GetOptStr(d, "chat_id");
    var telefone :- GetStr(d, "cliente_telefone", "");
    var nome :- GetStr(d, "cliente_nome", "");
    var endereco :- GetStr(d, "cliente_endereco", "");
    var status :- GetStr(d, "status", "iniciado");
    var itens :- GetItens(d);
    Success(NewPedidoEstado(id, chatId, telefone, nome, endereco, status, Some(itens),
                            GetStamp(d, "created_at"), GetStamp(d, "updated_at"), nowCreated, nowUpdated))
  }

  /** An empty dictionary decodes to the default state. */
  lemma PedidoEstadoFromEmpty(nowCreated: int, nowUpdated: int)
    ensures PedidoEstadoFromDict(map[], nowCreated, nowUpdated) == Success(DefaultPedidoEstado(nowCreated, nowUpdated))
  {
  }

  /** `from_dict(to_dict(e))` gives back every field of `e` except the timestamps, which
      come back as the text `to_dict` wrote; `to_dict` of the result then fails. */
  lemma PedidoEstadoRoundTrip(e: PedidoEstado, nowCreated: int, nowUpdated: int)
    ensures PedidoEstadoToDict(e).Success? ==>
              var r := PedidoEstadoFromDict(PedidoEstadoToDict(e).value, nowCreated, nowUpdated);
              && r == Success(e.(createdAt := AsRead(e.createdAt), updatedAt := AsRead(e.updatedAt)))
              && PedidoEstadoToDict(r.value).Failure?
  {
    if PedidoEstadoToDict(e).Success? {
      var d := PedidoEstadoToDict(e).value;
      assert GetOptInt(d, "id") == Success(e.id);
      assert GetOptStr(d, "chat_id") == Success(e.chatId);
      assert GetItens(d) == Success(e.itens);
    }
  }

  // ---------------------------------------------------------------------------
  // Pedido

  /** A placed order; `total` in cents. */
  datatype Pedido = Pedido(
    id: Option<int>,
    clienteId: Option<int>,
    estadoId: Option<int>,
    total: int,
    status: string,
    createdAt: Stamp,
    updatedAt: Stamp)

  /** `Pedido()` with every argument left at its default. */
  function DefaultPedido(nowCreated: int, nowUpdated: int): Pedido {
    Pedido(None, None, None, 0, "pendente", DateTime(nowCreated), DateTime(nowUpdated))
  }

  /** `Pedido.to_dict`: fails on a timestamp that is not a `datetime`. */
  function PedidoToDict(p: Pedido): (r: Result<Dict>)
    ensures r.Success? <==> p.createdAt.DateTime? && p.updatedAt.DateTime?
  {
    var createdAt :- IsoFormat(p.createdAt);
    var updatedAt :- IsoFormat(p.updatedAt);
    Success(map["id" := OptIntValue(p.id),
                "cliente_id" := OptIntValue(p.clienteId),
                "estado_id" := OptIntValue(p.estadoId),
                "total" := VInt(p.total),
                "status" := VStr(p.status),
                "created_at" := createdAt,
                "updated_at" := updatedAt])
  }

  /** `Pedido.from_dict`: total defaults to 0 and status to "pendente". */
  function PedidoFromDict(d: Dict, nowCreated: int, nowUpdated: int): (r: Result<Pedido>)
    ensures r.Success? ==>
              ("total" !in d ==> r.value.total == 0) &&
              ("status" !in d ==> r.value.status == "pendente") &&
              ("id" !in d ==> r.value.id == None) &&
              ("cliente_id" !in d ==> r.value.clienteId == None) &&
              ("estado_id" !in d ==> r.value.estadoId == None)
  {
    var id :- GetOptInt(d, "id");
    var clienteId :- GetOptInt(d, "cliente_id");
    var estadoId :- GetOptInt(d, "estado_id");
    var total :- GetInt(d, "total", 0);
    var status :- GetStr(d, "status", "pendente");
    Success(Pedido(id, clienteId, estadoId, total, status,
                   GetStamp(d, "created_at").GetOr(DateTime(nowCreated)),
                   GetStamp(d, "updated_at").GetOr(DateTime(nowUpdated))))
  }

  lemma PedidoFromEmpty(nowCreated: int, nowUpdated: int)
    ensures PedidoFromDict(map[], nowCreated, nowUpdated) == Success(DefaultPedido(nowCreated, nowUpdated))
  {
  }

  /** `Pedido.from_dict(to_dict(p))` gives back every field of `p` except the timestamps,
      which come back as text; `to_dict` of the result then fails. */
  lemma PedidoRoundTrip(p: Pedido, nowCreated: int, nowUpdated: int)
    ensures PedidoToDict(p).Success? ==>
              var r := PedidoFromDict(PedidoToDict(p).value, nowCreated, nowUpdated);
              && r == Success(p.(createdAt := AsRead(p.createdAt), updatedAt := AsRead(p.updatedAt)))
              && PedidoToDict(r.value).Failure?
  {
    if PedidoToDict(p).Success? {
      var d := PedidoToDict(p).value;
      assert GetOptInt(d, "id") == Success(p.id);
      assert GetOptInt(d, "cliente_id") == Success(p.clienteId);
      assert GetOptInt(d, "estado_id") == Success(p.estadoId);
    }
  }

  // ---------------------------------------------------------------------------
  // Cliente

  datatype Cliente = Cliente(
    id: Option<int>,
    nome: string,
    telefone: string,
    endereco: Option<string>,
    createdAt: Stamp,
    updatedAt: Stamp)

  /** `Cliente()` with every argument left at its default. */
  function DefaultCliente(nowCreated: int, nowUpdated: int): Cliente {
    Cliente(None, "", "", Some(""), DateTime(nowCreated), DateTime(nowUpdated))
  }

  /** `Cliente.to_dict`: the four fields unchanged, plus the timestamps' text; fails on a
      timestamp that is not a `datetime`. */
  function ClienteToDict(c: Cliente): (r: Result<Dict>)
    ensures r.Success? <==> c.createdAt.DateTime? && c.updatedAt.DateTime?
    ensures r.Success? ==> r.value.Keys == {"id", "nome", "telefone", "endereco", "created_at", "updated_at"}
    ensures r.Success? ==> r.value["nome"] == VStr(c.nome) && r.value["telefone"] == VStr(c.telefone)
    ensures r.Success? ==> r.value["endereco"] == OptStrValue(c.endereco)
  {
    var createdAt :- IsoFormat(c.createdAt);
    var updatedAt :- IsoFormat(c.updatedAt);
    Success(map["id" := OptIntValue(c.id),
                "nome" := VStr(c.nome),
                "telefone" := VStr(c.telefone),
                "endereco" := OptStrValue(c.endereco),
                "created_at" := createdAt,
                "updated_at" := updatedAt])
  }

  /** `Cliente.from_dict`: missing text fields are "" and a missing id is None; a None
      address, as a NULL column gives, is kept as it is. */
  function ClienteFromDict(d: Dict, nowCreated: int, nowUpdated: int): (r: Result<Cliente>)
    ensures r.Success? ==>
              ("nome" !in d ==> r.value.nome == "") &&
              ("telefone" !in d ==> r.value.telefone == "") &&
              ("endereco" !in d ==> r.value.endereco == Some("")) &&
              ("endereco" in d && d["endereco"] == VNone ==> r.value.endereco == None) &&
              ("id" !in d ==> r.value.id == None)
  {
    var id :- GetOptInt(d, "id");
    var nome :- GetStr(d, "nome", "");
    var telefone :- GetStr(d, "telefone", "");
    var endereco :- GetStrOrNone(d, "endereco", "");
    Success(Cliente(id, nome, telefone, endereco,
                    GetStamp(d, "created_at").GetOr(DateTime(nowCreated)),
                    GetStamp(d, "updated_at").GetOr(DateTime(nowUpdated))))
  }

  lemma ClienteFromEmpty(nowCreated: int, nowUpdated: int)
    ensures ClienteFromDict(map[], nowCreated, nowUpdated) == Success(DefaultCliente(nowCreated, nowUpdated))
  {
  }

  /** `Cliente.from_dict(to_dict(c))` gives back every field of `c` except the timestamps,
      which come back as text; `to_dict` of the result then fails. */
  lemma ClienteRoundTrip(c: Cliente, nowCreated: int, nowUpdated: int)
    ensures ClienteToDict(c).Success? ==>
              var r := ClienteFromDict(ClienteToDict(c).value, nowCreated, nowUpdated);
              && r == Success(c.(createdAt := AsRead(c.createdAt), updatedAt := AsRead(c.updatedAt)))
              && ClienteToDict(r.value).Failure?
  {
    if ClienteToDict(c).Success? {
      assert GetOptInt(ClienteToDict(c).value, "id") == Success(c.id);
    }
  }
}

=== FILE: seqs.dfy ===
/** Generic facts about sequences, and leftmost searches over an anchored matcher. */
module Seqs {
  import opened Wrappers

  /** `a` can be obtained from `b` by deleting elements. */
  predicate IsSubsequence<T(==)>(a: seq<T>, b: seq<T>)
    decreases |b|
  {
    a == [] || (b != [] && if a[0] == b[0] then IsSubsequence(a[1..], b[1..]) else IsSubsequence(a, b[1..]))
  }

  lemma SubsequenceMembers<T>(a: seq<T>, b: seq<T>)
    requires IsSubsequence(a, b)
    ensures forall x :: x in a ==> x in b
    decreases |b|
  {
    if a != [] {
      if a[0] == b[0] {
        SubsequenceMembers(a[1..], b[1..]);
        assert forall x :: x in a ==> x == a[0] || x in a[1..];
      } else {
        SubsequenceMembers(a, b[1..]);
      }
    }
  }

  /** Python's `[y for x in xs if (y := f(x)) is not None]`: the results of `f` that are
      present, in the order of `xs`. */
  function FilterMap<A, B>(f: A -> Option<B>, xs: seq<A>): seq<B> {
    if xs == [] then []
    else (if f(xs[0]).Some? then [f(xs[0]).value] else []) + FilterMap(f, xs[1..])
  }

  lemma FilterMapOne<A, B>(f: A -> Option<B>, x: A)
    ensures FilterMap(f, [x]) == if f(x).Some? then [f(x).value] else []
  {
    assert [x][1..] == [];
  }

  lemma {:induction false} FilterMapAppend<A, B>(f: A -> Option<B>, a: seq<A>, b: seq<A>)
    ensures FilterMap(f, a + b) == FilterMap(f, a) + FilterMap(f, b)
  {
    if a == [] {
      assert a + b == b;
    } else {
      var h := if f(a[0]).Some? then [f(a[0]).value] else [];
      calc {
        FilterMap(f, a + b);
        h + FilterMap(f, (a + b)[1..]);
        { assert (a + b)[1..] == a[1..] + b; }
        h + FilterMap(f, a[1..] + b);
        { FilterMapAppend(f, a[1..], b); }
        h + (FilterMap(f, a[1..]) + FilterMap(f, b));
        FilterMap(f, a) + FilterMap(f, b);
      }
    }
  }

  /** Every result comes from an element, every present result is kept, and the outcome is
      empty exactly when no result is present. */
  lemma {:induction false} FilterMapMembers<A, B>(f: A -> Option<B>, xs: seq<A>)
    ensures forall y :: y in FilterMap(f, xs) ==> exists k :: 0 <= k < |xs| && f(xs[k]) == Some(y)
    ensures forall k :: 0 <= k < |xs| && f(xs[k]).Some? ==> f(xs[k]).value in FilterMap(f, xs)
    ensures FilterMap(f, xs) == [] <==> forall k :: 0 <= k < |xs| ==> f(xs[k]).None?
  {
    if xs != [] {
      FilterMapMembers(f, xs[1..]);
      assert forall k :: 0 < k < |xs| ==> xs[k] == xs[1..][k - 1];
      forall y | y in FilterMap(f, xs[1..])
        ensures exists k :: 0 <= k < |xs| && f(xs[k]) == Some(y)
      {
        var k :| 0 <= k < |xs[1..]| && f(xs[1..][k]) == Some(y);
        assert xs[k + 1] == xs[1..][k];
      }
    }
  }

  /** The element a kept result comes from. */
  lemma FilterMapSource<A, B>(f: A -> Option<B>, xs: seq<A>, y: B) returns (k: nat)
    requires y in FilterMap(f, xs)
    ensures k < |xs| && f(xs[k]) == Some(y)
  {
    FilterMapMembers(f, xs);
    k :| 0 <= k < |xs| && f(xs[k]) == Some(y);
  }

  // ---------------------------------------------------------------------------
  // Searching

  /** `re.search` over a matcher: the leftmost index from `from` to `last` where the matcher
      matches, with its match. */
  function FirstHit<T>(m: nat -> Option<T>, from: nat, last: nat): (r: Option<(nat, T)>)
    requires from <= last
    decreases last - from
    ensures r.Some? ==> from <= r.value.0 <= last && m(r.value.0) == Some(r.value.1)
  {
    if m(from).Some? then Some((from, m(from).value))
    else if from == last then None
    else FirstHit(m, from + 1, last)
  }

  /** The first index from `n` below `count` where `ok` holds. */
  function FirstTrue(ok: nat -> bool, n: nat, count: nat): (r: Option<nat>)
    requires n <= count
    decreases count - n
    ensures r.Some? ==> n <= r.value < count && ok(r.value)
  {
    if n == count then None
    else if ok(n) then Some(n)
    else FirstTrue(ok, n + 1, count)
  }

  /** No index before the one found holds, and none holds when nothing is found. */
  lemma {:induction false} FirstTrueIsFirst(ok: nat -> bool, n: nat, count: nat)
    requires n <= count
    decreases count - n
    ensures FirstTrue(ok, n, count).Some? ==> forall m :: n <= m < FirstTrue(ok, n, count).value ==> !ok(m)
    ensures FirstTrue(ok, n, count).None? ==> forall m :: n <= m < count ==> !ok(m)
  {
    if n < count && !ok(n) {
      FirstTrueIsFirst(ok, n + 1, count);
    }
  }

  /** No index before the one found matches. */
  lemma {:induction false} FirstHitIsLeftmost<T>(m: nat -> Option<T>, from: nat, last: nat)
    requires from <= last
    decreases last - from
    ensures FirstHit(m, from, last).Some? ==> forall j :: from <= j < FirstHit(m, from, last).value.0 ==> m(j).None?
  {
    if m(from).None? && from < last {
      FirstHitIsLeftmost(m, from + 1, last);
    }
  }

  /** The search finds an index that matches when no earlier one does. */
  lemma FirstHitAt<T>(m: nat -> Option<T>, from: nat, last: nat, i: nat)
    requires from <= i <= last && m(i).Some?
    requires forall j :: from <= j < i ==> m(j).None?
    ensures FirstHit(m, from, last) == Some((i, m(i).value))
  {
    FirstHitIsLeftmost(m, from, last);
    FirstHitMiss(m, from, last);
  }

  /** The search fails only when the matcher matches nowhere from `from` to `last`. */
  lemma {:induction false} FirstHitMiss<T>(m: nat -> Option<T>, from: nat, last: nat)
    requires from <= last
    decreases last - from
    ensures FirstHit(m, from, last).None? <==> forall j :: from <= j <= last ==> m(j).None?
  {
    if m(from).None? && from < last {
      FirstHitMiss(m, from + 1, last);
    }
  }
}

=== FILE: sessions.dfy ===
/** The `pedido_estado` table both pedidos controllers work on, held as a map from row id to
    session, with the status chain of a conversation and `atualizar_estado_pedido`. */
module Sessions {
  import opened Wrappers
  import opened Text
  import opened Records
  import opened OrderProcessor

  const Iniciado := "iniciado"
  const AguardandoEndereco := "aguardando_endereco"
  const EmProgresso := "em_progresso"
  const AguardandoConfirmacao := "aguardando_confirmacao"
  const Finalizado := "finalizado"
  const Cancelado := "cancelado"

  /** A row of `pedido_estado`; a column never written is None (NULL). */
  datatype Session = Session(
    chatId: Option<string>,
    telefone: Option<string>,
    nome: Option<string>,
    endereco: Option<string>,
    status: string,
    itens: Option<seq<OrderItem>>)

  type Store = map<int, Session>

  /** The status after `status` along iniciado, aguardando_endereco, em_progresso,
      aguardando_confirmacao, finalizado; None for the last one and any other text. */
  function Next(status: string): Option<string> {
    if status == Iniciado then Some(AguardandoEndereco)
    else if status == AguardandoEndereco then Some(EmProgresso)
    else if status == EmProgresso then Some(AguardandoConfirmacao)
    else if status == AguardandoConfirmacao then Some(Finalizado)
    else None
  }

  /** The position along the chain; any other status has none. */
  function Rank(status: string): Option<nat> {
    if status == Iniciado then Some(0)
    else if status == AguardandoEndereco then Some(1)
    else if status == EmProgresso then Some(2)
    else if status == AguardandoConfirmacao then Some(3)
    else if status == Finalizado then Some(4)
    else None
  }

  /** `Next` moves exactly one place forward and never reaches "cancelado". */
  lemma NextIsOneStep(status: string)
    ensures Next(status).Some? ==>
              Rank(status).Some? && Rank(Next(status).value) == Some(Rank(status).value + 1)
    ensures Next(status) != Some(Cancelado)
    ensures Next(status).None? <==> Rank(status) == Some(4) || Rank(status).None?
  {
  }

  /** The lookups exclude finished and cancelled sessions. */
  predicate Active(s: Session) {
    s.status != Finalizado && s.status != Cancelado
  }

  /** `after` is `before`, or `before` moved one status forward. */
  predicate StepsOnce(before: Session, after: Session) {
    after == before || (Next(before.status).Some? && after.status == Next(before.status).value)
  }

  /** What `fetchone()` may return for `... WHERE cliente_telefone = ? AND status NOT IN
      ('finalizado', 'cancelado')`: the id of some such session, or None when there is none.
      The query has no ORDER BY, so which one is left open. */
  predicate PhoneLookup(store: Store, telefone: string, pick: Option<int>) {
    match pick
    case Some(id) => id in store && store[id].telefone == Some(telefone) && Active(store[id])
    case None => forall id | id in store :: !(store[id].telefone == Some(telefone) && Active(store[id]))
  }

  /** The same for `... WHERE chat_id = ? AND status NOT IN (...)`. */
  predicate ChatLookup(store: Store, chatId: string, pick: Option<int>) {
    match pick
    case Some(id) => id in store && store[id].chatId == Some(chatId) && Active(store[id])
    case None => forall id | id in store :: !(store[id].chatId == Some(chatId) && Active(store[id]))
  }

  // ---------------------------------------------------------------------------
  // The UPDATEs of the turn logic: each writes one column and the status

  function WithName(s: Session, nome: string): Session {
    s.(nome := Some(nome), status := AguardandoEndereco)
  }

  function WithAddress(s: Session, endereco: string): Session {
    s.(endereco := Some(endereco), status := EmProgresso)
  }

  function WithItems(s: Session, itens: seq<OrderItem>): Session {
    s.(itens := Some(itens), status := AguardandoConfirmacao)
  }

  function Finalized(s: Session): Session {
    s.(status := Finalizado)
  }

  /** The session as an advancing branch of the turn leaves it. */
  ghost predicate AdvancedBy(before: Session, after: Session) {
    (before.status == Iniciado && exists nome :: after == WithName(before, nome)) ||
    (before.status == AguardandoEndereco && exists e :: after == WithAddress(before, e)) ||
    (before.status == EmProgresso && exists itens :: after == WithItems(before, itens)) ||
    (before.status == AguardandoConfirmacao && after == Finalized(before))
  }

  /** Each advancing update moves its session exactly one step. */
  lemma AdvancedStepsOnce(before: Session, after: Session)
    requires AdvancedBy(before, after)
    ensures StepsOnce(before, after) && after != before
    ensures after.status == Next(before.status).value
  {
  }

  /** What a session holds by the time it reaches its status: a phone and a name once past
      "iniciado", an address from "em_progresso" on, and a non-empty item list from
      "aguardando_confirmacao" on; and a status on the chain. */
  predicate Consistent(s: Session) {
    && Rank(s.status).Some?
    && (Rank(s.status).value >= 1 ==> s.telefone.Some? && s.nome.Some?)
    && (Rank(s.status).value >= 2 ==> s.endereco.Some?)
    && (Rank(s.status).value >= 3 ==> s.itens.Some? && s.itens.value != [])
  }

  predicate ConsistentStore(store: Store) {
    forall id | id in store :: Consistent(store[id])
  }

  // ---------------------------------------------------------------------------
  // Totals

  /** `sum(item['quantidade'] * item['preco'] for item in itens)`, in cents. */
  function Total(itens: seq<OrderItem>): int {
    if itens == [] then 0 else itens[0].quantidade * itens[0].preco + Total(itens[1..])
  }

  // ---------------------------------------------------------------------------
  // atualizar_estado_pedido

  /** `f"{key} = ?"` for each key. */
  function Assignments(keys: seq<string>): (r: seq<string>)
    ensures |r| == |keys|
  {
    if keys == [] then [] else [keys[0] + " = ?"] + Assignments(keys[1..])
  }

  /** `atualizar_estado_pedido(cursor, estado_id, **dados)`: the statement and its
      parameters, the values of `dados` in order followed by `estado_id`. */
  function AtualizarEstadoPedido(estadoId: int, dados: seq<(string, Value)>): (r: (string, seq<Value>))
    ensures |r.1| == |dados| + 1 && r.1[|dados|] == VInt(estadoId)
    ensures forall k :: 0 <= k < |dados| ==> r.1[k] == dados[k].1
  {
    var keys := seq(|dados|, k requires 0 <= k < |dados| => dados[k].0);
    var values := seq(|dados|, k requires 0 <= k < |dados| => dados[k].1);
    (UpdatePrefix + Join(", ", Assignments(keys)) + UpdateSuffix, values + [VInt(estadoId)])
  }

  /** With keys that are identifiers (no "?"), the statement has one placeholder per
      parameter. */
  lemma PlaceholdersMatchParameters(estadoId: int, dados: seq<(string, Value)>)
    requires forall k :: 0 <= k < |dados| ==> '?' !in dados[k].0
    ensures var r := AtualizarEstadoPedido(estadoId, dados);
            CountChar(r.0, '?') == |r.1|
  {
    var keys := seq(|dados|, k requires 0 <= k < |dados| => dados[k].0);
    var clause := Join(", ", Assignments(keys));
    assert AtualizarEstadoPedido(estadoId, dados).0 == UpdatePrefix + clause + UpdateWhere + "?";
    AssignmentsPlaceholders(keys);
    CountBetween(UpdatePrefix, clause, UpdateWhere, '?');
  }

  const UpdatePrefix := "UPDATE pedido_estado SET "
  const UpdateWhere := " WHERE id = "
  const UpdateSuffix := UpdateWhere + "?"

  /** Text around `middle` that holds no `c` adds only the one `c` at the end. */
  lemma CountBetween(before: string, middle: string, after: string, c: char)
    requires c !in before && c !in after
    ensures CountChar(before + middle + after + [c], c) == CountChar(middle, c) + 1
  {
    CountCharNone(before, c);
    CountCharNone(after, c);
    CountCharAppend(before + middle + after, [c], c);
    CountCharAppend(before + middle, after, c);
    CountCharAppend(before, middle, c);
  }

  lemma {:induction false} AssignmentsPlaceholders(keys: seq<string>)
    requires forall k :: 0 <= k < |keys| ==> '?' !in keys[k]
    ensures CountChar(Join(", ", Assignments(keys)), '?') == |keys|
  {
    if keys != [] {
      var head := keys[0] + " = ?";
      assert CountChar(head, '?') == 1 by {
        CountCharNone(keys[0] + " = ", '?');
        CountCharAppend(keys[0] + " = ", "?", '?');
        assert keys[0] + " = " + "?" == head;
      }
      assert forall k :: 0 <= k < |keys[1..]| ==> keys[1..][k] == keys[k + 1];
      AssignmentsPlaceholders(keys[1..]);
      var rest := Assignments(keys[1..]);
      assert Assignments(keys) == [head] + rest;
      if rest != [] {
        assert Join(", ", [head] + rest) == head + ", " + Join(", ", rest) by {
          assert ([head] + rest)[1..] == rest;
        }
        CountCharAppend(head + ", ", Join(", ", rest), '?');
        CountCharAppend(head, ", ", '?');
        CountCharNone(", ", '?');
      }
    }
  }

  lemma {:induction false} CountCharNone(s: string, c: char)
    requires c !in s
    ensures CountChar(s, c) == 0
  {
    if s != [] {
      assert forall x | x in s[1..] :: x in s;
      CountCharNone(s[1..], c);
    }
  }
}

=== FILE: synonyms.dfy ===
/** The synonym store of services/synonyms.py over the `synonyms` table of database.py.

    Each operation takes the table's rows and returns the rows after it. The model reads
    `fetch_synonyms` through `Database.FetchSynonyms`. */
module Synonyms {
  import opened Wrappers
  import opened Seqs
  import opened Text
  import opened Database

  /** `get_synonyms_for_product`: the product's synonyms in row order, or [] when none. */
  method GetSynonymsForProduct(rows: seq<LinkRow>, pid: int) returns (r: seq<string>)
    ensures r == ValuesFor(rows, pid)
    ensures pid !in ProductIds(rows) ==> r == []
  {
    var m := FetchSynonyms(rows);
    if pid in m {
      r := m[pid];
    } else {
      r := [];
      ValuesForAbsent(rows, pid);
    }
  }

  // ---------------------------------------------------------------------------
  // update_synonyms

  /** `DELETE FROM synonyms WHERE produto_id = ?`. */
  function DeleteProduct(rows: seq<LinkRow>, pid: int): (r: seq<LinkRow>)
    ensures forall x | x in r :: x in rows && x.produtoId != pid
  {
    if rows == [] then []
    else
      var last := rows[|rows| - 1];
      DeleteProduct(rows[..|rows| - 1], pid) + (if last.produtoId == pid then [] else [last])
  }

  lemma {:induction false} ValuesForDeleteProduct(rows: seq<LinkRow>, pid: int, q: int)
    ensures ValuesFor(DeleteProduct(rows, pid), q) == if q == pid then [] else ValuesFor(rows, q)
  {
    if rows != [] {
      var init := rows[..|rows| - 1];
      var last := rows[|rows| - 1];
      var kept := if last.produtoId == pid then [] else [last];
      calc {
        ValuesFor(DeleteProduct(rows, pid), q);
        ValuesFor(DeleteProduct(init, pid) + kept, q);
        { ValuesForAppend(DeleteProduct(init, pid), kept, q); }
        ValuesFor(DeleteProduct(init, pid), q) + ValuesFor(kept, q);
        { ValuesForDeleteProduct(init, pid, q); ValuesForOne(last, q); }
        (if q == pid then [] else ValuesFor(init, q)) + (if last.produtoId == pid then [] else ValuesFor([last], q));
        { ValuesForOne(last, q); }
        if q == pid then [] else ValuesFor(rows, q);
      }
    }
  }

  /** `update_synonyms`: the product's rows are deleted, then one row per new synonym is
      appended. */
  function UpdateSynonyms(rows: seq<LinkRow>, pid: int, newSynonyms: seq<string>): seq<LinkRow> {
    DeleteProduct(rows, pid) + LinkRows(pid, newSynonyms)
  }

  /** Afterwards the product's synonyms are exactly the new ones (duplicates included) and
      every other product's synonyms are unchanged. */
  lemma UpdateSynonymsSets(rows: seq<LinkRow>, pid: int, newSynonyms: seq<string>, q: int)
    ensures ValuesFor(UpdateSynonyms(rows, pid, newSynonyms), q) ==
            if q == pid then newSynonyms else ValuesFor(rows, q)
  {
    ValuesForAppend(DeleteProduct(rows, pid), LinkRows(pid, newSynonyms), q);
    ValuesForDeleteProduct(rows, pid, q);
    ValuesForLinkRows(pid, newSynonyms, q);
  }

  // ---------------------------------------------------------------------------
  // add_synonyms

  /** `[s for s in additional if s not in existing]`. */
  function NotIn(additional: seq<string>, existing: seq<string>): (r: seq<string>)
    ensures forall s :: s in r <==> s in additional && s !in existing
  {
    if additional == [] then []
    else (if additional[0] in existing then [] else [additional[0]]) + NotIn(additional[1..], existing)
  }

  lemma {:induction false} NotInAllPresent(additional: seq<string>, existing: seq<string>)
    requires forall s | s in additional :: s in existing
    ensures NotIn(additional, existing) == []
  {
    if additional != [] {
      assert additional[0] in additional;
      assert forall s | s in additional[1..] :: s in additional;
      NotInAllPresent(additional[1..], existing);
    }
  }

  /** `add_synonyms`: the additional synonyms the product does not have yet are appended, in
      order. */
  method AddSynonyms(rows: seq<LinkRow>, pid: int, additional: seq<string>) returns (r: seq<LinkRow>)
    ensures ValuesFor(r, pid) == ValuesFor(rows, pid) + NotIn(additional, ValuesFor(rows, pid))
    ensures forall q :: q != pid ==> ValuesFor(r, q) == ValuesFor(rows, q)
    ensures (forall s | s in additional :: s in ValuesFor(rows, pid)) ==> r == rows
  {
    var existing := GetSynonymsForProduct(rows, pid);
    var added := NotIn(additional, existing);
    r := rows + LinkRows(pid, added);
    forall q
      ensures ValuesFor(r, q) == ValuesFor(rows, q) + (if q == pid then added else [])
    {
      ValuesForAppend(rows, LinkRows(pid, added), q);
      ValuesForLinkRows(pid, added, q);
    }
    if forall s | s in additional :: s in existing {
      NotInAllPresent(additional, existing);
      assert r == rows;
    }
  }

  // ---------------------------------------------------------------------------
  // remove_synonym

  /** `DELETE FROM synonyms WHERE produto_id = ? AND sinonimo = ?`. */
  function RemoveSynonym(rows: seq<LinkRow>, pid: int, synonym: string): seq<LinkRow> {
    if rows == [] then []
    else
      var last := rows[|rows| - 1];
      RemoveSynonym(rows[..|rows| - 1], pid, synonym) + (if last == LinkRow(pid, synonym) then [] else [last])
  }

  /** `xs` without any occurrence of `x`. */
  function RemoveAll(xs: seq<string>, x: string): seq<string> {
    if xs == [] then []
    else RemoveAll(xs[..|xs| - 1], x) + (if xs[|xs| - 1] == x then [] else [xs[|xs| - 1]])
  }

  lemma {:induction false} RemoveAllMembers(xs: seq<string>, x: string)
    ensures forall y :: y in RemoveAll(xs, x) <==> y in xs && y != x
  {
    if xs != [] {
      RemoveAllMembers(xs[..|xs| - 1], x);
      assert xs == xs[..|xs| - 1] + [xs[|xs| - 1]];
    }
  }

  lemma RemoveAllSnoc(xs: seq<string>, x: string, y: string)
    ensures RemoveAll(xs + [y], x) == RemoveAll(xs, x) + (if y == x then [] else [y])
  {
    assert (xs + [y])[..|xs|] == xs;
  }

  /** Every occurrence of the synonym goes from that product and from no other; the product's
      other synonyms keep their order. */
  lemma {:induction false} RemoveSynonymEffect(rows: seq<LinkRow>, pid: int, synonym: string, q: int)
    ensures ValuesFor(RemoveSynonym(rows, pid, synonym), q) ==
            if q == pid then RemoveAll(ValuesFor(rows, q), synonym) else ValuesFor(rows, q)
  {
    if rows != [] {
      var init := rows[..|rows| - 1];
      var last := rows[|rows| - 1];
      var kept := if last == LinkRow(pid, synonym) then [] else [last];
      var before := ValuesFor(init, q);
      var lastValues := if last.produtoId == q then [last.value] else [];
      assert ValuesFor(rows, q) == before + lastValues;
      assert ValuesFor(RemoveSynonym(rows, pid, synonym), q) == ValuesFor(RemoveSynonym(init, pid, synonym), q) + ValuesFor(kept, q) by {
        ValuesForAppend(RemoveSynonym(init, pid, synonym), kept, q);
      }
      RemoveSynonymEffect(init, pid, synonym, q);
      assert ValuesFor(kept, q) == if last == LinkRow(pid, synonym) then [] else lastValues by {
        ValuesForOne(last, q);
      }
      if q == pid {
        if last.produtoId == q {
          RemoveAllSnoc(before, synonym, last.value);
        } else {
          assert before + lastValues == before;
        }
      }
    }
  }

  // ---------------------------------------------------------------------------
  // The reply of the synonym generator

  /** The kept form of one reply line: stripped, and only when not blank. */
  function NonBlank(line: string): Option<string> {
    var t := Strip(line);
    if t != [] then Some(t) else None
  }

  /** `[s.strip() for s in raw.strip().split("\n") if s.strip()]`. */
  function ParseSynonymLines(raw: string): seq<string> {
    FilterMap(NonBlank, SplitOn(Strip(raw), '\n'))
  }

  /** Not empty, and no whitespace at either end. */
  predicate Clean(s: string) {
    s != [] && !IsSpace(s[0]) && !IsSpace(s[|s| - 1])
  }

  /** No kept synonym is empty or has whitespace at either end. */
  lemma ParseSynonymLinesClean(raw: string)
    ensures forall s | s in ParseSynonymLines(raw) :: Clean(s)
  {
    var lines := SplitOn(Strip(raw), '\n');
    forall s | s in FilterMap(NonBlank, lines)
      ensures Clean(s)
    {
      var k := FilterMapSource(NonBlank, lines, s);
      NonBlankClean(lines[k]);
    }
  }

  lemma NonBlankClean(line: string)
    ensures NonBlank(line).Some? ==> Clean(NonBlank(line).value)
  {
  }

  /** The kept synonyms are exactly the stripped non-blank lines. */
  lemma ParseSynonymLinesMembers(raw: string)
    ensures var lines := SplitOn(Strip(raw), '\n');
            forall s :: s in ParseSynonymLines(raw) <==>
              s != [] && exists k :: 0 <= k < |lines| && Strip(lines[k]) == s
  {
    var lines := SplitOn(Strip(raw), '\n');
    FilterMapMembers(NonBlank, lines);
    forall s | s in ParseSynonymLines(raw)
      ensures s != [] && exists k :: 0 <= k < |lines| && Strip(lines[k]) == s
    {
      var k :| 0 <= k < |lines| && NonBlank(lines[k]) == Some(s);
    }
    forall s | s != [] && exists k :: 0 <= k < |lines| && Strip(lines[k]) == s
      ensures s in ParseSynonymLines(raw)
    {
      var k :| 0 <= k < |lines| && Strip(lines[k]) == s;
      assert NonBlank(lines[k]) == Some(s);
    }
  }
}

=== FILE: text.dfy ===
/** The parts of Python 3's `str` and `re` behaviour that the order pipeline relies on,
    written over `seq<char>`.

    Character classes follow Python's definitions exactly on the Latin-1 block
    (U+0000..U+00FF); outside that block only the whitespace class is complete, and
    characters are treated as uncased, non-word and non-digit. The digits of `\d` and of
    `int()` are the ASCII digits '0'..'9'; `str.isdigit()` also admits ¹ ² ³. */
module Text {
  import opened Wrappers

  // ---------------------------------------------------------------------------
  // Character classes

  /** `str.isspace()`; also the class `\s` of a `re` pattern over `str`. */
  predicate IsSpace(c: char) {
    || ('\t' <= c <= '\r')
    || ('\U{1C}' <= c <= ' ')
    || c == '\U{85}' || c == '\U{A0}' || c == '\U{1680}'
    || ('\U{2000}' <= c <= '\U{200A}')
    || c == '\U{2028}' || c == '\U{2029}' || c == '\U{202F}' || c == '\U{205F}' || c == '\U{3000}'
  }

  /** `\d` of a `re` pattern over `str`, and the digits `int()` accepts, restricted to
      ASCII. */
  predicate IsDigit(c: char) {
    '0' <= c <= '9'
  }

  /** `str.isdigit()` on Latin-1: the ASCII digits and the superscripts ¹ ² ³, which
      `int()` rejects. */
  predicate IsDigitLike(c: char) {
    IsDigit(c) || c == '\U{B2}' || c == '\U{B3}' || c == '\U{B9}'
  }

  function DigitValue(c: char): (d: nat)
    requires IsDigit(c)
    ensures d < 10
  {
    (c as int) - ('0' as int)
  }

  function DigitChar(d: nat): (c: char)
    requires d < 10
    ensures IsDigit(c) && DigitValue(c) == d
  {
    (('0' as int) + d) as char
  }

  predicate IsUpperLatin(c: char) {
    ('A' <= c <= 'Z') || ('\U{C0}' <= c <= '\U{DE}' && c != '\U{D7}')
  }

  predicate IsLowerLatin(c: char) {
    || ('a' <= c <= 'z')
    || ('\U{DF}' <= c <= '\U{FF}' && c != '\U{F7}')
    || c == '\U{AA}' || c == '\U{B5}' || c == '\U{BA}'
  }

  /** Python's notion of a cased character, as used by `str.title()`. */
  predicate IsCased(c: char) {
    IsUpperLatin(c) || IsLowerLatin(c)
  }

  /** `\w` of a `re` pattern over `str`: letters, digits, numeric characters and '_'. */
  predicate IsWordChar(c: char) {
    || IsCased(c) || IsDigit(c) || c == '_'
    || c == '\U{B2}' || c == '\U{B3}' || c == '\U{B9}'
    || ('\U{BC}' <= c <= '\U{BE}')
  }

  /** The class `[\s-]` (written `[\s\-]` in some patterns). */
  predicate IsSeparator(c: char) {
    IsSpace(c) || c == '-'
  }

  /** `\b` at position `i`: exactly one of the neighbouring characters is a word character. */
  predicate WordBoundary(s: string, i: int)
    requires 0 <= i <= |s|
  {
    (i > 0 && IsWordChar(s[i - 1])) != (i < |s| && IsWordChar(s[i]))
  }

  // ---------------------------------------------------------------------------
  // Case mappings

  /** The lower-case mapping of one character (`str.lower()` on Latin-1). */
  function LowerChar(c: char): char {
    if IsUpperLatin(c) then ((c as int) + 32) as char else c
  }

  /** The title-case mapping of one character, which may be two characters long
      (U+00DF becomes "Ss"). */
  function TitleChar(c: char): string {
    if ('a' <= c <= 'z') || ('\U{E0}' <= c <= '\U{FE}' && c != '\U{F7}') then [((c as int) - 32) as char]
    else if c == '\U{DF}' then "Ss"
    else if c == '\U{FF}' then ['\U{178}']
    else if c == '\U{B5}' then ['\U{39C}']
    else [c]
  }

  /** `str.lower()`. */
  function Lower(s: string): (r: string)
    ensures |r| == |s|
  {
    seq(|s|, i requires 0 <= i < |s| => LowerChar(s[i]))
  }

  /** One character of `Lower(s)`: an unfolding step for proofs about concrete names, not a
      property of the source. */
  lemma LowerAt(s: string, i: int)
    requires 0 <= i < |s|
    ensures Lower(s)[i] == LowerChar(s[i])
  {
  }

  /** The lower-case mapping sends each upper-case letter to a lower-case one and fixes
      every other character. */
  lemma LowerCharCases(c: char)
    ensures IsUpperLatin(c) ==> IsLowerLatin(LowerChar(c)) && LowerChar(c) != c
    ensures !IsUpperLatin(c) ==> LowerChar(c) == c
    ensures !IsUpperLatin(LowerChar(c))
  {
  }

  /** `lower()` is idempotent. */
  lemma LowerIdempotent(s: string)
    ensures Lower(Lower(s)) == Lower(s)
  {
    forall i | 0 <= i < |s|
      ensures Lower(Lower(s))[i] == Lower(s)[i]
    {
      LowerCharCases(s[i]);
    }
  }

  lemma LowerAppend(a: string, b: string)
    ensures Lower(a + b) == Lower(a) + Lower(b)
  {
    assert forall i :: 0 <= i < |b| ==> (a + b)[|a| + i] == b[i];
  }

  /** A string none of whose characters has a different lower-case form is its own `lower()`. */
  lemma LowerFixed(s: string)
    requires forall c | c in s :: LowerChar(c) == c
    ensures Lower(s) == s
  {
    assert forall i :: 0 <= i < |s| ==> s[i] in s;
  }

  lemma LowerOne(c: char)
    ensures Lower([c]) == [LowerChar(c)]
  {
  }

  /** An occurrence of `p` in `s` is an occurrence of `p.lower()` in `s.lower()`. */
  lemma LowerStartsAt(s: string, i: int, p: string)
    requires StartsAt(s, i, p)
    ensures StartsAt(Lower(s), i, Lower(p))
  {
    assert forall k :: 0 <= k < |p| ==> s[i + k] == p[k];
  }

  /** A character that is the lower-case form of no character of `s` is not in `s.lower()`. */
  lemma LowerNotIn(s: string, c: char)
    requires forall x | x in s :: LowerChar(x) != c
    ensures c !in Lower(s)
  {
    assert forall i :: 0 <= i < |s| ==> s[i] in s;
  }

  /** `str.title()`: a character that follows a cased character is lower-cased, any other
      character is title-cased. */
  function TitleFrom(s: string, previousCased: bool): string
    decreases |s|
  {
    if s == [] then []
    else (if previousCased then [LowerChar(s[0])] else TitleChar(s[0])) + TitleFrom(s[1..], IsCased(s[0]))
  }

  function Title(s: string): string {
    TitleFrom(s, false)
  }

  /** `str.capitalize()`: the first character title-cased, the rest lower-cased. */
  function Capitalize(s: string): string {
    if s == [] then [] else TitleChar(s[0]) + Lower(s[1..])
  }

  lemma TitleEmpty(s: string, b: bool)
    ensures (TitleFrom(s, b) == []) <==> (s == [])
  {
  }

  lemma CapitalizeEmpty(s: string)
    ensures (Capitalize(s) == []) <==> (s == [])
  {
  }

  // ---------------------------------------------------------------------------
  // Searching

  /** `p` occurs in `s` at index `i`. */
  predicate StartsAt(s: string, i: int, p: string) {
    0 <= i && i + |p| <= |s| && s[i..i + |p|] == p
  }

  /** `w` occurs in `t` at `q`, compared character by character; `WordAtIs` shows this is
      `StartsAt`. */
  predicate WordAt(t: string, q: nat, w: string)
    decreases |w|
    ensures WordAt(t, q, w) ==> q + |w| <= |t|
  {
    if w == [] then q <= |t| else q < |t| && t[q] == w[0] && WordAt(t, q + 1, w[1..])
  }

  lemma {:induction false} WordAtIs(t: string, q: nat, w: string)
    requires q <= |t|
    decreases |w|
    ensures WordAt(t, q, w) <==> StartsAt(t, q, w)
  {
    if w != [] && q < |t| {
      WordAtIs(t, q + 1, w[1..]);
      if StartsAt(t, q, w) {
        assert t[q + 1..q + |w|] == t[q..q + |w|][1..];
      }
      if StartsAt(t, q + 1, w[1..]) && t[q] == w[0] {
        assert t[q..q + |w|] == [t[q]] + t[q + 1..q + |w|];
      }
    }
  }

  lemma {:induction false} WordAtChar(t: string, q: nat, w: string, k: nat)
    requires k < |w| && WordAt(t, q, w)
    decreases k
    ensures q + k < |t| && t[q + k] == w[k]
  {
    if k > 0 {
      WordAtChar(t, q + 1, w[1..], k - 1);
    }
  }

  lemma {:induction false} WordAtPrefix(t: string, q: nat, w: string, n: nat)
    requires n <= |w| && WordAt(t, q, w)
    decreases n
    ensures WordAt(t, q, w[..n])
  {
    if n > 0 {
      WordAtPrefix(t, q + 1, w[1..], n - 1);
      assert w[..n][1..] == w[1..][..n - 1];
    }
  }

  /** Python's `p in s` for strings. */
  predicate Contains(s: string, p: string) {
    exists i | 0 <= i <= |s| - |p| :: StartsAt(s, i, p)
  }

  /** `s.find(p, from)`: the leftmost occurrence of `p` at or after `from`. */
  function Find(s: string, p: string, from: nat): (r: Option<nat>)
    decreases |s| - from
    ensures r.Some? ==> from <= r.value && StartsAt(s, r.value, p)
    ensures r.Some? ==> forall k :: from <= k < r.value ==> !StartsAt(s, k, p)
    ensures r.None? ==> forall k :: from <= k ==> !StartsAt(s, k, p)
  {
    if from + |p| > |s| then None
    else if StartsAt(s, from, p) then Some(from)
    else Find(s, p, from + 1)
  }

  lemma FindContains(s: string, p: string)
    ensures Find(s, p, 0).Some? <==> Contains(s, p)
  {
    if Find(s, p, 0).Some? {
      assert StartsAt(s, Find(s, p, 0).value, p);
    }
  }

  /** If `p` has a character that `s` lacks, `p` is not in `s`. */
  lemma AbsentChar(s: string, p: string, c: char)
    requires c in p && c !in s
    ensures !Contains(s, p)
  {
    forall i | 0 <= i <= |s| - |p|
      ensures !StartsAt(s, i, p)
    {
      var k :| 0 <= k < |p| && p[k] == c;
      assert s[i + k] !in p || s[i + k] != c;
    }
  }

  lemma ContainsShift(s: string, p: string, i: int)
    requires StartsAt(s, i, p)
    ensures Contains(s, p)
  {
  }

  // ---------------------------------------------------------------------------
  // Runs

  /** Index just past the run of whitespace that starts at `p` (`p` itself if none). */
  function SpaceEnd(s: string, p: nat): (q: nat)
    requires p <= |s|
    decreases |s| - p
    ensures p <= q <= |s|
  {
    if p < |s| && IsSpace(s[p]) then SpaceEnd(s, p + 1) else p
  }

  /** The run from `p` to `SpaceEnd(s, p)` is whitespace, and the character after it is not. */
  lemma {:induction false} SpaceEndRun(s: string, p: nat)
    requires p <= |s|
    decreases |s| - p
    ensures forall k :: p <= k < SpaceEnd(s, p) ==> IsSpace(s[k])
    ensures SpaceEnd(s, p) == |s| || !IsSpace(s[SpaceEnd(s, p)])
  {
    if p < |s| && IsSpace(s[p]) {
      SpaceEndRun(s, p + 1);
    }
  }

  /** Index just past the run of digits that starts at `p`. */
  function DigitEnd(s: string, p: nat): (q: nat)
    requires p <= |s|
    decreases |s| - p
    ensures p <= q <= |s|
    ensures forall k :: p <= k < q ==> IsDigit(s[k])
    ensures q == |s| || !IsDigit(s[q])
  {
    if p < |s| && IsDigit(s[p]) then DigitEnd(s, p + 1) else p
  }

  /** `n` digits start at index `i`. */
  predicate DigitsAt(s: string, i: nat, n: nat) {
    i + n <= |s| && forall k :: i <= k < i + n ==> IsDigit(s[k])
  }

  predicate AllDigits(s: string) {
    forall k :: 0 <= k < |s| ==> IsDigit(s[k])
  }

  lemma AllDigitsAppend3(a: string, b: string, c: string)
    requires AllDigits(a) && AllDigits(b) && AllDigits(c)
    ensures AllDigits(a + b + c)
  {
  }

  lemma DigitsBlock(s: string, i: nat, n: nat)
    requires DigitsAt(s, i, n)
    ensures AllDigits(s[i..i + n])
  {
  }

  // ---------------------------------------------------------------------------
  // Stripping and splitting

  /** Number of leading whitespace characters. */
  function StripStart(s: string): (n: nat)
    ensures n <= |s|
    ensures forall k :: 0 <= k < n ==> IsSpace(s[k])
    ensures n == |s| || !IsSpace(s[n])
  {
    SpaceEndRun(s, 0);
    SpaceEnd(s, 0)
  }

  /** Index where the trailing whitespace of `s` begins. */
  function StripEnd(s: string): (n: nat)
    ensures n <= |s|
    ensures forall k :: n <= k < |s| ==> IsSpace(s[k])
    ensures n == 0 || !IsSpace(s[n - 1])
  {
    if s == [] || !IsSpace(s[|s| - 1]) then |s| else StripEnd(s[..|s| - 1])
  }

  /** `str.strip()` with no argument. */
  function Strip(s: string): (r: string)
    ensures r == [] || (!IsSpace(r[0]) && !IsSpace(r[|r| - 1]))
    ensures StartsAt(s, StripStart(s), r)
    ensures forall k :: 0 <= k < StripStart(s) ==> IsSpace(s[k])
    ensures forall k :: StripStart(s) + |r| <= k < |s| ==> IsSpace(s[k])
  {
    var i := StripStart(s);
    var j := StripEnd(s[i..]);
    StripSlice(s, i, j);
    s[i..i + j]
  }

  lemma StripSlice(s: string, i: nat, j: nat)
    requires i == StripStart(s) && j == StripEnd(s[i..])
    ensures i + j <= |s|
    ensures j > 0 ==> !IsSpace(s[i]) && !IsSpace(s[i + j - 1])
    ensures forall k :: i + j <= k < |s| ==> IsSpace(s[k])
  {
    var t := s[i..];
    assert forall k :: 0 <= k < |t| ==> t[k] == s[i + k];
  }

  /** `strip()` returns "" exactly when the string is all whitespace. */
  lemma StripEmpty(s: string)
    ensures Strip(s) == [] <==> forall k :: 0 <= k < |s| ==> IsSpace(s[k])
  {
    if Strip(s) != [] {
      assert !IsSpace(s[StripStart(s)]);
    }
  }

  /** A string that neither starts nor ends with whitespace is its own `strip()`. */
  lemma StripUnchanged(s: string)
    requires s != [] ==> !IsSpace(s[0]) && !IsSpace(s[|s| - 1])
    ensures Strip(s) == s
  {
    if s != [] {
      assert SpaceEnd(s, 0) == 0;
      assert s[0..] == s;
    }
  }

  /** Index of the first whitespace character at or after `p`, or `|s|`. */
  function WordEnd(s: string, p: nat): (q: nat)
    requires p <= |s|
    decreases |s| - p
    ensures p <= q <= |s|
  {
    if p < |s| && !IsSpace(s[p]) then WordEnd(s, p + 1) else p
  }

  /** The run from `p` to `WordEnd(s, p)` has no whitespace, and the character after it is
      whitespace. */
  lemma {:induction false} WordEndRun(s: string, p: nat)
    requires p <= |s|
    decreases |s| - p
    ensures forall k :: p <= k < WordEnd(s, p) ==> !IsSpace(s[k])
    ensures WordEnd(s, p) == |s| || IsSpace(s[WordEnd(s, p)])
  {
    if p < |s| && !IsSpace(s[p]) {
      WordEndRun(s, p + 1);
    }
  }

  /** `str.split()` with no argument: the maximal runs of non-whitespace characters. */
  function Split(s: string): (r: seq<string>)
    ensures forall k :: 0 <= k < |r| ==> r[k] != [] && forall c :: c in r[k] ==> !IsSpace(c) && c in s
  {
    SplitFromWords(s, 0);
    SplitFrom(s, 0)
  }

  /** The words of `s[p..]`. */
  function SplitFrom(s: string, p: nat): seq<string>
    requires p <= |s|
    decreases |s| - p
  {
    var i := SpaceEnd(s, p);
    if i == |s| then []
    else [s[i..WordEnd(s, i)]] + SplitFrom(s, WordEnd(s, i))
  }

  /** Every word is a non-empty run of non-whitespace characters of `s`. */
  lemma {:induction false} SplitFromWords(s: string, p: nat)
    requires p <= |s|
    decreases |s| - p
    ensures forall k :: 0 <= k < |SplitFrom(s, p)| ==>
              SplitFrom(s, p)[k] != [] && forall c :: c in SplitFrom(s, p)[k] ==> !IsSpace(c) && c in s
  {
    var i := SpaceEnd(s, p);
    if i < |s| {
      var e := WordEnd(s, i);
      SpaceEndRun(s, p);
      WordEndRun(s, i);
      assert forall c :: c in s[i..e] ==> c in s;
      SplitFromWords(s, e);
    }
  }

  lemma SpaceEndShift(a: string, b: string, q: nat)
    requires q <= |b|
    ensures SpaceEnd(a + b, |a| + q) == |a| + SpaceEnd(b, q)
    decreases |b| - q
  {
    if q < |b| && IsSpace(b[q]) {
      SpaceEndShift(a, b, q + 1);
    }
  }

  lemma WordEndShift(a: string, b: string, q: nat)
    requires q <= |b|
    ensures WordEnd(a + b, |a| + q) == |a| + WordEnd(b, q)
    decreases |b| - q
  {
    if q < |b| && !IsSpace(b[q]) {
      WordEndShift(a, b, q + 1);
    }
  }

  lemma {:induction false} SplitFromShift(a: string, b: string, q: nat)
    requires q <= |b|
    ensures SplitFrom(a + b, |a| + q) == SplitFrom(b, q)
    decreases |b| - q
  {
    SpaceEndShift(a, b, q);
    if SpaceEnd(b, q) < |b| {
      var e := WordEnd(b, SpaceEnd(b, q));
      SplitFromShift(a, b, e);
      SplitFromShiftStep(a, b, q);
    }
  }

  lemma SplitFromShiftStep(a: string, b: string, q: nat)
    requires q <= |b| && SpaceEnd(b, q) < |b|
    requires SplitFrom(a + b, |a| + WordEnd(b, SpaceEnd(b, q))) == SplitFrom(b, WordEnd(b, SpaceEnd(b, q)))
    ensures SplitFrom(a + b, |a| + q) == SplitFrom(b, q)
  {
    SpaceEndShift(a, b, q);
    var i := SpaceEnd(b, q);
    WordEndShift(a, b, i);
    var e := WordEnd(b, i);
    SliceOfAppendRight(a, b, i, e);
    SplitFromShiftWord(a, b, q, i, e);
  }

  lemma SplitFromShiftWord(a: string, b: string, q: nat, i: nat, e: nat)
    requires q <= |b| && SpaceEnd(b, q) == i < |b| && WordEnd(b, i) == e
    requires SpaceEnd(a + b, |a| + q) == |a| + i && WordEnd(a + b, |a| + i) == |a| + e
    requires (a + b)[|a| + i..|a| + e] == b[i..e]
    requires SplitFrom(a + b, |a| + e) == SplitFrom(b, e)
    ensures SplitFrom(a + b, |a| + q) == SplitFrom(b, q)
  {
    SplitFromStep(a + b, |a| + q, |a| + i, |a| + e);
    SplitFromStep(b, q, i, e);
  }

  lemma SpaceEndPrefix(a: string, b: string, p: nat)
    requires p <= |a|
    ensures SpaceEnd(a, p) < |a| ==> SpaceEnd(a + b, p) == SpaceEnd(a, p)
    ensures SpaceEnd(a, p) == |a| ==> SpaceEnd(a + b, p) == SpaceEnd(a + b, |a|)
    decreases |a| - p
  {
    if p < |a| && IsSpace(a[p]) {
      SpaceEndPrefix(a, b, p + 1);
    }
  }

  lemma WordEndPrefix(a: string, b: string, p: nat)
    requires p < |a| && IsSpace(a[|a| - 1])
    ensures WordEnd(a + b, p) == WordEnd(a, p) < |a|
    decreases |a| - p
  {
    if !IsSpace(a[p]) {
      WordEndPrefix(a, b, p + 1);
    }
  }

  /** Words never straddle a whitespace character, so splitting distributes over a
      concatenation whose left part ends in whitespace. */
  lemma {:induction false} SplitAppend(a: string, b: string)
    requires a != [] && IsSpace(a[|a| - 1])
    ensures Split(a + b) == Split(a) + Split(b)
  {
    SplitFromAppend(a, b, 0);
    SplitFromShift(a, b, 0);
  }

  lemma {:induction false} SplitFromAppend(a: string, b: string, p: nat)
    requires p <= |a| && a != [] && IsSpace(a[|a| - 1])
    ensures SplitFrom(a + b, p) == SplitFrom(a, p) + SplitFrom(a + b, |a|)
    decreases |a| - p
  {
    SpaceEndPrefix(a, b, p);
    if SpaceEnd(a, p) == |a| {
      SpaceEndPrefix(a, b, |a|);
    } else {
      var e := WordEnd(a, SpaceEnd(a, p));
      SplitFromAppend(a, b, e);
      SplitFromAppendStep(a, b, p);
    }
  }

  /** The inductive step of `SplitFromAppend`: the first word of `a` is the first word of
      `a + b`. */
  lemma SplitFromAppendStep(a: string, b: string, p: nat)
    requires p <= |a| && SpaceEnd(a, p) < |a| && IsSpace(a[|a| - 1])
    requires SpaceEnd(a + b, p) == SpaceEnd(a, p)
    requires SplitFrom(a + b, WordEnd(a, SpaceEnd(a, p))) == SplitFrom(a, WordEnd(a, SpaceEnd(a, p))) + SplitFrom(a + b, |a|)
    ensures SplitFrom(a + b, p) == SplitFrom(a, p) + SplitFrom(a + b, |a|)
  {
    var i := SpaceEnd(a, p);
    WordEndPrefix(a, b, i);
    var e := WordEnd(a, i);
    var w, rest, tail := a[i..e], SplitFrom(a, e), SplitFrom(a + b, |a|);
    SliceOfAppend(a, b, i, e);
    calc {
      SplitFrom(a + b, p);
      [(a + b)[i..e]] + SplitFrom(a + b, e);
      [w] + (rest + tail);
      [w] + rest + tail;
      { assert SplitFrom(a, p) == [w] + rest; }
      SplitFrom(a, p) + tail;
    }
  }

  /** A slice inside the left operand of a concatenation. */
  lemma SliceOfAppend(a: string, b: string, i: nat, e: nat)
    requires i <= e <= |a|
    ensures (a + b)[i..e] == a[i..e]
  {
    assert forall k :: 0 <= k < e - i ==> (a + b)[i..e][k] == a[i + k];
  }

  lemma SliceConcat(s: string, p: nat, q: nat, r: nat)
    requires p <= q <= r <= |s|
    ensures s[p..q] + s[q..r] == s[p..r]
  {
  }

  /** A slice inside the right operand of a concatenation. */
  lemma SliceOfAppendRight(a: string, b: string, i: nat, e: nat)
    requires i <= e <= |b|
    ensures (a + b)[|a| + i..|a| + e] == b[i..e]
  {
    var l, r := (a + b)[|a| + i..|a| + e], b[i..e];
    assert forall k :: 0 <= k < |l| ==> l[k] == r[k];
  }

  /** The three operands of a concatenation, sliced back out. */
  lemma SlicesOfAppend3(a: string, b: string, c: string)
    ensures (a + b + c)[..|a|] == a
    ensures (a + b + c)[|a|..|a| + |b|] == b
    ensures (a + b + c)[|a| + |b|..] == c
  {
    var s := a + b + c;
    assert forall k :: 0 <= k < |a| ==> s[k] == a[k];
    assert forall k :: 0 <= k < |b| ==> s[|a| + k] == b[k];
    assert forall k :: 0 <= k < |c| ==> s[|a| + |b| + k] == c[k];
  }

  /** One step of the word loop: the word `s[i..e]` and the words after it. */
  lemma SplitFromStep(s: string, p: nat, i: nat, e: nat)
    requires p <= |s| && SpaceEnd(s, p) == i < |s| && WordEnd(s, i) == e
    ensures SplitFrom(s, p) == [s[i..e]] + SplitFrom(s, e)
  {
  }

  /** A non-empty string without whitespace is one word. */
  lemma SplitSingleWord(s: string)
    requires s != [] && forall c | c in s :: !IsSpace(c)
    ensures Split(s) == [s]
  {
    assert s[0] in s;
    assert SpaceEnd(s, 0) == 0;
    WordEndAll(s, 0);
    assert s[0..|s|] == s;
    assert SplitFrom(s, |s|) == [];
  }

  lemma WordEndAll(s: string, p: nat)
    requires p <= |s| && forall c | c in s :: !IsSpace(c)
    ensures WordEnd(s, p) == |s|
    decreases |s| - p
  {
    if p < |s| {
      assert s[p] in s;
      WordEndAll(s, p + 1);
    }
  }

  /** Index of the first `c` in `s`, or `|s|`. */
  function IndexOfChar(s: string, c: char): (n: nat)
    ensures n <= |s|
    ensures forall k :: 0 <= k < n ==> s[k] != c
    ensures n == |s| || s[n] == c
  {
    if s == [] || s[0] == c then 0 else 1 + IndexOfChar(s[1..], c)
  }

  /** `s.split(c)` for a one-character separator: keeps empty pieces. */
  function SplitOn(s: string, c: char): (r: seq<string>)
    decreases |s|
    ensures |r| >= 1
    ensures forall k :: 0 <= k < |r| ==> c !in r[k]
  {
    var i := IndexOfChar(s, c);
    if i == |s| then [s] else [s[..i]] + SplitOn(s[i + 1..], c)
  }

  /** Joining the pieces with the separator gives the input back. */
  lemma {:induction false} SplitOnJoin(s: string, c: char)
    decreases |s|
    ensures Join([c], SplitOn(s, c)) == s
  {
    var i := IndexOfChar(s, c);
    if i < |s| {
      var rest := SplitOn(s[i + 1..], c);
      SplitOnJoin(s[i + 1..], c);
      assert ([s[..i]] + rest)[1..] == rest;
      assert s == s[..i] + [c] + s[i + 1..];
    }
  }

  /** `sep.join(parts)`. */
  function Join(sep: string, parts: seq<string>): string {
    if parts == [] then []
    else if |parts| == 1 then parts[0]
    else parts[0] + sep + Join(sep, parts[1..])
  }

  // ---------------------------------------------------------------------------
  // Character classes of the patterns

  datatype Class =
    | NameClass     // [A-Za-zÀ-ÿ\s]
    | ItemClass     // [a-zà-ÿ\s]
    | AddressClass  // [^,.!?]

  predicate InClass(c: char, k: Class) {
    match k
    case NameClass => ('A' <= c <= 'Z') || ('a' <= c <= 'z') || ('\U{C0}' <= c <= '\U{FF}') || IsSpace(c)
    case ItemClass => ('a' <= c <= 'z') || ('\U{E0}' <= c <= '\U{FF}') || IsSpace(c)
    case AddressClass => c != ',' && c != '.' && c != '!' && c != '?'
  }

  /** Index just past the run of class `k` characters that starts at `p`. */
  function RunEnd(s: string, p: nat, k: Class): (q: nat)
    requires p <= |s|
    decreases |s| - p
    ensures p <= q <= |s|
  {
    if p < |s| && InClass(s[p], k) then RunEnd(s, p + 1, k) else p
  }

  /** The run is all class `k`, and the character after it is not. */
  lemma {:induction false} RunEndRun(s: string, p: nat, k: Class)
    requires p <= |s|
    decreases |s| - p
    ensures forall i :: p <= i < RunEnd(s, p, k) ==> InClass(s[i], k)
    ensures RunEnd(s, p, k) == |s| || !InClass(s[RunEnd(s, p, k)], k)
  {
    if p < |s| && InClass(s[p], k) {
      RunEndRun(s, p + 1, k);
    }
  }

  /** A run of class `k` characters from `p` to `e` lies within the run `RunEnd` finds. */
  lemma {:induction false} RunEndCovers(s: string, p: nat, e: nat, k: Class)
    requires p <= e <= |s| && forall i :: p <= i < e ==> InClass(s[i], k)
    decreases e - p
    ensures e <= RunEnd(s, p, k)
  {
    if p < e {
      RunEndCovers(s, p + 1, e, k);
    }
  }

  // ---------------------------------------------------------------------------
  // Numbers

  /** `int(s)` for a string of decimal digits. */
  function DigitsValue(s: string): nat
    requires AllDigits(s)
  {
    if s == [] then 0 else DigitsValue(s[..|s| - 1]) * 10 + DigitValue(s[|s| - 1])
  }

  /** `str(n)` for a natural number. */
  function NatToString(n: nat): (r: string)
    ensures r != [] && AllDigits(r)
  {
    if n < 10 then [DigitChar(n)] else NatToString(n / 10) + [DigitChar(n % 10)]
  }

  /** `str(n)` for an integer. */
  function IntToString(n: int): string {
    if n < 0 then "-" + NatToString(-n) else NatToString(n)
  }

  /** Reading back what `str` wrote. */
  lemma {:induction false} NatToStringRoundTrip(n: nat)
    ensures DigitsValue(NatToString(n)) == n
  {
    if n >= 10 {
      var s := NatToString(n);
      assert s[..|s| - 1] == NatToString(n / 10);
      NatToStringRoundTrip(n / 10);
    }
  }

  /** The digits of `s`, in order (`re.sub(r'\D', '', s)`). */
  function DigitsOf(s: string): string {
    if s == [] then []
    else (if IsDigit(s[0]) then [s[0]] else []) + DigitsOf(s[1..])
  }

  /** What is left is digits only, no longer than the input, and all of it when the input
      is digits only. */
  lemma {:induction false} DigitsOfDigits(s: string)
    ensures AllDigits(DigitsOf(s)) && |DigitsOf(s)| <= |s|
    ensures AllDigits(s) ==> DigitsOf(s) == s
  {
    if s != [] {
      DigitsOfDigits(s[1..]);
    }
  }

  lemma {:induction false} DigitsOfAppend(a: string, b: string)
    ensures DigitsOf(a + b) == DigitsOf(a) + DigitsOf(b)
  {
    if a == [] {
      assert a + b == b;
    } else {
      var h := if IsDigit(a[0]) then [a[0]] else [];
      calc {
        DigitsOf(a + b);
        h + DigitsOf((a + b)[1..]);
        { assert (a + b)[1..] == a[1..] + b; }
        h + DigitsOf(a[1..] + b);
        { DigitsOfAppend(a[1..], b); }
        h + (DigitsOf(a[1..]) + DigitsOf(b));
        DigitsOf(a) + DigitsOf(b);
      }
    }
  }

  lemma {:induction false} DigitsOfAllDigits(s: string)
    requires AllDigits(s)
    ensures DigitsOf(s) == s
  {
    if s != [] {
      DigitsOfAllDigits(s[1..]);
    }
  }

  /** `re.sub(r'[\s-]', '', s)`: `s` without its separators. */
  function DropSeparators(s: string): string {
    if s == [] then []
    else (if IsSeparator(s[0]) then [] else [s[0]]) + DropSeparators(s[1..])
  }

  lemma DropSeparatorsAppend(a: string, b: string)
    ensures DropSeparators(a + b) == DropSeparators(a) + DropSeparators(b)
  {
    if a == [] {
      assert a + b == b;
    } else {
      assert (a + b)[1..] == a[1..] + b;
      DropSeparatorsAppend(a[1..], b);
    }
  }

  /** Digits are not separators, so a digit string is kept whole. */
  lemma {:induction false} DropSeparatorsOfDigits(s: string)
    requires AllDigits(s)
    ensures DropSeparators(s) == s
  {
    if s != [] {
      DropSeparatorsOfDigits(s[1..]);
    }
  }

  /** Number of occurrences of `c` in `s`. */
  function CountChar(s: string, c: char): nat {
    if s == [] then 0 else (if s[0] == c then 1 else 0) + CountChar(s[1..], c)
  }

  lemma CountCharAppend(a: string, b: string, c: char)
    ensures CountChar(a + b, c) == CountChar(a, c) + CountChar(b, c)
  {
    if a == [] {
      assert a + b == b;
    } else {
      assert (a + b)[1..] == a[1..] + b;
      CountCharAppend(a[1..], b, c);
    }
  }

  // ---------------------------------------------------------------------------
  // Replacement

  /** `s.replace(pat, rep)`: every non-overlapping occurrence of `pat`, scanning left to right.
      An empty `pat` inserts `rep` before every character and at the end, as Python does. */
  function Replace(s: string, pat: string, rep: string): string
    decreases |s|
  {
    if pat == [] then Interleave(s, rep)
    else if |s| < |pat| then s
    else if s[..|pat|] == pat then rep + Replace(s[|pat|..], pat, rep)
    else [s[0]] + Replace(s[1..], pat, rep)
  }

  function Interleave(s: string, rep: string): string {
    if s == [] then rep else rep + [s[0]] + Interleave(s[1..], rep)
  }

  /** A string without `pat` is left as it is. */
  lemma {:induction false} ReplaceAbsent(s: string, pat: string, rep: string)
    requires pat != [] && !Contains(s, pat)
    ensures Replace(s, pat, rep) == s
  {
    if |s| >= |pat| {
      assert !StartsAt(s, 0, pat);
      assert s[..|pat|] != pat;
      forall i | StartsAt(s[1..], i, pat)
        ensures false
      {
        assert s[1..][i..i + |pat|] == s[i + 1..i + 1 + |pat|];
        assert StartsAt(s, i + 1, pat);
      }
      ReplaceAbsent(s[1..], pat, rep);
    }
  }

  /** Once `pat` occurs, `rep` occurs in the result. */
  lemma {:induction false} ReplaceIntroduces(s: string, pat: string, rep: string)
    requires pat != [] && Contains(s, pat)
    ensures Contains(Replace(s, pat, rep), rep)
  {
    if s[..|pat|] == pat {
      assert StartsAt(Replace(s, pat, rep), 0, rep);
    } else {
      ContainsTail(s, pat);
      ReplaceIntroduces(s[1..], pat, rep);
      ContainsCons(s[0], Replace(s[1..], pat, rep), rep);
    }
  }

  /** An occurrence that does not start at 0 is an occurrence in the tail. */
  lemma ContainsTail(s: string, p: string)
    requires Contains(s, p) && p != [] && !StartsAt(s, 0, p)
    ensures |s| >= |p| && Contains(s[1..], p)
  {
    var i :| 0 <= i <= |s| - |p| && StartsAt(s, i, p);
    assert s[1..][i - 1..i - 1 + |p|] == s[i..i + |p|];
    assert StartsAt(s[1..], i - 1, p);
  }

  lemma ContainsCons(c: char, u: string, p: string)
    requires Contains(u, p)
    ensures Contains([c] + u, p)
  {
    var j :| 0 <= j <= |u| - |p| && StartsAt(u, j, p);
    SliceOfAppendRight([c], u, j, j + |p|);
    assert StartsAt([c] + u, j + 1, p);
  }

  /** Replacing one character by another changes that character everywhere and nothing else. */
  function SwapChar(s: string, a: char, b: char): (r: string)
    ensures |r| == |s|
  {
    if s == [] then [] else [if s[0] == a then b else s[0]] + SwapChar(s[1..], a, b)
  }

  lemma {:induction false} ReplaceOneChar(s: string, a: char, b: char)
    ensures Replace(s, [a], [b]) == SwapChar(s, a, b)
  {
    if s != [] {
      ReplaceOneChar(s[1..], a, b);
      assert s[..1] == [s[0]];
      assert s[1..] == s[|[a]|..];
    }
  }

  lemma SwapCharAppend(x: string, y: string, a: char, b: char)
    ensures SwapChar(x + y, a, b) == SwapChar(x, a, b) + SwapChar(y, a, b)
  {
    if x == [] {
      assert x + y == y;
    } else {
      assert (x + y)[1..] == x[1..] + y;
      SwapCharAppend(x[1..], y, a, b);
    }
  }

  /** Each character of `SwapChar` is the one at the same index, with `a` turned into `b`. */
  lemma {:induction false} SwapCharAt(s: string, a: char, b: char)
    ensures forall i :: 0 <= i < |s| ==> SwapChar(s, a, b)[i] == if s[i] == a then b else s[i]
  {
    if s != [] {
      SwapCharAt(s[1..], a, b);
      var r := SwapChar(s, a, b);
      forall i | 1 <= i < |s|
        ensures r[i] == if s[i] == a then b else s[i]
      {
        assert r[i] == SwapChar(s[1..], a, b)[i - 1];
        assert s[1..][i - 1] == s[i];
      }
    }
  }

  lemma SwapCharAbsent(s: string, a: char, b: char)
    requires a !in s
    ensures SwapChar(s, a, b) == s
  {
    if s != [] {
      assert s[0] != a;
      SwapCharAbsent(s[1..], a, b);
    }
  }

  /** `t[a..b]` is whitespace. */
  predicate Spaces(t: string, a: nat, b: nat) {
    a <= b <= |t| && forall k :: a <= k < b ==> IsSpace(t[k])
  }

  /** Whitespace from `a` to `b` is exactly `b` not past the run that `SpaceEnd` finds. */
  lemma SpacesUpTo(t: string, a: nat, b: nat)
    requires a <= b <= |t|
    ensures Spaces(t, a, b) <==> b <= SpaceEnd(t, a)
  {
    SpaceEndRun(t, a);
  }

  /** Whitespace that a non-space character ends is the whole run. */
  lemma SpacesBefore(t: string, a: nat, b: nat)
    requires Spaces(t, a, b) && b < |t| && !IsSpace(t[b])
    ensures b == SpaceEnd(t, a)
  {
    SpacesUpTo(t, a, b);
    SpaceEndRun(t, a);
  }

  /** A word that does not start with whitespace, found after whitespace, starts where the
      whole run ends. */
  lemma WordAfterSpaces(t: string, a: nat, j: nat, w: string)
    requires Spaces(t, a, j) && WordAt(t, j, w) && w != [] && !IsSpace(w[0])
    ensures j == SpaceEnd(t, a)
  {
    assert t[j] == w[0];
    SpacesBefore(t, a, j);
  }

  /** Inside a run of whitespace, the run ends where it does from its start. */
  lemma {:induction false} SpaceEndWithin(t: string, p: nat, q: nat)
    requires p <= |t| && p <= q <= SpaceEnd(t, p)
    decreases q - p
    ensures SpaceEnd(t, q) == SpaceEnd(t, p)
  {
    if p < q {
      SpaceEndWithin(t, p + 1, q);
    }
  }
}

=== FILE: validators.dfy ===
/** The input checks of src/utils/validators.py. Each returns a pair (valid, message): the
    message is "" exactly when the input is valid, and names the first check that failed
    otherwise. */
module Validators {
  import opened Text

  datatype Verdict = Verdict(valid: bool, message: string)

  /** The verdicts a validator may return: valid with "", or invalid with a message. */
  predicate WellFormed(v: Verdict) {
    v.valid <==> v.message == ""
  }

  const PhoneMissing := "Número de telefone é obrigatório"
  const PhoneInvalid := "Número de telefone inválido"
  const NameMissing := "Nome é obrigatório"
  const NameShort := "Nome deve ter pelo menos 2 caracteres"
  const NameLetters := "Nome deve conter apenas letras e espaços"
  const AddressMissing := "Endereço é obrigatório"
  const AddressShort := "Endereço deve ter pelo menos 10 caracteres"

  const Valid := Verdict(true, "")

  // ---------------------------------------------------------------------------
  // validate_phone

  /** `validate_phone`: the non-digits are dropped, then the digits must be 10 or 11. */
  function ValidatePhone(phone: string): (r: Verdict)
    ensures WellFormed(r)
    ensures r.valid <==> 10 <= |DigitsOf(phone)| <= 11
    ensures r.message == PhoneMissing <==> DigitsOf(phone) == []
    ensures r.message == PhoneInvalid <==> DigitsOf(phone) != [] && !(10 <= |DigitsOf(phone)| <= 11)
  {
    var digits := DigitsOf(phone);
    DigitsOfDigits(phone);
    if digits == [] then Verdict(false, PhoneMissing)
    else if !(AllDigits(digits) && 10 <= |digits| <= 11) then Verdict(false, PhoneInvalid)
    else Valid
  }

  /** Inserting text without digits anywhere does not change the verdict. */
  lemma ValidatePhoneIgnoresNonDigits(a: string, x: string, b: string)
    requires forall c | c in x :: !IsDigit(c)
    ensures ValidatePhone(a + x + b) == ValidatePhone(a + b)
  {
    DigitsOfNone(x);
    DigitsOfAppend(a + x, b);
    DigitsOfAppend(a, x);
    DigitsOfAppend(a, b);
    assert DigitsOf(a) + [] == DigitsOf(a);
  }

  /** A text without digits has no digits to keep. */
  lemma {:induction false} DigitsOfNone(x: string)
    requires forall c | c in x :: !IsDigit(c)
    ensures DigitsOf(x) == []
  {
    if x != [] {
      assert x[0] in x;
      assert forall c | c in x[1..] :: c in x;
      DigitsOfNone(x[1..]);
    }
  }

  // ---------------------------------------------------------------------------
  // validate_name

  /** `validate_name`: not empty, then at least two characters, then only letters (ASCII
      and U+00C0..U+00FF) and whitespace. */
  function ValidateName(name: string): (r: Verdict)
    ensures WellFormed(r)
    ensures r.valid <==> |name| >= 2 && forall k :: 0 <= k < |name| ==> InClass(name[k], NameClass)
    ensures r.message == NameMissing <==> name == []
    ensures r.message == NameShort <==> |name| == 1
    ensures r.message == NameLetters <==> |name| >= 2 && exists k :: 0 <= k < |name| && !InClass(name[k], NameClass)
  {
    if name == [] then Verdict(false, NameMissing)
    else if |name| < 2 then Verdict(false, NameShort)
    else if !AllInClass(name, NameClass) then Verdict(false, NameLetters)
    else Valid
  }

  /** `re.match(r'^[...]+$', s)` for a non-empty `s`: every character is in the class. */
  predicate AllInClass(s: string, k: Class) {
    forall i :: 0 <= i < |s| ==> InClass(s[i], k)
  }

  // ---------------------------------------------------------------------------
  // validate_address

  /** `validate_address`: not empty, then at least ten characters. */
  function ValidateAddress(address: string): (r: Verdict)
    ensures WellFormed(r)
    ensures r.valid <==> |address| >= 10
    ensures r.message == AddressMissing <==> address == []
    ensures r.message == AddressShort <==> 0 < |address| < 10
  {
    if address == [] then Verdict(false, AddressMissing)
    else if |address| < 10 then Verdict(false, AddressShort)
    else Valid
  }
}

=== FILE: wrappers.dfy ===
/** Optional values and fallible results, as used throughout the model in place
    of Python's `None` and of the exceptions a handler catches. */
module Wrappers {

  datatype Option<+T> = None | Some(value: T) {

    /** Returns the value held, or `default` when there is none (Python's `x or default`
        restricted to the None case). */
    function GetOr(default: T): T {
      match this
      case Some(v) => v
      case None => default
    }
  }

  /** A result that is either a value or an error message. */
  datatype Result<+T> = Success(value: T) | Failure(error: string) {

    predicate IsFailure() {
      Failure?
    }

    function PropagateFailure<U>(): Result<U>
      requires Failure?
    {
      Failure(error)
    }

    function Extract(): T
      requires Success?
    {
      value
    }
  }
}
